=== FILE: README.md ===
# A Dafny model of the portfolio site's front end

This project models the behaviour of a personal portfolio single-page application
written in React and TypeScript. The components and utilities it models are:

- The shared utilities: text truncation, the reading-time estimate and the e-mail check.
- The loading context and loading screen, both driven by timeouts.
- The route table and the navigation bar with its sliding indicator.
- The theme provider and the theme toggle.
- The text-splitting animation setup and its scroll-trigger start string.
- The Dynamic Island and its copy `skiper2`, whose mode switching runs on timers.
- The widgets the island shows: music, voice memo, call, screen recording and the AirDrop progress ring.
- The elastic slider.
- The hero orb's size-dependent styling.
- The glass surface's filter setup.
- The icon carousel.
- The application-wide constants.

The model has no DOM, browser or animation library. Each timer becomes an explicit due
time, and the clock advances through ordered, timestamped events. Random numbers,
measured sizes, the user agent and the browser's answers to feature probes are
parameters. JavaScript built-ins appear as pure functions. The string and number
built-ins shared by several components are in one module (`JsText`):

- `String.prototype.trim`, `indexOf`, `replace` and `padStart`;
- `Number.prototype.toString` and `parseInt`;
- `Math.max` and `Math.min`;
- the white-space class `\s`.

The others are defined next to the code that uses them:

- the truncating `%` and `Math.floor` of a quotient: `WidgetClock.JsRem` and `WidgetClock.FloorDiv`;
- `Math.round`: `ElasticSlider.Round`;
- `Array.prototype.findIndex`: `Navigation.FindIndex`.

Every function has a named result. Its `ensures` state what the result means; where a
property relates several calls it is a lemma.

## Model

| member | source | states |
|---|---|---|
| `JsText.Trim` | Source/Frontend/Universal/Utils/index.ts:52 | the result is the input minus its leading and trailing white space, and begins and ends with a non-space |
| `JsText.IntToString` | Source/Frontend/Universal/Components/GlassSurface/GlassSurface.tsx:148 | `toString` of an integer: only digits when non-negative, a minus sign followed by digits only when negative |
| `JsText.NatToString` | Temp/_components/music.tsx:46 | `toString` of a natural number: digits only, no leading zero, one digit exactly below 10 and at most two exactly below 100 |
| `JsText.NatToStringRoundTrip` | Source/Frontend/Universal/Components/GlassSurface/GlassSurface.tsx:148 | the digits printed for a natural number read back as that number |
| `JsText.NatToStringInjective` | Source/Frontend/Universal/Components/GlassSurface/GlassSurface.tsx:148 | distinct numbers print differently |
| `JsText.IntToStringInjective` | Source/Frontend/Universal/Components/GlassSurface/GlassSurface.tsx:148 | distinct integers, of either sign, print differently |
| `JsText.ParseInt` | Source/Frontend/Universal/Components/HeroOrb/HeroOrb.tsx:53 | `parseInt(s, 10)` is NaN exactly when, after white space and an optional sign, no digit follows |
| `JsText.ParseIntRoundTrip` | Source/Frontend/Universal/Components/HeroOrb/HeroOrb.tsx:53 | `parseInt` of a printed integer followed by any non-digit text gives the integer back |
| `JsText.DigitsEndAt` | Source/Frontend/Universal/Components/HeroOrb/HeroOrb.tsx:53 | the end of a digit run is the first non-digit, wherever one starts counting inside the run |
| `JsText.IndexOfFrom` | Source/Frontend/Universal/Components/HeroOrb/HeroOrb.tsx:53 | the first occurrence at or after a position, and none before it; None only when there is none at all |
| `JsText.IndexOf` | Source/Frontend/Universal/Components/GlassSurface/GlassSurface.tsx:202-203 | `indexOf`/`test` of a literal: the first occurrence of the pattern, None exactly when it occurs nowhere |
| `JsText.ReplaceFirst` | Source/Frontend/Universal/Components/HeroOrb/HeroOrb.tsx:53 | `replace` with a string pattern changes only the first occurrence, and nothing when there is none |
| `JsText.PadStart2` | Temp/_components/music.tsx:46 | `padStart(2, "0")` keeps the text as its suffix and fills only with zeros up to two characters |
| `Truncation.TruncateText` | Source/Frontend/Universal/Utils/index.ts:50-53 | text that fits is returned unchanged; longer text becomes its first `maxLength` characters without the surrounding white space, followed by "..." |
| `Truncation.TruncateTextExample` | Source/Frontend/Universal/Utils/index.ts:48 | the documented example: "This is a long text" cut at 10 gives "This is a..." |
| `ReadingTime.SplitFrom` | Source/Frontend/Universal/Utils/index.ts:35 | the pieces of `split(/\s+/)` contain no white space and there is at least one |
| `ReadingTime.SplitCount` | Source/Frontend/Universal/Utils/index.ts:35 | the number of pieces is one more than the number of white-space runs |
| `ReadingTime.CalculateReadingTime` | Source/Frontend/Universal/Utils/index.ts:33-37 | the minutes are the piece count divided by 200, rounded up, and never less than one |
| `ReadingTime.MinutesFor` | Source/Frontend/Universal/Utils/index.ts:36 | `Math.ceil(words / 200)`: the fewest whole minutes whose 200-word allowance covers the words |
| `ReadingTime.MinutesMonotone` | Source/Frontend/Universal/Utils/index.ts:36 | more words never take fewer minutes |
| `ReadingTime.MinutesOneForShortText` | Source/Frontend/Universal/Utils/index.ts:34-36 | up to 200 words read in one minute |
| `ReadingTime.SplitEdgeCases` | Source/Frontend/Universal/Utils/index.ts:35 | the empty text is one empty piece, and leading or trailing white space adds an empty piece; the empty text reads in one minute |
| `EmailCheck.ValidateEmail` | Source/Frontend/Universal/Utils/index.ts:66-69 | true exactly when the address is in the language of `^[^\s@]+@[^\s@]+\.[^\s@]+$` |
| `EmailCheck.MatchesEmailPattern` | Source/Frontend/Universal/Utils/index.ts:67 | a text in the pattern's language has at least five characters and no white space |
| `EmailCheck.ValidateEmailSound` | Source/Frontend/Universal/Utils/index.ts:67 | the direct check (no space, one '@' not first, a '.' with text on both sides after it) implies the pattern |
| `EmailCheck.ValidateEmailComplete` | Source/Frontend/Universal/Utils/index.ts:67 | the pattern implies the direct check |
| `EmailCheck.ValidateEmailExamples` | Source/Frontend/Universal/Utils/index.ts:63-64 | the documented examples: "user@example.com" passes, "invalid-email" fails |
| `LoadingContext.BodyFor` | Source/Frontend/Universal/Components/LoadingScreen/LoadingContext.tsx:34-44 | the body is locked exactly while loading and cleared exactly otherwise |
| `LoadingContext.Mount` | Source/Frontend/Universal/Components/LoadingScreen/LoadingContext.tsx:22-31 | mounting starts loading, locks the body and sets one timeout 6000 ms ahead |
| `LoadingContext.MountSound` | Source/Frontend/Universal/Components/LoadingScreen/LoadingContext.tsx:22-31 | the state right after mounting satisfies the invariant linking flag, timer and body |
| `LoadingContext.Advance` | Source/Frontend/Universal/Components/LoadingScreen/LoadingContext.tsx:26-28 | a due timeout clears the flag and the body; otherwise nothing changes |
| `LoadingContext.Unmount` | Source/Frontend/Universal/Components/LoadingScreen/LoadingContext.tsx:24-49 | unmounting cancels the timeout and clears the body, leaving the flag |
| `LoadingContext.Step` | Source/Frontend/Universal/Components/LoadingScreen/LoadingContext.tsx:24-50 | the clock reaches the event's time; nothing mounts the provider again; an unmount leaves it unmounted, and if it was mounted the timeout is cancelled and the body cleared; a cleared flag stays cleared |
| `LoadingContext.Run` | Source/Frontend/Universal/Components/LoadingScreen/LoadingContext.tsx:24-50 | the clock ends at the last event's time and an unmounted provider stays unmounted |
| `LoadingContext.StepSound` | Source/Frontend/Universal/Components/LoadingScreen/LoadingContext.tsx:24-50 | each event keeps the invariant linking flag, timer and body, and a cleared flag stays cleared |
| `LoadingContext.RunSound` | Source/Frontend/Universal/Components/LoadingScreen/LoadingContext.tsx:24-50 | any run of events keeps the invariant, and loading never restarts |
| `LoadingContext.LoadingUntilTimeout` | Source/Frontend/Universal/Components/LoadingScreen/LoadingContext.tsx:26-38 | left mounted, the flag and the body lock hold exactly for the first 6000 ms |
| `LoadingContext.UnmountCancelsTimeout` | Source/Frontend/Universal/Components/LoadingScreen/LoadingContext.tsx:24-49 | unmounting early means the flag is never cleared, and the body stays cleared |
| `LoadingContext.UseLoading` | Source/Frontend/Universal/Components/LoadingScreen/LoadingContext.tsx:9-15 | outside a provider the hook fails; inside it returns the provider's flag |
| `LoadingScreen.Mount` | Source/Frontend/Universal/Components/LoadingScreen/LoadingScreen.tsx:7-19 | visible, not exiting, with timeouts at 5200 and 6000 ms |
| `LoadingScreen.Advance` | Source/Frontend/Universal/Components/LoadingScreen/LoadingScreen.tsx:12-19 | each due timeout fires once and sets its flag; a timeout not due changes nothing |
| `LoadingScreen.Unmount` | Source/Frontend/Universal/Components/LoadingScreen/LoadingScreen.tsx:21-24 | both timeouts are cleared and what is shown is kept |
| `LoadingScreen.Render` | Source/Frontend/Universal/Components/LoadingScreen/LoadingScreen.tsx:27-32 | nothing once hidden, otherwise the base class with the exiting modifier exactly while exiting |
| `LoadingScreen.Timeline` | Source/Frontend/Universal/Components/LoadingScreen/LoadingScreen.tsx:10-25 | visible exactly before 6000 ms, exiting exactly from 5200 ms, and never hidden without having faded |
| `LoadingScreen.UnmountFreezes` | Source/Frontend/Universal/Components/LoadingScreen/LoadingScreen.tsx:21-24 | after unmounting no clock advance changes what is shown |
| `LoadingScreen.ExitingClassIffExiting` | Source/Frontend/Universal/Components/LoadingScreen/LoadingScreen.tsx:32 | the class ends in the exiting modifier exactly while exiting |
| `AppRoutes.MatchCount` | Source/Frontend/App.tsx:16-22 | no route matches exactly when no route's path is the pathname |
| `AppRoutes.MatchRoute` | Source/Frontend/App.tsx:16-22 | the page of a route whose path is the pathname, and none exactly when no route has it |
| `AppRoutes.EachPathOnePage` | Source/Frontend/App.tsx:17-21 | each of the five paths matches exactly one route, to its own page |
| `AppRoutes.NoCatchAll` | Source/Frontend/App.tsx:16-22 | any other path renders no page |
| `AppRoutes.RoutesKey` | Source/Frontend/App.tsx:16 | the routed subtree's key is the pathname alone |
| `AppRoutes.RemountIffPathChanges` | Source/Frontend/App.tsx:16-22 | query and hash never change the key; the same key always renders the same page; between two routed paths the key changes exactly when the rendered page does |
| `AppRoutes.RoutesMatchNavigation` | Source/Frontend/App.tsx:17-21 | every route has a navigation link and every link has a route |
| `SiteConstants.LoadingTimingsAgree` | Source/Frontend/Universal/Constants/index.ts:47-51 | 5200 ms shown plus 800 ms fade is the 6000 ms of the loading context, which is the timer the context and the screen set |
| `SiteConstants.PathsAgree` | Source/Frontend/Universal/Constants/index.ts:22-39 | the constants' items and the route table name the routes in order; the bar names the same set in another order and labels `/projects` differently |
| `SiteConstants.DefaultsAgree` | Source/Frontend/Universal/Constants/index.ts:55-79 | the scroll defaults, indicator delay and reading speed equal the values the components use |
| `SiteConstants.AirdropMilestonesAgree` | Source/Frontend/Universal/Constants/index.ts:85-91 | the milestone times rise strictly and are the AirDrop ring's timeouts |
| `WidgetClock.FloorDiv` | Temp/_components/music.tsx:44 | `Math.floor(a / b)`: the largest quotient whose multiple does not exceed the dividend |
| `WidgetClock.JsRem` | Temp/_components/music.tsx:45 | JavaScript's `%`: for a non-negative dividend the remainder of floor division, for a negative one a non-positive value above `-b` |
| `WidgetClock.PaddedClock` | Temp/_components/music.tsx:43-47 | the `MM:SS` text has at least five characters, a colon third from the end, and exactly five below 100 minutes |
| `WidgetClock.ShortClock` | Temp/_components/screen-record.tsx:12-16 | the `M:SS` text has at least four characters, a colon third from the end, and exactly four below 10 minutes |
| `WidgetClock.LeadingZero` | Temp/_components/music.tsx:46 | a leading zero keeps a digit string's value |
| `WidgetClock.PadKeepsValue` | Temp/_components/music.tsx:46 | a padded number's digits still read as the number |
| `WidgetClock.PaddedClockRoundTrip` | Temp/_components/music.tsx:43-47 | reading the `MM:SS` text back gives seconds below 60, and minutes times 60 plus seconds is the count |
| `WidgetClock.ShortClockRoundTrip` | Temp/_components/screen-record.tsx:12-16 | the same round trip for the `M:SS` text |
| `WidgetClock.ClocksAgree` | Temp/_components/screen-record.tsx:12-16 | both formats show the same seconds field; they differ only in the padding of the minutes |
| `WidgetClock.NegativeCountShowsBothSigns` | Temp/_components/music.tsx:43-47 | a negative count (-5) shows as "-1:-5", whose fields do not add back to the count |
| `SecondCounter.Firings` | Temp/_components/record.tsx:26-28 | the number of 1000 ms firings due by a time: the last one at or before it, the next one after it |
| `SecondCounter.Tick` | Temp/_components/music.tsx:29-31 | one firing adds one second, or, with a cap, adds it only below the cap |
| `SecondCounter.CountAfter` | Temp/_components/music.tsx:28-32 | after k firings the count is k more, held at the cap when there is one |
| `SecondCounter.FireTicks` | Temp/_components/music.tsx:28-32 | the next firing lies past the target and the count never falls; without a cap it grows by one per 1000 ms the next firing moved; with a cap it never passes it; nothing fires before the first due time |
| `SecondCounter.FireTicksClosedForm` | Temp/_components/music.tsx:28-32 | firing one at a time up to a time gives the closed-form count and moves the next firing past that time |
| `SecondCounter.FireTicksCompose` | Temp/_components/record.tsx:26-28 | firing up to one time and then up to a later one is firing up to the later one |
| `SecondCounter.Heights` | Temp/_components/music.tsx:14-16 | one height per random draw, each in [0.2, 1) |
| `SecondCounter.BarHeight` | Temp/_components/record.tsx:62 | `Math.max(floor, h * 14)`: at least both arguments, and equal to one of them |
| `MusicWidget.Mount` | Temp/_components/music.tsx:9-39 | mounting starts playing at one second, unflipped, with six heights and the first tick 1000 ms ahead |
| `MusicWidget.Advance` | Temp/_components/music.tsx:28-32 | the clock moves on, heights and pause flag are kept; paused nothing ticks; playing, the time rises but never past 120 and the next tick lies ahead |
| `MusicWidget.Apply` | Temp/_components/music.tsx:41-140 | pause toggles the flag; nothing else touches the flag or the interval; only a seek changes the time; while paused no redraw happens |
| `MusicWidget.Step` | Temp/_components/music.tsx:20-140 | the clock reaches the event's time; only the pause button flips the flag; without a seek the time never falls and stays within the track |
| `MusicWidget.Run` | Temp/_components/music.tsx:20-140 | the clock ends at the last event's time |
| `MusicWidget.StepSound` | Temp/_components/music.tsx:20-39 | each event keeps the interval running exactly while playing, never overdue, with six heights in range; without a seek the time stays within the track and never falls |
| `MusicWidget.RunStaysWithinTrack` | Temp/_components/music.tsx:20-39 | over any run of events without a seek the elapsed time stays within the 120 s track and never decreases |
| `MusicWidget.PlayingTimeline` | Temp/_components/music.tsx:28-32 | playing from mount, the time at t is one plus the whole seconds since mount, held at 120 |
| `MusicWidget.PausedHoldsTime` | Temp/_components/music.tsx:21 | while paused the time stands still |
| `MusicWidget.TimeRemaining` | Temp/_components/music.tsx:49 | the remaining time and the elapsed time add up to 120, and the remainder is negative only past the track |
| `MusicWidget.MusicBarHeight` | Temp/_components/music.tsx:99 | every bar is at least 4 px and is either 4 px or the scaled height; exactly 4 px while paused; otherwise the scaled height when that is at least 4 and 4 px when it is less |
| `MusicWidget.Render` | Temp/_components/music.tsx:112-120 | one bar per height: 4 px while paused, otherwise `Math.max(4, h * 14)` for its height; the remaining time starts with a minus; the elapsed text has five characters |
| `MusicWidget.ShownTimesAddUp` | Temp/_components/music.tsx:112-120 | the elapsed and remaining texts, read back, add up to the 120 s track |
| `RecordWidget.Mount` | Temp/_components/record.tsx:7-16 | the counter starts at one second with sixteen heights and the first tick 1000 ms ahead |
| `RecordWidget.Advance` | Temp/_components/record.tsx:26-28 | each due firing adds exactly one second and the next firing lies ahead |
| `RecordWidget.Redraw` | Temp/_components/record.tsx:21-23 | a waveform firing gives sixteen new heights and leaves the counter alone |
| `RecordWidget.Timeline` | Temp/_components/record.tsx:18-35 | at time t the counter is one plus the whole seconds since mount, without bound |
| `RecordWidget.AdvanceCompose` | Temp/_components/record.tsx:26-28 | advancing in two stretches is advancing once |
| `RecordWidget.Render` | Temp/_components/record.tsx:56-75 | one bar per height, exactly `Math.max(4, h * 14)`: at least 4 px and the scaled height, and equal to one of them; the counter text has five characters below 100 minutes |
| `PhoneWidget.Mount` | Temp/_components/phone.tsx:9-19 | the counter starts at one second with two arrays of eighteen heights and the first tick 1000 ms ahead |
| `PhoneWidget.Advance` | Temp/_components/phone.tsx:30-32 | each due firing adds one second; both arrays are kept |
| `PhoneWidget.Redraw` | Temp/_components/phone.tsx:24-27 | a waveform firing refreshes both arrays and leaves the counter and clock alone |
| `PhoneWidget.Timeline` | Temp/_components/phone.tsx:21-39 | at time t the counter is one plus the whole seconds since mount |
| `PhoneWidget.Render` | Temp/_components/phone.tsx:66-95 | one bar per height of the first array, exactly `Math.max(0, h * 14)`: at least 0 and the scaled height, and equal to one of them |
| `PhoneWidget.SecondArrayNeverShown` | Temp/_components/phone.tsx:81-95 | the second array has no effect on what is drawn |
| `PhoneWidget.FloorNeverApplies` | Temp/_components/phone.tsx:87 | with heights in [0.2, 1) every bar is the scaled height, at least 2.8 px, so the floor of 0 never applies |
| `ScreenRecordWidget.Mount` | Temp/_components/screen-record.tsx:7-10 | mounting is idle, not recording, at zero seconds, with the 1000 ms and 12500 ms timeouts pending and no interval |
| `ScreenRecordWidget.SetRecording` | Temp/_components/screen-record.tsx:19-42 | the timer flag follows the recording flag; a change starts the seconds interval 1000 ms ahead or clears it; nothing else moves |
| `ScreenRecordWidget.TicksThrough` | Temp/_components/screen-record.tsx:22-26 | only the count and the next firing change: the count grows by the firings due, and nothing happens without an interval |
| `ScreenRecordWidget.NextTimeout` | Temp/_components/screen-record.tsx:117-125 | the earliest pending timeout, none exactly when none is pending |
| `ScreenRecordWidget.PendingTimeouts` | Temp/_components/screen-record.tsx:117-125 | at most the two timeouts are pending, and none exactly when there is no next timeout |
| `ScreenRecordWidget.FireTimeout` | Temp/_components/screen-record.tsx:118-125 | a timeout firing keeps the clock and the count; the start timeout (the earlier, or the tie) enters recording with the recording flag set and clears itself; the save timeout enters the saved phase, stops recording and clears itself; the other timeout stays pending |
| `ScreenRecordWidget.Advance` | Temp/_components/screen-record.tsx:19-42 | the clock reaches the target and the count never falls |
| `ScreenRecordWidget.ClickButton` | Temp/_components/screen-record.tsx:152-155 | the button saves and stops recording, leaving the timeouts and the count |
| `ScreenRecordWidget.Step` | Temp/_components/screen-record.tsx:19-42 | the clock reaches the event's time and the count never falls; a click always ends saved and not recording |
| `ScreenRecordWidget.Run` | Temp/_components/screen-record.tsx:19-42 | the clock ends at the last event's time and the count never falls |
| `ScreenRecordWidget.MountSound` | Temp/_components/screen-record.tsx:7-10 | the mounted state satisfies the widget's invariant |
| `ScreenRecordWidget.AdvanceSound` | Temp/_components/screen-record.tsx:19-42 | advancing keeps the invariant (the interval runs exactly while recording, recording exactly in the record phase, timeouts ahead and in order) and never moves a pending timeout |
| `ScreenRecordWidget.StepSound` | Temp/_components/screen-record.tsx:19-42 | each event keeps the invariant and never lowers the count |
| `ScreenRecordWidget.RunEndsSaved` | Temp/_components/screen-record.tsx:117-131 | whatever is clicked, once 12500 ms have passed since mount the widget is saved and not recording |
| `ScreenRecordWidget.EarlyClickOverridden` | Temp/_components/screen-record.tsx:118-121 | a click before the first timeout is undone by it: the widget records anyway |
| `ScreenRecordWidget.SecondsWhileRecording` | Temp/_components/screen-record.tsx:22-26 | left alone, between the two timeouts the count is the whole seconds since the first one |
| `ScreenRecordWidget.Label` | Temp/_components/screen-record.tsx:74-95 | "Recording Saved" exactly in the saved phase, otherwise "Screen Recording" |
| `ScreenRecordWidget.Render` | Temp/_components/screen-record.tsx:70-95 | the label says saved exactly in the saved phase, and the counter is an `M:SS` text |
| `AirdropProgress.MilestonesIncreasing` | Temp/_components/airdrop.tsx:99-118 | later timeouts fire later and set more progress |
| `AirdropProgress.Shift` | Temp/_components/airdrop.tsx:99-118 | the timeouts at their absolute due times, with their values |
| `AirdropProgress.Mount` | Temp/_components/airdrop.tsx:9 | progress 0 with all five timeouts pending |
| `AirdropProgress.Advance` | Temp/_components/airdrop.tsx:99-118 | exactly the timeouts at the front of the queue that are due by the target fire; what stays pending is the rest, the first of which is due later; the progress is that of the last timeout fired, unchanged when none fired |
| `AirdropProgress.Unmount` | Temp/_components/airdrop.tsx:121-127 | unmounting clears every timeout and keeps the progress |
| `AirdropProgress.ProgressAt` | Temp/_components/airdrop.tsx:99-118 | the table of the five timeouts: 0 exactly before 600 ms, 105 exactly from 2700 ms, always one of the six values and never below a milestone already reached |
| `AirdropProgress.Timeline` | Temp/_components/airdrop.tsx:99-118 | observed at any time after mount, the progress is that of the last milestone reached (0, 25, 50, 75, 100 or 105) |
| `AirdropProgress.LaterFiresMore` | Temp/_components/airdrop.tsx:99-118 | running the clock further only fires more timeouts from the front: what stays pending later is the tail of what was pending earlier |
| `AirdropProgress.ProgressMonotone` | Temp/_components/airdrop.tsx:99-118 | the progress never goes back |
| `AirdropProgress.ShowsExit` | Temp/_components/airdrop.tsx:148 | the exit button replaces the ring exactly when the progress is past 100 |
| `AirdropProgress.ExitOnlyAtTheEnd` | Temp/_components/airdrop.tsx:116-118 | the exit button shows exactly from 2700 ms after mount |
| `AirdropProgress.UnmountFreezes` | Temp/_components/airdrop.tsx:121-127 | after unmounting no advance changes the progress |
| `AirdropProgress.ArcLength` | Temp/_components/airdrop.tsx:135 | the drawn share of the ring is the progress over 100 |
| `AirdropProgress.Radius` | Temp/_components/airdrop.tsx:130-132 | twice the radius plus the stroke is the box |
| `AirdropProgress.ArcsOfTheSchedule` | Temp/_components/airdrop.tsx:130-148 | on the schedule the arc stays within [0, 1.05] and overshoots the ring exactly when the exit button shows; the radius is 22 |
| `DynamicIsland.BounceFor` | Source/Frontend/Universal/Components/DynamicIsland/DynamicIsland.tsx:101-102 | a registered non-zero entry is used, any other own key falls back to 0.2 (inherited `Object.prototype` names are left out) |
| `DynamicIsland.Bounce` | Source/Frontend/Universal/Components/DynamicIsland/DynamicIsland.tsx:19-36 | the table's bounce for a registered key, 0.2 for any other key that is not an inherited `Object.prototype` name, within [0.2, 0.5] |
| `DynamicIsland.ViewContent` | Source/Frontend/Universal/Components/DynamicIsland/DynamicIsland.tsx:73-98 | a widget exactly for the eleven option names, the idle spacer exactly for "idle", nothing for any other view |
| `DynamicIsland.FireDue` | Source/Frontend/Universal/Components/DynamicIsland/DynamicIsland.tsx:183 | running the clock moves it to the target, keeps the key, and never adds a switch |
| `DynamicIsland.FireDueLeavesSuffix` | Source/Frontend/Universal/Components/DynamicIsland/DynamicIsland.tsx:183 | the switches left pending are the tail of the queue, so the fired ones are its front |
| `DynamicIsland.FireDueFiresOnlyDue` | Source/Frontend/Universal/Components/DynamicIsland/DynamicIsland.tsx:183 | every switch that fired was due by the target, and the first one left is due after it |
| `DynamicIsland.FireDueShowsLastFired` | Source/Frontend/Universal/Components/DynamicIsland/DynamicIsland.tsx:183 | the view is the target of the last switch fired, and unchanged when none fired |
| `DynamicIsland.SelectView` | Source/Frontend/Universal/Components/DynamicIsland/DynamicIsland.tsx:176-185 | choosing idle resets both fields; choosing another view collapses to idle, keys the transition "<shown>-<chosen>" and schedules the chosen view 500 ms ahead |
| `DynamicIsland.ResetToIdle` | Source/Frontend/Universal/Components/DynamicIsland/DynamicIsland.tsx:190-193 | both fields go back to idle and the scheduled switches are kept |
| `DynamicIsland.AirdropButton` | Temp/_components/airdrop.tsx:74-87 | wired to the island, Decline collapses the AirDrop view and Accept also schedules the mini view 500 ms later; elsewhere the buttons do not exist |
| `DynamicIsland.AirdropButtonAsWritten` | Source/Frontend/Universal/Components/DynamicIsland/DynamicIsland.tsx:84 | as wired, the AirDrop buttons fail in the AirDrop view, because their `setView` is undefined |
| `DynamicIsland.AirdropButtonsAsWrittenThrow` | Source/Frontend/Universal/Components/DynamicIsland/DynamicIsland.tsx:84 | as wired, neither button leaves the AirDrop view, while the corrected buttons always collapse it |
| `DynamicIsland.Initial` | Temp/skiper2.tsx:162-163 | both fields start as "idle", which renders the idle spacer, with nothing scheduled |
| `DynamicIsland.Apply` | Source/Frontend/Universal/Components/DynamicIsland/DynamicIsland.tsx:176-193 | a click either collapses the island to idle or changes nothing; a view button or the reset always collapses it; the reset also clears the key; no click cancels a scheduled switch, and at most one is added |
| `DynamicIsland.Step` | Source/Frontend/Universal/Components/DynamicIsland/DynamicIsland.tsx:176-193 | the clock reaches the event's time; a panel click leaves the island idle; at most one switch is added |
| `DynamicIsland.Run` | Source/Frontend/Universal/Components/DynamicIsland/DynamicIsland.tsx:176-193 | the clock ends at the last event's time, and each event adds at most one switch |
| `DynamicIsland.FireDueWellTimed` | Source/Frontend/Universal/Components/DynamicIsland/DynamicIsland.tsx:183 | firing due switches keeps them due in order and within one delay |
| `DynamicIsland.ScheduleWellTimed` | Source/Frontend/Universal/Components/DynamicIsland/DynamicIsland.tsx:183 | scheduling a switch one delay ahead keeps the timing discipline |
| `DynamicIsland.ApplyWellTimed` | Source/Frontend/Universal/Components/DynamicIsland/DynamicIsland.tsx:176-193 | every click keeps the timing discipline |
| `DynamicIsland.StepWellTimed` | Source/Frontend/Universal/Components/DynamicIsland/DynamicIsland.tsx:176-193 | every event keeps the timing discipline, so the timeouts form a queue fired from the front |
| `DynamicIsland.RunWellTimed` | Source/Frontend/Universal/Components/DynamicIsland/DynamicIsland.tsx:176-193 | any run of events keeps the timing discipline |
| `DynamicIsland.SwitchGoesThroughIdle` | Source/Frontend/Universal/Components/DynamicIsland/DynamicIsland.tsx:182-184 | a chosen view shows idle for the whole 500 ms and then the view |
| `DynamicIsland.ClickInsideWindowKeysFromIdle` | Source/Frontend/Universal/Components/DynamicIsland/DynamicIsland.tsx:184 | a second click inside the window is keyed from idle, whatever was shown before |
| `DynamicIsland.ResetDoesNotCancelSwitch` | Source/Frontend/Universal/Components/DynamicIsland/DynamicIsland.tsx:190-193 | a reset inside the window does not cancel the switch: the chosen view comes back once it is due |
| `DynamicIsland.AirdropAcceptOpensMini` | Temp/_components/airdrop.tsx:84-87 | with the buttons wired, Accept shows idle and then the mini view; Decline only collapses |
| `DynamicIsland.OptionsHaveNoDash` | Source/Frontend/Universal/Components/DynamicIsland/DynamicIsland.tsx:158-170 | no option name contains the dash that joins a variant key |
| `DynamicIsland.JoinedKeyProducible` | Source/Frontend/Universal/Components/DynamicIsland/DynamicIsland.tsx:184 | a key joined from two options splits back at its first dash into those options |
| `DynamicIsland.ScheduleKeepsTargets` | Source/Frontend/Universal/Components/DynamicIsland/DynamicIsland.tsx:183 | scheduling an option keeps every pending target an option |
| `DynamicIsland.InitialReachable` | Source/Frontend/Universal/Components/DynamicIsland/DynamicIsland.tsx:158-170 | the initial island shows an option, has no pending switch, and holds a producible key |
| `DynamicIsland.FireDueReachable` | Source/Frontend/Universal/Components/DynamicIsland/DynamicIsland.tsx:183 | firing switches keeps the view an option |
| `DynamicIsland.ApplyReachable` | Source/Frontend/Universal/Components/DynamicIsland/DynamicIsland.tsx:176-193 | a panel click keeps the view, the targets and the key well formed |
| `DynamicIsland.StepReachable` | Source/Frontend/Universal/Components/DynamicIsland/DynamicIsland.tsx:176-193 | each panel event keeps the island reachable |
| `DynamicIsland.RunReachable` | Source/Frontend/Universal/Components/DynamicIsland/DynamicIsland.tsx:176-193 | any run of panel clicks leaves the view an option and the key producible |
| `DynamicIsland.AridropKeysUnproducible` | Source/Frontend/Universal/Components/DynamicIsland/DynamicIsland.tsx:29-31 | the misspelt "aridrop-*" keys can never be produced by the panel |
| `DynamicIsland.AridropTypoIsHarmless` | Source/Frontend/Universal/Components/DynamicIsland/DynamicIsland.tsx:29-31 | spelling those keys "airdrop-*" would change no bounce, since their entries equal the default |
| `DynamicIsland.PrototypeKeysUnproducible` | Source/Frontend/Universal/Components/DynamicIsland/DynamicIsland.tsx:101-102 | no inherited `Object.prototype` name (`constructor`, `toString`, `__proto__`, ...) is a variant key the island can produce |
| `DynamicIsland.ReachableKeyIsNotInherited` | Source/Frontend/Universal/Components/DynamicIsland/DynamicIsland.tsx:101-102 | in every reachable state the variant key is not an inherited name, so the lookup with its 0.2 fallback is what the program computes and the bounce lies in [0.2, 0.5] |
| `Skiper2.Initial` | Temp/skiper2.tsx:162-163 | the page starts with both fields "idle", nothing scheduled, in a reachable state |
| `Skiper2.CapsuleBounces` | Temp/skiper2.tsx:54-67 | the capsule and its content spring with the same bounce: the table's non-zero entry, or 0.2 for an unknown key that is not an inherited `Object.prototype` name |
| `Skiper2.CopiesAgree` | Temp/skiper2.tsx:125-190 | the prototype's table and buttons are the island's, so both copies give every key the same bounce |
| `Skiper2.Click` | Temp/skiper2.tsx:141-150 | "idle" resets both fields; any other name collapses to idle, keys the transition from the view shown and schedules it 500 ms ahead |
| `Skiper2.Reset` | Temp/skiper2.tsx:111-115 | the reset sets both fields to idle and keeps the scheduled switches |
| `Skiper2.HandlersAgree` | Temp/skiper2.tsx:111-150 | the prototype's click and reset handlers are the island's, click for click |
| `Skiper2.ViewContent` | Temp/skiper2.tsx:24-49 | a widget exactly for the eleven buttons, and the same widget as the island for every view |
| `SplitText.Shown` | Source/Frontend/Universal/Components/SplitText/SplitText.tsx:98 | a space is shown as a no-break space; every other character as itself |
| `SplitText.CharSpan` | Source/Frontend/Universal/Components/SplitText/SplitText.tsx:93-99 | a character's span has the split class, inline-block display, and one character, a no-break space exactly for a space or a no-break space |
| `SplitText.Spans` | Source/Frontend/Universal/Components/SplitText/SplitText.tsx:87-103 | one span per character, each the character's span |
| `SplitText.SplitIntoCharacters` | Source/Frontend/Universal/Components/SplitText/SplitText.tsx:87-103 | one span per character, in order, each with the split class, inline-block display and the shown character |
| `SplitText.JoinedSpans` | Source/Frontend/Universal/Components/SplitText/SplitText.tsx:87-103 | the element's text after splitting is the original text with spaces turned into no-break spaces |
| `SplitText.SplitIdempotent` | Source/Frontend/Universal/Components/SplitText/SplitText.tsx:88-101 | splitting the already split element again gives the same spans |
| `SplitText.SplitRoundTrip` | Source/Frontend/Universal/Components/SplitText/SplitText.tsx:98 | turning no-break spaces back into spaces recovers a text that had none of its own |
| `SplitText.ParseUnit` | Source/Frontend/Universal/Components/SplitText/SplitText.tsx:109 | after the number only nothing or one of px, em, rem and % is accepted, and it is kept |
| `SplitText.ParseMargin` | Source/Frontend/Universal/Components/SplitText/SplitText.tsx:109 | a match of the margin pattern is a well-formed margin whose text is the input |
| `SplitText.RenderWhole` | Source/Frontend/Universal/Components/SplitText/SplitText.tsx:109 | the pieces cut without a fraction render back to the input |
| `SplitText.RenderFraction` | Source/Frontend/Universal/Components/SplitText/SplitText.tsx:109 | the pieces cut with a fraction render back to the input |
| `SplitText.ParseRender` | Source/Frontend/Universal/Components/SplitText/SplitText.tsx:109 | every well-formed margin is matched from its text, so the pattern accepts exactly those texts |
| `SplitText.ParseRenderWhole` | Source/Frontend/Universal/Components/SplitText/SplitText.tsx:109 | a well-formed margin without a fraction is read back from its text |
| `SplitText.ParseRenderFraction` | Source/Frontend/Universal/Components/SplitText/SplitText.tsx:109 | a well-formed margin with a fraction is read back from its text |
| `SplitText.MarginValueAndUnit` | Source/Frontend/Universal/Components/SplitText/SplitText.tsx:109-111 | a match gives its number and its unit (px by default); no match counts as 0 px |
| `SplitText.MarginSuffix` | Source/Frontend/Universal/Components/SplitText/SplitText.tsx:112-117 | no suffix exactly for a zero margin, "-=" before a negative one and "+=" before a positive one |
| `SplitText.ScrollTriggerStart` | Source/Frontend/Universal/Components/SplitText/SplitText.tsx:108-118 | the start is "top ", the percentage for the threshold up to the first '%', and then the margin's suffix |
| `SplitText.PercentSplits` | Source/Frontend/Universal/Components/SplitText/SplitText.tsx:118 | the first '%' after "top " ends the percentage, and what follows it is the suffix |
| `SplitText.StartDeterminesSettings` | Source/Frontend/Universal/Components/SplitText/SplitText.tsx:108-118 | two settings give the same start exactly when they agree on the threshold and the suffix |
| `SplitText.DefaultSuffix` | Source/Frontend/Universal/Components/SplitText/SplitText.tsx:56 | the default margin "-100px" gives the suffix "-=100px" |
| `SplitText.UnknownUnitSuffix` | Source/Frontend/Universal/Components/SplitText/SplitText.tsx:109-117 | a margin in an unknown unit ("10vh") adds no suffix |
| `SplitText.DefaultStart` | Source/Frontend/Universal/Components/SplitText/SplitText.tsx:55-56 | with the defaults the trigger starts at "top 90%-=100px" |
| `SplitText.UnknownUnitStart` | Source/Frontend/Universal/Components/SplitText/SplitText.tsx:108-118 | with the default threshold and "10vh" the trigger starts at "top 90%" |
| `SplitText.SetUp` | Source/Frontend/Universal/Components/SplitText/SplitText.tsx:79-118 | the effect runs exactly with an element, a non-empty text and loaded fonts; it then builds the element's spans and the start string for the threshold and margin |
| `Navigation.NavPathsDistinct` | Source/Frontend/Universal/Components/Navigation/Navigation.tsx:22-28 | no two items of the bar share a path |
| `Navigation.FindIndex` | Source/Frontend/Universal/Components/Navigation/Navigation.tsx:31 | `findIndex`: the first item with the path, and none exactly when no item has it |
| `Navigation.ActiveIndexFor` | Source/Frontend/Universal/Components/Navigation/Navigation.tsx:30-35 | a listed path selects its item; any other path keeps the previous index |
| `Navigation.ActiveIndexTable` | Source/Frontend/Universal/Components/Navigation/Navigation.tsx:22-35 | the five paths select items 0 to 4 in the bar's order; an unlisted path such as "/blog/" keeps the previous index |
| `Navigation.UpdateIndicator` | Source/Frontend/Universal/Components/Navigation/Navigation.tsx:38-52 | with both refs, the active child and its link present, the indicator's centre sits under the link's centre; otherwise the position is kept |
| `Navigation.IndicatorTranslationInvariant` | Source/Frontend/Universal/Components/Navigation/Navigation.tsx:47 | moving the container and its links together leaves the indicator's offset unchanged |
| `Navigation.LinkClass` | Source/Frontend/Universal/Components/Navigation/Navigation.tsx:112 | the link is marked active exactly when its path is the current path |
| `Navigation.Render` | Source/Frontend/Universal/Components/Navigation/Navigation.tsx:70-119 | nothing while loading; otherwise one link class per item |
| `Navigation.AtMostOneActive` | Source/Frontend/Universal/Components/Navigation/Navigation.tsx:112 | at most one link is marked active, and it is the item the active-index effect selects |
| `Navigation.Cleanup` | Source/Frontend/Universal/Components/Navigation/Navigation.tsx:63-67 | the cleanup removes exactly the last run's frame, retry and listener and leaves every other registration |
| `Navigation.RemoveAll` | Source/Frontend/Universal/Components/Navigation/Navigation.tsx:66 | removing a listener keeps exactly the other listeners |
| `Navigation.Rerun` | Source/Frontend/Universal/Components/Navigation/Navigation.tsx:37-68 | a re-run cleans up the previous run and registers a new frame, retry timer and resize listener for the new one; the earlier runs' registrations are kept only on the first run |
| `Navigation.TriggersReleased` | Source/Frontend/Universal/Components/Navigation/Navigation.tsx:37-68 | after any re-run only the latest run has registrations, at most one each, and the final cleanup releases them all |
| `ClassList.Remove` | Source/Frontend/Universal/Components/ThemeProvider/ThemeProvider.tsx:82 | `classList.remove`: exactly the listed tokens go, no token is added, and the list stays duplicate-free |
| `ClassList.Add` | Source/Frontend/Universal/Components/ThemeProvider/ThemeProvider.tsx:83 | `classList.add`: an empty token or one with white space throws; otherwise the token is there afterwards, nothing else is added, and no duplicate appears |
| `ThemeProvider.SystemPreference` | Source/Frontend/Universal/Components/ThemeProvider/ThemeProvider.tsx:42-45 | dark exactly when the colour-scheme query prefers dark, light otherwise |
| `ThemeProvider.InitialTheme` | Source/Frontend/Universal/Components/ThemeProvider/ThemeProvider.tsx:53-59 | a non-empty stored value wins, unvalidated; otherwise the system preference; the result is never empty |
| `ThemeProvider.ApplyClass` | Source/Frontend/Universal/Components/ThemeProvider/ThemeProvider.tsx:82-83 | afterwards the root holds the theme and its other classes less light and dark; an invalid token throws |
| `ThemeProvider.InitEffect` | Source/Frontend/Universal/Components/ThemeProvider/ThemeProvider.tsx:75-86 | both fields take the initial theme, the root gets its class, the store is marked initialised, storage is untouched; it throws exactly for an invalid token |
| `ThemeProvider.UpdateEffect` | Source/Frontend/Universal/Components/ThemeProvider/ThemeProvider.tsx:89-98 | before initialisation nothing happens; afterwards the root gets the class, storage the theme, and the resolved theme follows |
| `ThemeProvider.Mount` | Source/Frontend/Universal/Components/ThemeProvider/ThemeProvider.tsx:66-98 | a mounted provider holds the initial theme |
| `ThemeProvider.SetTheme` | Source/Frontend/Universal/Components/ThemeProvider/ThemeProvider.tsx:106-108 | setting the current theme again changes nothing; a new light or dark theme leaves an initialised store consistent |
| `ThemeProvider.UseTheme` | Source/Frontend/Universal/Components/ThemeProvider/ThemeProvider.tsx:124-130 | outside a provider the hook fails; inside it returns the context |
| `ThemeProvider.MountConsistent` | Source/Frontend/Universal/Components/ThemeProvider/ThemeProvider.tsx:66-98 | once mounted the store is consistent with the initial theme, and the root's other classes are kept less light and dark |
| `ThemeProvider.DefaultThemeIgnored` | Source/Frontend/Universal/Components/ThemeProvider/ThemeProvider.tsx:68 | the `defaultTheme` prop never changes the outcome of mounting |
| `ThemeProvider.StoredValueNotValidated` | Source/Frontend/Universal/Components/ThemeProvider/ThemeProvider.tsx:54-56 | a stored "blue" becomes the theme, leaving neither light nor dark on the root |
| `ThemeProvider.EmptyStoredValueFallsBack` | Source/Frontend/Universal/Components/ThemeProvider/ThemeProvider.tsx:55 | an empty stored value falls back to the system preference |
| `ThemeProvider.StoredValueWithSpaceThrows` | Source/Frontend/Universal/Components/ThemeProvider/ThemeProvider.tsx:83 | a stored value with a space makes mounting throw |
| `ThemeProvider.SetThemeConsistent` | Source/Frontend/Universal/Components/ThemeProvider/ThemeProvider.tsx:89-108 | every change to light or dark keeps the store consistent and leaves the unrelated classes of the root as they were |
| `ThemeProvider.StaleClassSurvives` | Source/Frontend/Universal/Components/ThemeProvider/ThemeProvider.tsx:94 | the class of an unvalidated stored theme stays on the root after switching to a real theme |
| `ThemeProvider.NoStorageWriteBeforeInit` | Source/Frontend/Universal/Components/ThemeProvider/ThemeProvider.tsx:91 | nothing is written before initialisation |
| `ThemeToggle.Toggled` | Source/Frontend/Universal/Components/ThemeToggle/ThemeToggle.tsx:92 | light becomes dark; anything else becomes light |
| `ThemeToggle.ToggledInvolution` | Source/Frontend/Universal/Components/ThemeToggle/ThemeToggle.tsx:92 | on the two real themes the flip changes the theme and undoes itself |
| `ThemeToggle.CountId` | Source/Frontend/Universal/Components/ThemeToggle/ThemeToggle.tsx:76 | the count of head elements with an id is zero exactly when none has it |
| `ThemeToggle.FindId` | Source/Frontend/Universal/Components/ThemeToggle/ThemeToggle.tsx:76 | `getElementById`: the first element with the id, or the end when none has it |
| `ThemeToggle.CountIdUpdate` | Source/Frontend/Universal/Components/ThemeToggle/ThemeToggle.tsx:84 | rewriting an element in place keeps the count of its id |
| `ThemeToggle.CountIdAppend` | Source/Frontend/Universal/Components/ThemeToggle/ThemeToggle.tsx:78-82 | appending an element adds one to its id's count |
| `ThemeToggle.CreateAnimation` | Source/Frontend/Universal/Components/ThemeToggle/ThemeToggle.tsx:22-85 | the head ends up with exactly one transition style element holding the styles; an existing one is overwritten in place and every other element is kept, otherwise the element is appended to the head unchanged |
| `ThemeToggle.Click` | Source/Frontend/Universal/Components/ThemeToggle/ThemeToggle.tsx:87-101 | a click flips the local flag, keeps one style element, and asks the provider exactly once for the flipped theme, with or without view transitions |
| `ThemeToggle.Sync` | Source/Frontend/Universal/Components/ThemeToggle/ThemeToggle.tsx:18-20 | the flag follows the resolved theme and the head is untouched |
| `ThemeToggle.ClickFlipsTheme` | Source/Frontend/Universal/Components/ThemeToggle/ThemeToggle.tsx:87-101 | on a consistent store a click switches to the other theme, keeps the store consistent, and the re-synced flag shows it |
| `HeroOrb.MergeColors` | Source/Frontend/Universal/Components/HeroOrb/HeroOrb.tsx:42-50 | without a `colors` prop the defaults; with one, each given key wins and each missing key keeps its default |
| `HeroOrb.MergeIsPerKey` | Source/Frontend/Universal/Components/HeroOrb/HeroOrb.tsx:50 | a key left out keeps its default, an empty prop changes nothing, and a full prop ignores the defaults |
| `HeroOrb.ParseSize` | Source/Frontend/Universal/Components/HeroOrb/HeroOrb.tsx:53 | without "px" in it the size is read by `parseInt` as it stands |
| `HeroOrb.ParseSizeRoundTrip` | Source/Frontend/Universal/Components/HeroOrb/HeroOrb.tsx:53 | a size written as a whole number of pixels reads back as that number |
| `HeroOrb.DefaultSizeIs192` | Source/Frontend/Universal/Components/HeroOrb/HeroOrb.tsx:36 | the default size reads as 192 |
| `HeroOrb.SizeQuirks` | Source/Frontend/Universal/Components/HeroOrb/HeroOrb.tsx:53 | "12.5px" reads as 12, and "px100" as 100 because only the first "px" is removed |
| `JsText.Max` | Source/Frontend/Universal/Components/HeroOrb/HeroOrb.tsx:61 | `Math.max`: at least both arguments and equal to one of them |
| `HeroOrb.BlurPx` | Source/Frontend/Universal/Components/HeroOrb/HeroOrb.tsx:59-62 | the blur is 1 px below 50 px, the 4 px floor from 50 to 266 px, and 1.5% of the size from 267 px |
| `HeroOrb.BaseContrast` | Source/Frontend/Universal/Components/HeroOrb/HeroOrb.tsx:68-71 | the base contrast is 1.2 below 50 px, the 1.5 floor from 50 to 187 px, and 0.8% of the size from 188 px |
| `HeroOrb.FinalContrast` | Source/Frontend/Universal/Components/HeroOrb/HeroOrb.tsx:108-113 | the contrast is 1.1 below 30 px, 1.44 (the 1.2 base boosted by 1.2) from 30 to 49 px, and the base contrast, at least 1.5, from 50 px |
| `HeroOrb.DotSizePx` | Source/Frontend/Universal/Components/HeroOrb/HeroOrb.tsx:77-80 | the dots are the 0.05 px floor up to 12 px, 0.4% of the size from 13 to 49 px, and 0.8% of the size from 50 px |
| `HeroOrb.ShadowSpreadPx` | Source/Frontend/Universal/Components/HeroOrb/HeroOrb.tsx:86-89 | the shadow spreads 0.5 px below 50 px, the 2 px floor from 50 to 249 px, and 0.8% of the size from 250 px |
| `HeroOrb.MaskPercent` | Source/Frontend/Universal/Components/HeroOrb/HeroOrb.tsx:95-102 | the mask is one of 0, 5, 15 and 25%: 0 exactly below 30 px, 5 exactly from 30 to 49 px, 15 exactly from 50 to 99 px and 25 exactly from 100 px |
| `HeroOrb.MaskRadius` | Source/Frontend/Universal/Components/HeroOrb/HeroOrb.tsx:95-102 | the mask text ends in '%' and reads back as the mask percentage |
| `HeroOrb.MaskRadiusTexts` | Source/Frontend/Universal/Components/HeroOrb/HeroOrb.tsx:95-102 | the mask text is "0%", "5%", "15%" or "25%" by size band |
| `HeroOrb.ParametersMonotone` | Source/Frontend/Universal/Components/HeroOrb/HeroOrb.tsx:59-113 | a bigger orb never gets less blur, contrast, dot size, shadow or mask |
| `HeroOrb.SmallOrbsShareParameters` | Source/Frontend/Universal/Components/HeroOrb/HeroOrb.tsx:59-113 | below 50 px every orb has a 1 px blur and a 0.5 px shadow, and from 30 px a contrast of 1.44 |
| `HeroOrb.Style` | Source/Frontend/Universal/Components/HeroOrb/HeroOrb.tsx:53-113 | no style exactly when the size reads as NaN; otherwise the size's blur, contrast, dot size, shadow spread and mask |
| `HeroOrb.StyleGrowsWithPxSize` | Source/Frontend/Universal/Components/HeroOrb/HeroOrb.tsx:53-113 | every size written as `"<n>px"` gets a style, and a bigger one never gets less blur, contrast, dot size or shadow |
| `GlassSurface.SanitiseId` | Source/Frontend/Universal/Components/GlassSurface/GlassSurface.tsx:86 | the id keeps its length and its other characters, and every colon becomes a hyphen |
| `GlassSurface.SanitiseIdempotent` | Source/Frontend/Universal/Components/GlassSurface/GlassSurface.tsx:86 | sanitising twice is sanitising once, and an id without colons is kept |
| `GlassSurface.FilterId` | Source/Frontend/Universal/Components/GlassSurface/GlassSurface.tsx:87 | the filter id is "glass-filter-" followed by the id |
| `GlassSurface.RedGradId` | Source/Frontend/Universal/Components/GlassSurface/GlassSurface.tsx:88 | the red gradient id is "red-grad-" followed by the id |
| `GlassSurface.BlueGradId` | Source/Frontend/Universal/Components/GlassSurface/GlassSurface.tsx:89 | the blue gradient id is "blue-grad-" followed by the id |
| `GlassSurface.IdsDistinct` | Source/Frontend/Universal/Components/GlassSurface/GlassSurface.tsx:86-89 | the three ids never clash, and different surfaces get different ids |
| `GlassSurface.FilterRef` | Source/Frontend/Universal/Components/GlassSurface/GlassSurface.tsx:221 | the filter reference is "url(#" around the filter id |
| `GlassSurface.ActualSize` | Source/Frontend/Universal/Components/GlassSurface/GlassSurface.tsx:104-105 | the measured size unless it is missing or zero, then the fallback |
| `JsText.Min` | Source/Frontend/Universal/Components/GlassSurface/GlassSurface.tsx:106 | `Math.min`: at most both arguments and equal to one of them |
| `GlassSurface.MapGeometry` | Source/Frontend/Universal/Components/GlassSurface/GlassSurface.tsx:102-106 | the map's size is the measured size, or 400 by 200 when there is no element or a zero size; the inset edge is the shorter side times half the border width, and the inner rectangle is inset by that edge on both sides |
| `GlassSurface.InnerRectFits` | Source/Frontend/Universal/Components/GlassSurface/GlassSurface.tsx:106-123 | for a border width within [0, 1] the inset is at most half the shorter side, so the inner rectangle is never negative |
| `GlassSurface.DefaultGeometry` | Source/Frontend/Universal/Components/GlassSurface/GlassSurface.tsx:69-106 | with no element and the default border width the map is 400 by 200 with an inset of 7 |
| `GlassSurface.NumberText` | Source/Frontend/Universal/Components/GlassSurface/GlassSurface.tsx:148 | a whole number's text reads back as the number, and is canonical: digits without a leading zero, after a '-' for a negative number |
| `GlassSurface.ChannelScales` | Source/Frontend/Universal/Components/GlassSurface/GlassSurface.tsx:142-152 | the three channels' scales read back as the distortion scale plus each offset |
| `GlassSurface.DefaultChannelScales` | Source/Frontend/Universal/Components/GlassSurface/GlassSurface.tsx:76-79 | the default props give the scales "-180", "-170" and "-160" |
| `GlassSurface.BlurDeviation` | Source/Frontend/Universal/Components/GlassSurface/GlassSurface.tsx:154 | the blur deviation reads back as `displace` |
| `GlassSurface.SizeStyle` | Source/Frontend/Universal/Components/GlassSurface/GlassSurface.tsx:216-217 | a number becomes that many pixels; a string is kept |
| `GlassSurface.Style` | Source/Frontend/Universal/Components/GlassSurface/GlassSurface.tsx:214-222 | the container style has the sized width and height, a radius that reads back as the prop, and the filter reference |
| `GlassSurface.DefaultStyle` | Source/Frontend/Universal/Components/GlassSurface/GlassSurface.tsx:66-68 | the default radius is written "16px" |
| `GlassSurface.SupportsSvgFilters` | Source/Frontend/Universal/Components/GlassSurface/GlassSurface.tsx:201-212 | Firefox, and Safari without Chrome, get the fallback; otherwise the browser's answer to the probe decides |
| `GlassSurface.UserAgentRule` | Source/Frontend/Universal/Components/GlassSurface/GlassSurface.tsx:201-212 | a Chrome agent is left to the probe, while Safari and Firefox agents get the fallback whatever the probe says |
| `GlassSurface.ModeClass` | Source/Frontend/Universal/Components/GlassSurface/GlassSurface.tsx:227 | the SVG class when filters are supported, the fallback class otherwise |
| `GlassSurface.ClassName` | Source/Frontend/Universal/Components/GlassSurface/GlassSurface.tsx:227 | the base class, the mode class and the caller's classes, separated by spaces |
| `GlassSurface.ClassNameShowsMode` | Source/Frontend/Universal/Components/GlassSurface/GlassSurface.tsx:227 | the class tells which mode the surface is in |
| `ElasticSlider.Clamp01` | Source/Frontend/Universal/Components/DynamicIsland/Components/ElasticSlider.tsx:38 | the share is clamped to [0, 1], and a share inside it is kept |
| `ElasticSlider.Round` | Source/Frontend/Universal/Components/DynamicIsland/Components/ElasticSlider.tsx:39 | `Math.round`: the integer nearest the value, halves rounding up |
| `ElasticSlider.Fraction` | Source/Frontend/Universal/Components/DynamicIsland/Components/ElasticSlider.tsx:36-38 | the pointer's clamped share of the track, 0 left of it and 1 right of it; NaN exactly on a zero-width track at its left edge |
| `ElasticSlider.ShareOfWidth` | Source/Frontend/Universal/Components/DynamicIsland/Components/ElasticSlider.tsx:38 | inside the track the share lies in [0, 1] and times the width gives the offset back |
| `ElasticSlider.UpdateValue` | Source/Frontend/Universal/Components/DynamicIsland/Components/ElasticSlider.tsx:33-41 | nothing before the element exists, NaN exactly when the share is NaN, otherwise a value within [0, max]: 0 left of the track and max right of it |
| `ElasticSlider.ScaleBounds` | Source/Frontend/Universal/Components/DynamicIsland/Components/ElasticSlider.tsx:39 | the rounded share of max stays within [0, max], with 0 and max at the edges |
| `ElasticSlider.UpdateMonotone` | Source/Frontend/Universal/Components/DynamicIsland/Components/ElasticSlider.tsx:33-41 | moving the pointer right never lowers the value |
| `ElasticSlider.DisplayPercent` | Source/Frontend/Universal/Components/DynamicIsland/Components/ElasticSlider.tsx:52 | no percentage exactly when max is 0; otherwise the value's share of max in percent, within [0, 100] for a value in range |
| `ElasticSlider.PressOnKnobGivesValue` | Source/Frontend/Universal/Components/DynamicIsland/Components/ElasticSlider.tsx:33-52 | pressing where the knob is drawn gives back the slider's value |
| `ElasticSlider.Handle` | Source/Frontend/Universal/Components/DynamicIsland/Components/ElasticSlider.tsx:18-50 | a press starts a drag and updates the value; a move updates it only while dragging; a release ends the drag; the listener is attached exactly while dragging |
| `ElasticSlider.StateAfter` | Source/Frontend/Universal/Components/DynamicIsland/Components/ElasticSlider.tsx:43-50 | after any events the document listener is attached exactly while dragging |
| `ElasticSlider.ChangeAt` | Source/Frontend/Universal/Components/DynamicIsland/Components/ElasticSlider.tsx:18-31 | a release never changes the value, and a press always updates it |
| `ElasticSlider.DraggingIffHeld` | Source/Frontend/Universal/Components/DynamicIsland/Components/ElasticSlider.tsx:15-50 | the slider drags exactly when a press has not yet been followed by a release |
| `ElasticSlider.ChangesOnlyWhileHeld` | Source/Frontend/Universal/Components/DynamicIsland/Components/ElasticSlider.tsx:18-41 | with the track mounted, an event changes the value exactly when it is a press, or a move while a press is held |
| `IconCarousel.Duplicated` | Source/Frontend/Universal/Components/IconCarousel/IconCarousel.tsx:27 | the track holds the icons three times over, each copy in order |
| `IconCarousel.SetWidth` | Source/Frontend/Universal/Components/IconCarousel/IconCarousel.tsx:30-32 | one set is the icon count times 64 px |
| `IconCarousel.DuplicatedShift` | Source/Frontend/Universal/Components/IconCarousel/IconCarousel.tsx:27 | the item one set further along is the same icon |
| `IconCarousel.ShiftPx` | Source/Frontend/Universal/Components/IconCarousel/IconCarousel.tsx:40-50 | the shift stays within one set and is 0 at every loop boundary |
| `IconCarousel.ShiftPeriodic` | Source/Frontend/Universal/Components/IconCarousel/IconCarousel.tsx:44-48 | the animation repeats every 20 s |
| `IconCarousel.ShiftMonotoneInLoop` | Source/Frontend/Universal/Components/IconCarousel/IconCarousel.tsx:40-49 | within a loop the strip moves one way only |
| `IconCarousel.SlotAt` | Source/Frontend/Universal/Components/IconCarousel/IconCarousel.tsx:30-32 | the slot under a pixel is the one whose 64 px span contains it |
| `IconCarousel.IconAt` | Source/Frontend/Universal/Components/IconCarousel/IconCarousel.tsx:52-56 | the icon under a pixel comes from the first set in the first slots and from the second set after that |
| `IconCarousel.TrackCoversViewport` | Source/Frontend/Universal/Components/IconCarousel/IconCarousel.tsx:27-41 | for a viewport up to two sets wide no pixel runs off the end of the track |
| `IconCarousel.LoopIsSeamless` | Source/Frontend/Universal/Components/IconCarousel/IconCarousel.tsx:27-46 | at the end of a loop every pixel shows the icon it showed at the start |
| `IconCarousel.SiteCarousel` | Source/Frontend/Universal/Components/IconCarousel/IconCarousel.tsx:9-56 | the site's strip has 24 items and a 512 px loop, and jumps back seamlessly for any viewport up to 1024 px |

## Left out

- Strings are sequences of characters, not UTF-16 code units, so `length` and `slice` on text outside the Basic Multilingual Plane are not modelled.
- Floating-point arithmetic is modelled with exact reals, and IEEE rounding, NaN and infinities appear only where a component branches on them. The slider's NaN and its zero-width track are such cases.
- JavaScript's `Number.prototype.toString` is modelled for integers only. This is why the SplitText start string is stated only for whole margins.
- SplitText.MarginSuffix: requires a margin whose number is whole, because `Number.toString` of a fraction is not modelled. The parser itself accepts fractions and reads their exact value.
- SplitText.ScrollTriggerStart: takes the threshold in hundredths and the margin as whole, for the same reason. A threshold such as 0.15 that does not land on a whole hundredth is not covered.
- The GSAP, ScrollTrigger and `document.fonts` calls in SplitText are left out. Only the split, the guard and the start string are modelled.
- The framer-motion springs, CSS animations and view-transition stylesheets are declarative styling and are left out. The variant keys and bounce values that select them are modelled.
- The Threads WebGL background is left out. It is shader code with float noise and a render loop.
- `formatDate` and `reportWebVitals` in the utilities are left out. They depend on locale formatting, `PerformanceObserver` and the console.
- Real timers, React scheduling and StrictMode double effects are left out. Every timer is a due time, and the clock advances by explicit, ordered events.
- Timers that fall due at the same moment fire in the order they were set. In the screen-recording widget the timeouts fire before that moment's interval tick.
- `Math.random` is left out. The waveform samples are inputs, assumed to lie in [0.2, 1), one per bar.
- The 100 ms waveform interval firings are inputs (`Redraw`), not computed from the clock, because they only carry fresh random numbers.
- The music widget's seek slider comes from a module that is not part of this model. `Seek` therefore accepts any integer, and the bound on the playing time is proved only for runs without seeks.
- The GlassSurface SVG displacement map, its `encodeURIComponent` data URL, the `backdrop-filter` probe, `ResizeObserver` and the `setTimeout(0)` re-measure are left out. The probe's answer is a parameter.
- HeroOrb.ParseSize: an unparsable size is `None` (NaN). The styles computed from NaN are not modelled, so `Style` gives `None` for such a size.
- GlassSurface.Style: the `--glass-frost` and `--glass-saturation` custom properties and the caller's `...style` spread are left out. The first two pass props straight into CSS, and the spread merges arbitrary caller styles over the computed ones.
- HeroOrb's `animationDuration` and its stylesheet are left out. They are passed straight into CSS.
- HeroOrb.MergeColors: a colour key passed explicitly as `undefined` is treated as absent. In JavaScript the spread would keep the `undefined`.
- Numeric props such as border widths, distortion scales and offsets are integers or exact reals. Non-integer values formatted into strings are not modelled.
- IconCarousel.ShiftPx: specialised to the site's eight icons and gives whole pixels rounded down. The animation's real-valued, eased position between frames is not modelled.
- DynamicIsland.Bounce, DynamicIsland.BounceFor, Skiper2.CapsuleBounces: the lookup sees only the table's own keys. For a key inherited from `Object.prototype`, such as `constructor` or `toString`, JavaScript's `table[key] || 0.2` gives the inherited member, not 0.2, so the [0.2, 0.5] bound does not describe such keys. `DynamicIsland.ReachableKeyIsNotInherited` shows that the island never produces one.
- DynamicIsland.Apply: routes the AirDrop Accept and Decline inputs through the corrected wiring (`AirdropButton`), not the as-written one that throws. `Step` and `Run` inherit this, so the runs describe the island as evidently intended. The as-written behaviour is stated separately by `AirdropButtonAsWritten`.
- React Router's matching details are left out: trailing slashes, case-insensitivity and nested routes. Paths match exactly.
- The static pages, layout, header, footer and build files are left out. They hold markup with no logic.

## Findings

| source | as written | input that shows it | evidently intended | confidence | as-written member | corrected member |
|---|---|---|---|---|---|---|
| Source/Frontend/Universal/Components/DynamicIsland/DynamicIsland.tsx:84 | the AirDrop widget is rendered with `setView={undefined}` (the same holds at Temp/skiper2.tsx:35) | select "airdrop", then click Accept or Decline: the handler calls `undefined("idle")`, which throws a TypeError, and the view stays on AirDrop | pass the island's own `setView`, so that Decline collapses to idle and Accept also opens the mini view 500 ms later | not executed | `DynamicIsland.AirdropButtonAsWritten` (see `DynamicIsland.AirdropButtonsAsWrittenThrow`) | `DynamicIsland.AirdropButton` (see `DynamicIsland.AirdropAcceptOpensMini`) |

=== FILE: airdrop.dfy ===
/** The AirDrop progress ring: five timeouts set at mount move the progress through
    25, 50, 75, 100 and 105; past 100 the ring gives way to the exit button. */
module AirdropProgress {

  /** One timeout: when it fires (ms after mount) and the progress it sets. */
  datatype Milestone = Milestone(atMs: int, value: int)

  const Milestones: seq<Milestone> := [
    Milestone(600, 25),
    Milestone(1700, 50),
    Milestone(2100, 75),
    Milestone(2400, 100),
    Milestone(2700, 105)
  ]

  /** The ring's geometry: a 50-unit box and a 6-unit stroke. */
  const Size: int := 50
  const StrokeWidth: int := 6

  /** Later timeouts fire later and set more progress. */
  predicate Increasing(ms: seq<Milestone>) {
    forall i, j :: 0 <= i < j < |ms| ==> ms[i].atMs < ms[j].atMs && ms[i].value < ms[j].value
  }

  lemma MilestonesIncreasing()
    ensures Increasing(Milestones)
  {
  }

  /** The loader's state: the clock, the progress, and the timeouts still pending, at
      their absolute due times and in due order. */
  datatype Loader = Loader(now: int, progress: int, pending: seq<Milestone>)

  function Shift(ms: seq<Milestone>, t: int): (r: seq<Milestone>)
    ensures |r| == |ms|
    ensures forall k :: 0 <= k < |r| ==> r[k] == Milestone(ms[k].atMs + t, ms[k].value)
  {
    seq(|ms|, k requires 0 <= k < |ms| => Milestone(ms[k].atMs + t, ms[k].value))
  }

  /** Mounting at `t`: progress 0, all five timeouts pending. */
  function Mount(t: int): (l: Loader)
    ensures l.progress == 0 && l.now == t && |l.pending| == 5
  {
    Loader(t, 0, Shift(Milestones, t))
  }

  /** How many timeouts at the front of the queue are due by `t`. */
  function DueCount(pending: seq<Milestone>, t: int): (n: nat)
    ensures n <= |pending|
    ensures forall k :: 0 <= k < n ==> pending[k].atMs <= t
    ensures n < |pending| ==> pending[n].atMs > t
  {
    if pending != [] && pending[0].atMs <= t then 1 + DueCount(pending[1..], t) else 0
  }

  /** Let the clock run to `t`: the due timeouts fire in order, each setting its value,
      so the progress is that of the last one fired. */
  function Advance(l: Loader, t: int): (r: Loader)
    requires t >= l.now
    decreases |l.pending|
    ensures r.now == t
    ensures r.pending == l.pending[DueCount(l.pending, t)..]
    ensures r.pending != [] ==> r.pending[0].atMs > t
    ensures var n := DueCount(l.pending, t);
            r.progress == if n == 0 then l.progress else l.pending[n - 1].value
  {
    if l.pending != [] && l.pending[0].atMs <= t then
      var l1 := Loader(l.now, l.pending[0].value, l.pending[1..]);
      var n := DueCount(l.pending, t);
      assert l1.pending[n - 1..] == l.pending[n..];
      assert n > 1 ==> l1.pending[n - 2] == l.pending[n - 1];
      Advance(l1, t)
    else l.(now := t)
  }

  /** Unmounting clears every pending timeout. */
  function Unmount(l: Loader): (r: Loader)
    ensures r.pending == [] && r.progress == l.progress && r.now == l.now
  {
    l.(pending := [])
  }

  /** The schedule as a table: the progress `elapsed` ms after mount. */
  function ProgressAt(elapsed: int): (p: int)
    ensures elapsed < 600 <==> p == 0
    ensures elapsed >= 2700 <==> p == 105
    ensures p == 0 || p == 25 || p == 50 || p == 75 || p == 100 || p == 105
    ensures forall k :: 0 <= k < |Milestones| && Milestones[k].atMs <= elapsed ==> Milestones[k].value <= p
  {
    if elapsed >= 2700 then 105
    else if elapsed >= 2400 then 100
    else if elapsed >= 2100 then 75
    else if elapsed >= 1700 then 50
    else if elapsed >= 600 then 25
    else 0
  }

  /** The loader follows the table: mounted at `t0` and observed at `t`, it shows the
      progress of the last milestone reached. */
  lemma Timeline(t0: int, t: int)
    requires t >= t0
    ensures Advance(Mount(t0), t).progress == ProgressAt(t - t0)
  {
    var n := MountedDue(t0, t);
    TableAt(n, t - t0);
  }

  /** The timeouts due `t - t0` ms after mounting at `t0` are the first `n` of the
      table, and they set the table's values. */
  lemma MountedDue(t0: int, t: int) returns (n: nat)
    ensures n == DueCount(Mount(t0).pending, t) && n <= |Milestones|
    ensures n < |Milestones| ==> Milestones[n].atMs > t - t0
    ensures n > 0 ==> Milestones[n - 1].atMs <= t - t0 && Mount(t0).pending[n - 1].value == Milestones[n - 1].value
  {
    var l := Mount(t0);
    n := DueCount(l.pending, t);
    if n < |Milestones| {
      assert l.pending[n] == Milestone(Milestones[n].atMs + t0, Milestones[n].value);
    }
    if n > 0 {
      assert l.pending[n - 1] == Milestone(Milestones[n - 1].atMs + t0, Milestones[n - 1].value);
    }
  }

  /** Reading the table: once exactly the first `n` milestones are reached, the
      progress is the last of them, or 0 when there is none. */
  lemma TableAt(n: nat, elapsed: int)
    requires n <= |Milestones|
    requires n < |Milestones| ==> Milestones[n].atMs > elapsed
    requires n > 0 ==> Milestones[n - 1].atMs <= elapsed
    ensures ProgressAt(elapsed) == if n == 0 then 0 else Milestones[n - 1].value
  {
  }

  /** Running the clock further only fires more timeouts from the same front: what is
      pending at the later time is the tail of what was pending at the earlier one. */
  lemma LaterFiresMore(l: Loader, t1: int, t2: int)
    requires l.now <= t1 <= t2
    ensures var r1, r2 := Advance(l, t1), Advance(l, t2);
            && |r2.pending| <= |r1.pending|
            && r2.pending == r1.pending[|r1.pending| - |r2.pending|..]
  {
    DueCountMonotone(l.pending, t1, t2);
  }

  lemma {:induction false} DueCountMonotone(pending: seq<Milestone>, t1: int, t2: int)
    requires t1 <= t2
    ensures DueCount(pending, t1) <= DueCount(pending, t2)
  {
    if pending != [] && pending[0].atMs <= t1 {
      DueCountMonotone(pending[1..], t1, t2);
    }
  }

  /** The progress never goes back as time passes. */
  lemma ProgressMonotone(e1: int, e2: int)
    requires e1 <= e2
    ensures ProgressAt(e1) <= ProgressAt(e2)
  {
  }

  /** The exit button shows exactly when the progress is past 100, which is exactly
      from the last milestone on. */
  function ShowsExit(progress: int): (b: bool)
    ensures b <==> progress > 100
  {
    progress > 100
  }

  lemma ExitOnlyAtTheEnd(t0: int, t: int)
    requires t >= t0
    ensures ShowsExit(Advance(Mount(t0), t).progress) <==> t >= t0 + 2700
  {
    Timeline(t0, t);
  }

  /** After unmounting nothing fires: the progress is frozen. */
  lemma UnmountFreezes(l: Loader, t: int)
    requires t >= l.now
    ensures Advance(Unmount(l), t).progress == l.progress
  {
  }

  /** The drawn fraction of the ring. */
  function ArcLength(progress: int): (r: real)
    ensures r * 100.0 == progress as real
  {
    progress as real / 100.0
  }

  /** The ring's radius: half the box less the stroke. */
  function Radius(): (r: real)
    ensures 2.0 * r + StrokeWidth as real == Size as real
  {
    (Size - StrokeWidth) as real / 2.0
  }

  /** The schedule's arcs: a quarter at each step, the full ring at 100, and slightly
      more than the ring at 105 (when the ring is no longer shown). */
  lemma ArcsOfTheSchedule(e: int)
    ensures 0.0 <= ArcLength(ProgressAt(e)) <= 1.05
    ensures ArcLength(ProgressAt(e)) > 1.0 <==> ShowsExit(ProgressAt(e))
    ensures Radius() == 22.0
  {
  }
}

=== FILE: carousel.dfy ===
/** The technology icon strip: eight icons laid out three times over on a track that
    slides left by the width of one set and then jumps back, over and over. The jump
    is invisible because every pixel shows the same icon just before and just after
    it. */
module IconCarousel {

  datatype Icon = Icon(src: string, alt: string)

  const Icons: seq<Icon> := [
    Icon("/Assets/Icons/Hero Icons/JavaScript.svg", "JavaScript"),
    Icon("/Assets/Icons/Hero Icons/Java.svg", "Java"),
    Icon("/Assets/Icons/Hero Icons/Swift.svg", "Swift"),
    Icon("/Assets/Icons/Hero Icons/React.svg", "React"),
    Icon("/Assets/Icons/Hero Icons/Dart.svg", "Dart/Flutter"),
    Icon("/Assets/Icons/Hero Icons/Framer.svg", "Framer"),
    Icon("/Assets/Icons/Hero Icons/CSharp.svg", "C#"),
    Icon("/Assets/Icons/Hero Icons/Python.svg", "Python")
  ]

  const IconWidthPx: int := 40
  const GapPx: int := 24
  /** One icon with its gap. */
  const SlotPx: int := IconWidthPx + GapPx

  /** The track's items: the icons three times over. */
  function Duplicated(icons: seq<Icon>): (d: seq<Icon>)
    ensures |d| == 3 * |icons|
    ensures forall i :: 0 <= i < |icons| ==>
              d[i] == icons[i] && d[i + |icons|] == icons[i] && d[i + 2 * |icons|] == icons[i]
  {
    icons + icons + icons
  }

  /** How far the track slides in one loop: one set of slots. */
  function SetWidth(icons: seq<Icon>): (w: int)
    ensures w == |icons| * SlotPx
  {
    |icons| * (IconWidthPx + GapPx)
  }

  /** One set shifted: the item a set further along is the same icon. */
  lemma DuplicatedShift(icons: seq<Icon>, i: int)
    requires 0 <= i && i + |icons| < 3 * |icons|
    ensures Duplicated(icons)[i + |icons|] == Duplicated(icons)[i]
  {
    var d := Duplicated(icons);
    if i < |icons| {
      assert d[i] == icons[i] && d[i + |icons|] == icons[i];
    } else {
      var j := i - |icons|;
      assert d[j + |icons|] == icons[j] && d[j + 2 * |icons|] == icons[j];
    }
  }

  /** The loop lasts 20 s. */
  const LoopMs: int := 20000

  /** `elapsed` ms into the animation the site's track has moved this many pixels left
      (rounded down): within one set, back to 0 at each loop. */
  function ShiftPx(elapsed: int): (s: int)
    requires elapsed >= 0
    ensures 0 <= s < SetWidth(Icons)
    ensures elapsed % LoopMs == 0 ==> s == 0
  {
    SetWidth(Icons) * (elapsed % LoopMs) / LoopMs
  }

  /** The animation repeats every 20 s. */
  lemma ShiftPeriodic(elapsed: int)
    requires elapsed >= 0
    ensures ShiftPx(elapsed + LoopMs) == ShiftPx(elapsed)
  {
    assert (elapsed + LoopMs) % LoopMs == elapsed % LoopMs;
  }

  /** Over one loop the shift never decreases: the strip moves one way only. */
  lemma ShiftMonotoneInLoop(e1: int, e2: int)
    requires 0 <= e1 <= e2 < LoopMs
    ensures ShiftPx(e1) <= ShiftPx(e2)
  {
  }

  /** The slot under pixel `p` of the viewport when the track has moved `shift` pixels
      left. */
  function SlotAt(p: int, shift: int): (k: int)
    requires p >= 0 && shift >= 0
    ensures k >= 0 && k * SlotPx <= p + shift < (k + 1) * SlotPx
  {
    (p + shift) / SlotPx
  }

  /** The icon under pixel `p`, if the track reaches that far. */
  function IconAt(icons: seq<Icon>, p: int, shift: int): (r: Icon)
    requires p >= 0 && shift >= 0 && SlotAt(p, shift) < 3 * |icons|
    ensures var k := SlotAt(p, shift);
            (k < |icons| ==> r == icons[k]) && (|icons| <= k < 2 * |icons| ==> r == icons[k - |icons|])
  {
    Duplicated(icons)[SlotAt(p, shift)]
  }

  /** Throughout the loop the track covers a viewport up to two sets wide: no pixel
      ever runs off the end of the strip. */
  lemma TrackCoversViewport(icons: seq<Icon>, p: int, shift: int)
    requires |icons| > 0 && 0 <= p < 2 * SetWidth(icons) && 0 <= shift <= SetWidth(icons)
    ensures SlotAt(p, shift) < 3 * |icons|
  {
  }

  /** The jump back is seamless: at the end of a loop (moved a full set) every pixel
      shows the icon it shows at the start (not moved at all). */
  lemma LoopIsSeamless(icons: seq<Icon>, p: int)
    requires |icons| > 0 && 0 <= p < 2 * SetWidth(icons)
    ensures SlotAt(p, SetWidth(icons)) < 3 * |icons| && SlotAt(p, 0) < 3 * |icons|
    ensures IconAt(icons, p, SetWidth(icons)) == IconAt(icons, p, 0)
  {
    TrackCoversViewport(icons, p, SetWidth(icons));
    TrackCoversViewport(icons, p, 0);
    assert SlotAt(p, SetWidth(icons)) == SlotAt(p, 0) + |icons|;
    DuplicatedShift(icons, SlotAt(p, 0));
  }

  /** For the eight icons: 24 items, a 512 px loop, and a seamless jump for any
      viewport up to 1024 px wide. */
  lemma SiteCarousel(p: int)
    requires 0 <= p < 1024
    ensures |Duplicated(Icons)| == 24 && SetWidth(Icons) == 512
    ensures IconAt(Icons, p, 512) == IconAt(Icons, p, 0)
  {
    LoopIsSeamless(Icons, p);
  }
}

=== FILE: clock.dfy ===
/** The widgets' clock texts. Music, record and phone share one `formatTime` (both
    fields padded to two digits); the screen recorder's version pads only the seconds.
    Both divide with `Math.floor` and take the remainder with JavaScript's `%`, which
    truncates toward zero, so a negative input keeps its sign in both fields. */
module WidgetClock {
  import opened JsText

  /** `Math.floor(a / b)` for a positive divisor. */
  function FloorDiv(a: int, b: int): (q: int)
    requires b > 0
    ensures b * q <= a < b * q + b
  {
    a / b
  }

  /** JavaScript's `a % b` for a positive divisor: the sign follows the dividend. */
  function JsRem(a: int, b: int): (r: int)
    requires b > 0
    ensures a >= 0 ==> 0 <= r < b && r == a - b * FloorDiv(a, b)
    ensures a < 0 ==> -b < r <= 0
  {
    if a >= 0 then a % b else -((-a) % b)
  }

  /** The `MM:SS` text of music, record and phone. */
  function PaddedClock(s: int): (r: string)
    ensures |r| >= 5
    ensures s >= 0 ==> r[|r| - 3] == ':' && (|r| == 5 <==> s < 6000)
  {
    var minutes := PadStart2(IntToString(FloorDiv(s, 60)));
    var seconds := PadStart2(IntToString(JsRem(s, 60)));
    minutes + ":" + seconds
  }

  /** The `M:SS` text of the screen recorder: the seconds get a leading zero below 10. */
  function ShortClock(s: int): (r: string)
    ensures |r| >= 4
    ensures s >= 0 ==> r[|r| - 3] == ':' && (|r| == 4 <==> s < 600)
  {
    var minutes := IntToString(FloorDiv(s, 60));
    var secs := JsRem(s, 60);
    var seconds := if secs < 10 then "0" + IntToString(secs) else IntToString(secs);
    minutes + ":" + seconds
  }

  /** A leading zero does not change the value of a digit string. */
  lemma {:induction false} LeadingZero(x: string)
    requires AllDigits(x)
    ensures AllDigits("0" + x) && DigitsValue("0" + x) == DigitsValue(x)
    decreases |x|
  {
    if x != [] {
      var y := "0" + x;
      assert y[..|y| - 1] == "0" + x[..|x| - 1];
      assert y[|y| - 1] == x[|x| - 1];
      LeadingZero(x[..|x| - 1]);
    }
  }

  /** Padding a number's digits keeps them digits and keeps their value. */
  lemma PadKeepsValue(n: nat)
    ensures AllDigits(PadStart2(NatToString(n)))
    ensures DigitsValue(PadStart2(NatToString(n))) == n
  {
    NatToStringRoundTrip(n);
    var x := NatToString(n);
    if |x| == 1 {
      LeadingZero(x);
    }
  }

  /** Reading an `MM:SS` text back: the digits before the colon are the minutes, the
      two after it the seconds (below 60), and together they give the count again. */
  lemma PaddedClockRoundTrip(s: int)
    requires s >= 0
    ensures var r := PaddedClock(s);
            && AllDigits(r[..|r| - 3]) && AllDigits(r[|r| - 2..])
            && DigitsValue(r[|r| - 2..]) < 60
            && DigitsValue(r[..|r| - 3]) * 60 + DigitsValue(r[|r| - 2..]) == s
  {
    var q, m := FloorDiv(s, 60), JsRem(s, 60);
    var minutes := PadStart2(NatToString(q));
    var seconds := PadStart2(NatToString(m));
    assert PaddedClock(s) == minutes + ":" + seconds;
    PadKeepsValue(q);
    PadKeepsValue(m);
    JoinPieces(minutes, seconds, s);
  }

  /** Minutes and two-digit seconds joined by a colon read back as the count they
      stand for. */
  lemma JoinPieces(minutes: string, seconds: string, s: int)
    requires AllDigits(minutes) && AllDigits(seconds) && |seconds| == 2
    requires DigitsValue(seconds) < 60 && DigitsValue(minutes) * 60 + DigitsValue(seconds) == s
    ensures var r := minutes + ":" + seconds;
            && AllDigits(r[..|r| - 3]) && AllDigits(r[|r| - 2..])
            && DigitsValue(r[|r| - 2..]) < 60
            && DigitsValue(r[..|r| - 3]) * 60 + DigitsValue(r[|r| - 2..]) == s
  {
    var r := minutes + ":" + seconds;
    assert r[..|r| - 3] == minutes;
    assert r[|r| - 2..] == seconds;
  }

  /** The same for the `M:SS` text, whose minutes carry no padding. */
  lemma ShortClockRoundTrip(s: int)
    requires s >= 0
    ensures var r := ShortClock(s);
            && AllDigits(r[..|r| - 3]) && AllDigits(r[|r| - 2..])
            && DigitsValue(r[|r| - 2..]) < 60
            && DigitsValue(r[..|r| - 3]) * 60 + DigitsValue(r[|r| - 2..]) == s
  {
    var q, m := FloorDiv(s, 60), JsRem(s, 60);
    var minutes := NatToString(q);
    var seconds := PadStart2(NatToString(m));
    assert ShortClock(s) == minutes + ":" + seconds;
    NatToStringRoundTrip(q);
    PadKeepsValue(m);
    JoinPieces(minutes, seconds, s);
  }

  /** The two formats agree on the seconds and differ only in the minutes' padding. */
  lemma ClocksAgree(s: int)
    requires s >= 0
    ensures var p := PaddedClock(s); var q := ShortClock(s);
            && p[|p| - 3..] == q[|q| - 3..]
            && p[..|p| - 3] == PadStart2(q[..|q| - 3])
  {
    var q, m := FloorDiv(s, 60), JsRem(s, 60);
    var minutes := NatToString(q);
    var seconds := PadStart2(NatToString(m));
    PadKeepsValue(m);
    assert ShortClock(s) == minutes + ":" + seconds;
    assert PaddedClock(s) == PadStart2(minutes) + ":" + seconds;
    ColonSplit(minutes, seconds);
    ColonSplit(PadStart2(minutes), seconds);
  }

  /** The last three characters of `head + ":" + tail`, for a two-character tail,
      are the colon and the tail; what comes before them is the head. */
  lemma ColonSplit(head: string, tail: string)
    requires |tail| == 2
    ensures var r := head + ":" + tail;
            && r[|r| - 3..] == ":" + tail
            && r[..|r| - 3] == head
  {
    var r := head + ":" + tail;
    assert r[..|r| - 3] == head;
  }

  /** A negative count is not split back: -5 seconds shows as "-1:-5", whose fields
      give -65. */
  lemma NegativeCountShowsBothSigns(s: int)
    requires s == -5
    ensures PaddedClock(s) == "-1:-5"
    ensures FloorDiv(s, 60) * 60 + JsRem(s, 60) != s
  {
    assert FloorDiv(s, 60) == -1 && JsRem(s, 60) == -5;
    assert IntToString(-1) == "-1" && IntToString(-5) == "-5";
  }
}

=== FILE: constants.dfy ===
/** The application-wide constants, and how they agree with the values the components
    use: the route paths, the navigation items, the loading timings, the scroll-trigger
    defaults, the reading speed and the AirDrop milestones. */
module SiteConstants {
  import LoadingContext
  import LoadingScreen
  import Navigation
  import AppRoutes
  import SplitText
  import ReadingTime
  import AirdropProgress

  /** `ROUTES`, in declaration order. */
  const Routes: seq<string> := ["/", "/about", "/projects", "/blog", "/contact"]

  datatype NavEntry = NavEntry(path: string, caption: string)

  /** `NAV_ITEMS`, in declaration order. */
  const NavEntries: seq<NavEntry> := [
    NavEntry("/", "Home"),
    NavEntry("/about", "About"),
    NavEntry("/projects", "Projects"),
    NavEntry("/blog", "Blog"),
    NavEntry("/contact", "Contact")
  ]

  const LoadingScreenDurationMs: int := 5200
  const LoadingScreenFadeoutMs: int := 800
  const LoadingContextDurationMs: int := 6000
  const NavigationIndicatorDelayMs: int := 100
  /** `DEFAULT_THRESHOLD` of 0.1, in hundredths. */
  const DefaultThresholdHundredths: int := 10
  const DefaultRootMargin: string := "-100px"
  const WordsPerMinute: int := 200
  /** The five `AIRDROP_PROGRESS_MILESTONES`, in ms. */
  const AirdropMilestonesMs: seq<int> := [600, 1700, 2100, 2400, 2700]

  /** The set of paths a sequence of entries or routes names. */
  function PathSet(paths: seq<string>): (s: set<string>)
    ensures forall p :: p in s <==> p in paths
  {
    set p | p in paths
  }

  function NavPaths(entries: seq<NavEntry>): (r: seq<string>)
    ensures |r| == |entries| && forall k :: 0 <= k < |r| ==> r[k] == entries[k].path
  {
    seq(|entries|, k requires 0 <= k < |entries| => entries[k].path)
  }

  function BarPaths(items: seq<Navigation.NavItem>): (r: seq<string>)
    ensures |r| == |items| && forall k :: 0 <= k < |r| ==> r[k] == items[k].path
  {
    seq(|items|, k requires 0 <= k < |items| => items[k].path)
  }

  function RoutePaths(routes: seq<AppRoutes.Route>): (r: seq<string>)
    ensures |r| == |routes| && forall k :: 0 <= k < |r| ==> r[k] == routes[k].path
  {
    seq(|routes|, k requires 0 <= k < |routes| => routes[k].path)
  }

  /** The loading screen's visible time plus its fade-out is the context's duration,
      and all three agree with the timers the loading context and screen set. */
  lemma LoadingTimingsAgree(shown: int, fade: int, total: int)
    requires shown == LoadingScreenDurationMs && fade == LoadingScreenFadeoutMs && total == LoadingContextDurationMs
    ensures shown + fade == total
    ensures total == LoadingContext.GateDurationMs == LoadingScreen.HideAtMs
    ensures shown == LoadingScreen.FadeOutAtMs
  {
  }

  /** Every navigation item leads to a route and every route has an item: the
      constants, the route table and the navigation bar name the same five paths. The
      bar lists them in another order and labels `/projects` "Work" where the
      constants say "Projects". */
  lemma PathsAgree()
    ensures NavPaths(NavEntries) == Routes
    ensures PathSet(Routes) == PathSet(RoutePaths(AppRoutes.RouteTable))
    ensures PathSet(Routes) == PathSet(BarPaths(Navigation.NavItems))
    ensures RoutePaths(AppRoutes.RouteTable) == Routes
    ensures BarPaths(Navigation.NavItems) != Routes
    ensures NavEntries[2] == NavEntry("/projects", "Projects") && Navigation.NavItems[1] == Navigation.NavItem("/projects", "Work")
  {
    var bar := BarPaths(Navigation.NavItems);
    assert bar == ["/", "/projects", "/about", "/blog", "/contact"];
    assert bar[1] != Routes[1];
    assert NavPaths(NavEntries) == Routes;
    assert RoutePaths(AppRoutes.RouteTable) == Routes;
    assert PathSet(Routes) == PathSet(bar) by {
      forall p
        ensures p in Routes <==> p in bar
      {
        if p in Routes {
          var k :| 0 <= k < |Routes| && Routes[k] == p;
          assert k == 0 || k == 1 || k == 2 || k == 3 || k == 4;
          assert bar[0] == Routes[0] && bar[2] == Routes[1] && bar[1] == Routes[2];
          assert bar[3] == Routes[3] && bar[4] == Routes[4];
        }
        if p in bar {
          var k :| 0 <= k < |bar| && bar[k] == p;
          assert k == 0 || k == 1 || k == 2 || k == 3 || k == 4;
          assert Routes[0] == bar[0] && Routes[2] == bar[1] && Routes[1] == bar[2];
          assert Routes[3] == bar[3] && Routes[4] == bar[4];
        }
      }
    }
  }

  /** The scroll-trigger defaults are those the text-splitting component falls back
      to, and the indicator delay is the navigation bar's retry delay. */
  lemma DefaultsAgree()
    ensures DefaultThresholdHundredths == SplitText.DefaultThresholdHundredths
    ensures DefaultRootMargin == SplitText.DefaultRootMargin
    ensures NavigationIndicatorDelayMs == Navigation.IndicatorRetryMs
    ensures WordsPerMinute == ReadingTime.WordsPerMinute
  {
  }

  /** The AirDrop milestone times rise strictly and are the times of the progress
      ring's five timeouts. */
  lemma AirdropMilestonesAgree()
    ensures |AirdropMilestonesMs| == |AirdropProgress.Milestones|
    ensures forall k :: 0 <= k < |AirdropMilestonesMs| ==> AirdropMilestonesMs[k] == AirdropProgress.Milestones[k].atMs
    ensures forall i, j :: 0 <= i < j < |AirdropMilestonesMs| ==> AirdropMilestonesMs[i] < AirdropMilestonesMs[j]
  {
  }
}

=== FILE: glass.dfy ===
/** The glass surface: the ids of its SVG filter, the geometry of the displacement map
    drawn for it, the attributes set on the filter's channels, its container style, and
    the choice between the SVG filter and the plain fallback. */
module GlassSurface {
  import opened Wrappers
  import opened JsText

  // ---------------------------------------------------------------------------
  // Ids

  /** `useId().replace(/:/g, '-')`: every colon becomes a hyphen. */
  function SanitiseId(id: string): (r: string)
    ensures |r| == |id|
    ensures forall i :: 0 <= i < |r| ==> r[i] != ':'
    ensures forall i :: 0 <= i < |r| && id[i] != ':' ==> r[i] == id[i]
    ensures forall i :: 0 <= i < |r| && id[i] == ':' ==> r[i] == '-'
  {
    if id == [] then []
    else [if id[0] == ':' then '-' else id[0]] + SanitiseId(id[1..])
  }

  /** Sanitising twice is sanitising once, and an id without colons is kept as is. */
  lemma SanitiseIdempotent(id: string)
    ensures SanitiseId(SanitiseId(id)) == SanitiseId(id)
    ensures (forall i :: 0 <= i < |id| ==> id[i] != ':') ==> SanitiseId(id) == id
  {
  }

  function FilterId(u: string): (r: string)
    ensures |r| >= 13 && r[..13] == "glass-filter-" && r[13..] == u
  {
    "glass-filter-" + u
  }

  function RedGradId(u: string): (r: string)
    ensures |r| >= 9 && r[..9] == "red-grad-" && r[9..] == u
  {
    "red-grad-" + u
  }

  function BlueGradId(u: string): (r: string)
    ensures |r| >= 10 && r[..10] == "blue-grad-" && r[10..] == u
  {
    "blue-grad-" + u
  }

  /** The three ids of one surface never clash with each other, and two surfaces with
      different ids get different filters. */
  lemma IdsDistinct(u: string, v: string)
    ensures FilterId(u) != RedGradId(v) && FilterId(u) != BlueGradId(v) && RedGradId(u) != BlueGradId(v)
    ensures FilterId(u) == FilterId(v) ==> u == v
    ensures RedGradId(u) == RedGradId(v) ==> u == v
    ensures BlueGradId(u) == BlueGradId(v) ==> u == v
  {
    assert FilterId(u)[0] == 'g' && RedGradId(v)[0] == 'r' && BlueGradId(v)[0] == 'b';
    assert RedGradId(u)[0] == 'r';
  }

  /** The `--filter-id` custom property: a reference to the filter by id. */
  function FilterRef(u: string): (r: string)
    ensures |r| >= 6 && r[..5] == "url(#" && r[|r| - 1] == ')' && r[5..|r| - 1] == FilterId(u)
  {
    "url(#" + FilterId(u) + ")"
  }

  // ---------------------------------------------------------------------------
  // The displacement map's geometry

  /** `rect?.width || fallback`: no element, or a zero size, falls back. */
  function ActualSize(measured: Option<real>, fallback: real): (r: real)
    ensures measured.Some? && measured.value != 0.0 ==> r == measured.value
    ensures measured.None? || measured.value == 0.0 ==> r == fallback
  {
    if measured.None? || measured.value == 0.0 then fallback else measured.value
  }

  const FallbackWidth: real := 400.0
  const FallbackHeight: real := 200.0

  /** The map's size, the inset of its inner rectangle, and that rectangle's size. */
  datatype Geometry = Geometry(width: real, height: real, edge: real, innerWidth: real, innerHeight: real)

  function MapGeometry(measuredWidth: Option<real>, measuredHeight: Option<real>, borderWidth: real): (g: Geometry)
    ensures g.width == ActualSize(measuredWidth, FallbackWidth)
    ensures g.height == ActualSize(measuredHeight, FallbackHeight)
    ensures g.edge == Min(g.width, g.height) * (borderWidth * 0.5)
    ensures g.edge + g.innerWidth + g.edge == g.width
    ensures g.edge + g.innerHeight + g.edge == g.height
  {
    var w := ActualSize(measuredWidth, FallbackWidth);
    var h := ActualSize(measuredHeight, FallbackHeight);
    var edge := Min(w, h) * (borderWidth * 0.5);
    Geometry(w, h, edge, w - edge * 2.0, h - edge * 2.0)
  }

  /** For a border width within [0, 1] and non-negative measured sizes, the inner
      rectangle fits inside the map: its inset is at most half the shorter side... */
  lemma InnerRectFits(measuredWidth: Option<real>, measuredHeight: Option<real>, borderWidth: real)
    requires 0.0 <= borderWidth <= 1.0
    requires measuredWidth.Some? ==> measuredWidth.value >= 0.0
    requires measuredHeight.Some? ==> measuredHeight.value >= 0.0
    ensures var g := MapGeometry(measuredWidth, measuredHeight, borderWidth);
            && 0.0 <= g.edge <= Min(g.width, g.height) / 2.0
            && g.innerWidth >= 0.0 && g.innerHeight >= 0.0
  {
    var g := MapGeometry(measuredWidth, measuredHeight, borderWidth);
    var m := Min(g.width, g.height);
    assert g.width > 0.0 && g.height > 0.0;
    HalfShare(m, borderWidth, g.edge);
  }

  /** A share of at most a half of a positive length. */
  lemma HalfShare(m: real, b: real, e: real)
    requires m > 0.0 && 0.0 <= b <= 1.0 && e == m * (b * 0.5)
    ensures 0.0 <= e <= m / 2.0
  {
    assert m * (b * 0.5) == (m * b) * 0.5;
    assert 0.0 <= m * b <= m;
  }

  /** ...and with no element yet and the default border width of 0.07 the map is
      400 by 200 with a 7-unit inset. */
  lemma DefaultGeometry(borderWidth: real)
    requires borderWidth == 0.07
    ensures MapGeometry(None, None, borderWidth) == Geometry(400.0, 200.0, 7.0, 386.0, 186.0)
  {
  }

  // ---------------------------------------------------------------------------
  // Filter attributes

  /** `n.toString()` for a whole number, as an attribute value: `parseInt` reads it
      back. */
  function NumberText(n: int): (r: string)
    ensures |r| >= 1 && ParseInt(r) == Some(n)
    ensures n >= 0 ==> AllDigits(r) && (r[0] == '0' ==> |r| == 1)
    ensures n < 0 ==> |r| >= 2 && r[0] == '-' && AllDigits(r[1..]) && r[1] != '0'
  {
    ParseIntRoundTrip(n, []);
    assert IntToString(n) + [] == IntToString(n);
    IntToString(n)
  }

  /** The `scale` set on the red, green and blue displacement channels:
      `(distortionScale + offset).toString()` for whole numbers. */
  function ChannelScales(distortionScale: int, red: int, green: int, blue: int): (r: seq<string>)
    ensures |r| == 3
    ensures ParseInt(r[0]) == Some(distortionScale + red)
    ensures ParseInt(r[1]) == Some(distortionScale + green)
    ensures ParseInt(r[2]) == Some(distortionScale + blue)
  {
    [NumberText(distortionScale + red), NumberText(distortionScale + green), NumberText(distortionScale + blue)]
  }

  /** The defaults (-180 with offsets 0, 10 and 20) give -180, -170 and -160. */
  lemma DefaultChannelScales(distortionScale: int, red: int, green: int, blue: int)
    requires distortionScale == -180 && red == 0 && green == 10 && blue == 20
    ensures ChannelScales(distortionScale, red, green, blue) == ["-180", "-170", "-160"]
  {
    assert NatToString(180) == "180" by {
      assert NatToString(18) == "18" by { assert NatToString(1) == "1"; }
    }
    assert NatToString(170) == "170" by {
      assert NatToString(17) == "17" by { assert NatToString(1) == "1"; }
    }
    assert NatToString(160) == "160" by {
      assert NatToString(16) == "16" by { assert NatToString(1) == "1"; }
    }
    assert IntToString(-180) == "-180" && IntToString(-170) == "-170" && IntToString(-160) == "-160";
    assert ChannelScales(distortionScale, red, green, blue) == [IntToString(-180), IntToString(-170), IntToString(-160)];
  }

  /** The blur's `stdDeviation`: `displace.toString()` for a whole number. */
  function BlurDeviation(displace: int): (r: string)
    ensures ParseInt(r) == Some(displace)
  {
    NumberText(displace)
  }

  // ---------------------------------------------------------------------------
  // Container style

  /** The `width`/`height` props: a number of pixels or any CSS length. */
  datatype SizeProp = Px(n: int) | Css(text: string)

  /** A number becomes `${n}px`; a string is used as given. */
  function SizeStyle(p: SizeProp): (r: string)
    ensures p.Css? ==> r == p.text
    ensures p.Px? ==> |r| >= 3 && r[|r| - 2..] == "px" && ParseInt(r) == Some(p.n)
  {
    match p
    case Css(text) => text
    case Px(n) =>
      ParseIntRoundTrip(n, "px");
      IntToString(n) + "px"
  }

  datatype ContainerStyle = ContainerStyle(width: string, height: string, borderRadius: string, filterId: string)

  function Style(width: SizeProp, height: SizeProp, borderRadius: int, u: string): (s: ContainerStyle)
    ensures s.width == SizeStyle(width) && s.height == SizeStyle(height)
    ensures ParseInt(s.borderRadius) == Some(borderRadius)
    ensures s.filterId == FilterRef(u)
  {
    ContainerStyle(SizeStyle(width), SizeStyle(height), SizeStyle(Px(borderRadius)), FilterRef(u))
  }

  /** The defaults: "auto" by "auto" with a 16px radius. */
  lemma DefaultStyle(radius: int, u: string)
    requires radius == 16
    ensures Style(Css("auto"), Css("auto"), radius, u).borderRadius == "16px"
  {
    assert NatToString(16) == "16" by { assert NatToString(1) == "1"; }
  }

  // ---------------------------------------------------------------------------
  // SVG filter support

  /** The user-agent rule: a Safari that is not Chrome, or any Firefox, gets the
      fallback; otherwise the browser's answer to setting the `backdrop-filter`
      (`accepted`) decides. */
  function SupportsSvgFilters(userAgent: string, accepted: bool): (b: bool)
    ensures Contains(userAgent, "Firefox") ==> !b
    ensures Contains(userAgent, "Safari") && !Contains(userAgent, "Chrome") ==> !b
    ensures !accepted ==> !b
    ensures !Contains(userAgent, "Firefox") && !(Contains(userAgent, "Safari") && !Contains(userAgent, "Chrome")) ==> b == accepted
  {
    var isWebkit := Contains(userAgent, "Safari") && !Contains(userAgent, "Chrome");
    var isFirefox := Contains(userAgent, "Firefox");
    if isWebkit || isFirefox then false else accepted
  }

  /** The rule on three short user-agent strings: Chrome (which also names Safari) is
      left to the probe, Safari and Firefox get the fallback whatever the probe says. */
  lemma UserAgentRule(chrome: string, safari: string, firefox: string, accepted: bool)
    requires chrome == "Chrome/120 Safari/537" && safari == "Version/17 Safari/605" && firefox == "Gecko Firefox/121"
    ensures SupportsSvgFilters(chrome, accepted) == accepted
    ensures !SupportsSvgFilters(safari, accepted)
    ensures !SupportsSvgFilters(firefox, accepted)
  {
    assert OccursAt(chrome, "Chrome", 0);
    forall j | 0 <= j
      ensures !OccursAt(chrome, "Firefox", j)
    {
      if j + 7 <= |chrome| {
        assert chrome[j..j + 7][0] == chrome[j] != 'F';
      }
    }
    assert OccursAt(safari, "Safari", 11);
    forall j | 0 <= j
      ensures !OccursAt(safari, "Chrome", j)
    {
      if j + 6 <= |safari| {
        assert safari[j..j + 6][0] == safari[j] != 'C';
      }
    }
    assert OccursAt(firefox, "Firefox", 6);
  }

  /** The mode class: the SVG one or the fallback one. */
  function ModeClass(supports: bool): (c: string)
    ensures supports ==> c == "glass-surface--svg"
    ensures !supports ==> c == "glass-surface--fallback"
  {
    if supports then "glass-surface--svg" else "glass-surface--fallback"
  }

  /** The container's class: the base class, the mode class and the caller's classes,
      space-separated. */
  function ClassName(supports: bool, className: string): (r: string)
    ensures |r| >= 15 + |className| && r[..14] == "glass-surface " && r[|r| - |className|..] == className
    ensures r[14..|r| - |className| - 1] == ModeClass(supports) && r[|r| - |className| - 1] == ' '
  {
    "glass-surface " + ModeClass(supports) + " " + className
  }

  /** The class tells which mode the surface is in. */
  lemma ClassNameShowsMode(a: bool, b: bool, className: string)
    requires ClassName(a, className) == ClassName(b, className)
    ensures a == b
  {
    assert |ClassName(a, className)| == 15 + |ModeClass(a)| + |className|;
  }
}

=== FILE: heroorb.dfy ===
/** The hero orb's style parameters: the colour palette merged over its defaults, the
    pixel size read from the `size` prop, and the size-dependent blur, contrast, dot
    size, shadow spread and mask radius. */
module HeroOrb {
  import opened Wrappers
  import opened JsText

  datatype Palette = Palette(bg: string, c1: string, c2: string, c3: string)

  const DefaultPalette: Palette := Palette(
    "oklch(95% 0.02 264.695)", "oklch(75% 0.15 350)",
    "oklch(80% 0.12 200)", "oklch(78% 0.14 280)")

  const DefaultSize: string := "192px"

  /** The `colors` prop: each key may be left out. */
  datatype PaletteProp = PaletteProp(bg: Option<string>, c1: Option<string>, c2: Option<string>, c3: Option<string>)

  /** `{ ...defaults, ...colors }`: a given key wins, a missing one keeps its default. */
  function MergeColors(defaults: Palette, colors: Option<PaletteProp>): (p: Palette)
    ensures colors.None? ==> p == defaults
    ensures colors.Some? ==> p.bg == colors.value.bg.GetOr(defaults.bg) && p.c1 == colors.value.c1.GetOr(defaults.c1)
    ensures colors.Some? ==> p.c2 == colors.value.c2.GetOr(defaults.c2) && p.c3 == colors.value.c3.GetOr(defaults.c3)
  {
    match colors
    case None => defaults
    case Some(c) => Palette(c.bg.GetOr(defaults.bg), c.c1.GetOr(defaults.c1), c.c2.GetOr(defaults.c2), c.c3.GetOr(defaults.c3))
  }

  /** Merging is per key: a key given in the prop is the only thing that changes that
      key, and giving every key ignores the defaults. */
  lemma MergeIsPerKey(defaults: Palette, c: PaletteProp)
    ensures c.bg.None? ==> MergeColors(defaults, Some(c)).bg == defaults.bg
    ensures c.bg.Some? && c.c1.Some? && c.c2.Some? && c.c3.Some? ==>
              MergeColors(defaults, Some(c)) == Palette(c.bg.value, c.c1.value, c.c2.value, c.c3.value)
    ensures MergeColors(defaults, Some(PaletteProp(None, None, None, None))) == defaults
  {
  }

  /** `parseInt(size.replace("px", ""), 10)`: only the first "px" is removed; None
      stands for NaN. */
  function ParseSize(size: string): (r: Option<int>)
    ensures IndexOf(size, "px").None? ==> r == ParseInt(size)
  {
    ParseInt(ReplaceFirst(size, "px", ""))
  }

  /** A size written as a whole number of pixels is read back as that number. */
  lemma ParseSizeRoundTrip(n: int)
    ensures ParseSize(IntToString(n) + "px") == Some(n)
  {
    var digits := IntToString(n);
    forall i | 0 <= i < |digits|
      ensures digits[i] != 'p'
    {
      if n < 0 && i > 0 { assert digits[i] == NatToString(-n)[i - 1]; }
    }
    DropFirstPx(digits, "");
    assert digits + "px" + "" == digits + "px";
    assert digits + "" == digits;
    ParseIntRoundTrip(n, "");
  }

  /** Removing the first "px" from a text with no 'p' in front of it gives the text
      around it. */
  lemma DropFirstPx(front: string, back: string)
    requires forall i :: 0 <= i < |front| ==> front[i] != 'p'
    ensures ReplaceFirst(front + "px" + back, "px", "") == front + back
  {
    var s := front + "px" + back;
    var k := |front|;
    assert s[k..k + 2] == "px";
    forall j | 0 <= j < k
      ensures !OccursAt(s, "px", j)
    {
      assert s[j] == front[j];
      if j + 2 <= |s| {
        assert s[j..j + 2][0] == s[j];
      }
    }
    FirstOccurrence(s, "px", k);
    assert s[..k] == front && s[k + 2..] == back;
  }

  /** "192" followed by "px" is the default size. */
  lemma PxText(digits: string, size: string)
    requires digits == "192" && size == DefaultSize
    ensures digits + "px" == size
  {
  }

  /** The default size is 192 px. */
  lemma DefaultSizeIs192(size: string)
    requires size == DefaultSize
    ensures ParseSize(size) == Some(192)
  {
    ParseSizeRoundTrip(192);
    ThreeDigitText(192, 1, 9, 2);
    assert [DigitChar(1), DigitChar(9), DigitChar(2)] == "192";
    PxText(IntToString(192), size);
  }

  /** `parseInt` stops at the first non-digit and only the first "px" goes, so a
      fractional size is cut to its whole pixels and a unit written first is ignored. */
  lemma SizeQuirks(fractional: string, prefixed: string)
    requires fractional == "12.5px" && prefixed == "px100"
    ensures ParseSize(fractional) == Some(12)
    ensures ParseSize(prefixed) == Some(100)
  {
    var twelve, hundred := IntToString(12), IntToString(100);
    TwoDigitText(12, 1, 2);
    ThreeDigitText(100, 1, 0, 0);
    assert twelve == "12" && hundred == "100";
    SplitLiterals(fractional, prefixed, twelve, hundred);
    DropFirstPx(twelve + ".5", "");
    DropFirstPx("", hundred);
    ParseIntRoundTrip(12, ".5");
    ParseIntRoundTrip(100, "");
  }

  /** The two example sizes, cut where their "px" is. */
  lemma SplitLiterals(fractional: string, prefixed: string, twelve: string, hundred: string)
    requires fractional == "12.5px" && prefixed == "px100" && twelve == "12" && hundred == "100"
    ensures fractional == twelve + ".5" + "px" + "" && (twelve + ".5") + "" == twelve + ".5"
    ensures prefixed == "" + "px" + hundred && "" + hundred == hundred + ""
  {
  }

  /** Blur: 0.8% of the size with a 1 px floor below 50 px, else 1.5% with a 4 px floor. */
  function BlurPx(n: int): (r: real)
    ensures n < 50 ==> r == 1.0
    ensures 50 <= n <= 266 ==> r == 4.0
    ensures n >= 267 ==> r == n as real * 0.015
  {
    if n < 50 then Max(n as real * 0.008, 1.0) else Max(n as real * 0.015, 4.0)
  }

  /** Contrast before the small-orb adjustment: 0.4% of the size with a 1.2 floor below
      50 px, else 0.8% with a 1.5 floor. */
  function BaseContrast(n: int): (r: real)
    ensures n < 50 ==> r == 1.2
    ensures 50 <= n <= 187 ==> r == 1.5
    ensures n >= 188 ==> r == n as real * 0.008
  {
    if n < 50 then Max(n as real * 0.004, 1.2) else Max(n as real * 0.008, 1.5)
  }

  /** The contrast applied: 1.1 for tiny orbs, the base boosted by 1.2 (at least 1.3)
      for small ones, the base otherwise. */
  function FinalContrast(n: int): (r: real)
    ensures n < 30 ==> r == 1.1
    ensures 30 <= n < 50 ==> r == 1.44
    ensures n >= 50 ==> r == BaseContrast(n) && r >= 1.5
  {
    if n < 30 then 1.1 else if n < 50 then Max(BaseContrast(n) * 1.2, 1.3) else BaseContrast(n)
  }

  /** Dot size: 0.4% of the size with a 0.05 px floor below 50 px, else 0.8% with a
      0.1 px floor (which a size of 50 or more never needs). */
  function DotSizePx(n: int): (r: real)
    ensures n <= 12 ==> r == 0.05
    ensures 13 <= n < 50 ==> r == n as real * 0.004
    ensures n >= 50 ==> r == n as real * 0.008
  {
    if n < 50 then Max(n as real * 0.004, 0.05) else Max(n as real * 0.008, 0.1)
  }

  /** Shadow spread: 0.4% of the size with a 0.5 px floor below 50 px, else 0.8% with a
      2 px floor. */
  function ShadowSpreadPx(n: int): (r: real)
    ensures n < 50 ==> r == 0.5
    ensures 50 <= n <= 249 ==> r == 2.0
    ensures n >= 250 ==> r == n as real * 0.008
  {
    if n < 50 then Max(n as real * 0.004, 0.5) else Max(n as real * 0.008, 2.0)
  }

  /** The mask radius, as a whole percentage. */
  function MaskPercent(n: int): (p: int)
    ensures p == 0 || p == 5 || p == 15 || p == 25
    ensures p == 0 <==> n < 30
    ensures p == 5 <==> 30 <= n < 50
    ensures p == 15 <==> 50 <= n < 100
    ensures p == 25 <==> n >= 100
  {
    if n < 30 then 0 else if n < 50 then 5 else if n < 100 then 15 else 25
  }

  /** The `--mask-radius` text. */
  function MaskRadius(n: int): (s: string)
    ensures |s| >= 2 && s[|s| - 1] == '%'
    ensures ParseInt(s) == Some(MaskPercent(n))
  {
    ParseIntRoundTrip(MaskPercent(n), "%");
    IntToString(MaskPercent(n)) + "%"
  }

  /** The four mask texts, band by band. */
  lemma MaskRadiusTexts(n: int)
    ensures n < 30 ==> MaskRadius(n) == "0%"
    ensures 30 <= n < 50 ==> MaskRadius(n) == "5%"
    ensures 50 <= n < 100 ==> MaskRadius(n) == "15%"
    ensures n >= 100 ==> MaskRadius(n) == "25%"
  {
    assert IntToString(15) == "15" && IntToString(25) == "25";
  }

  /** Every parameter grows (or stays) with the size: a bigger orb is never less
      blurred, less contrasted, or less masked, and its dots and shadow are never
      smaller. */
  lemma ParametersMonotone(m: int, n: int)
    requires m <= n
    ensures BlurPx(m) <= BlurPx(n)
    ensures FinalContrast(m) <= FinalContrast(n)
    ensures DotSizePx(m) <= DotSizePx(n)
    ensures ShadowSpreadPx(m) <= ShadowSpreadPx(n)
    ensures MaskPercent(m) <= MaskPercent(n)
  {
  }

  /** Below 50 px the size-proportional terms never reach their floors, so small orbs
      all get the same blur, shadow and (from 30 px) contrast: 1 px, 0.5 px and 1.44. */
  lemma SmallOrbsShareParameters(n: int)
    requires 0 <= n < 50
    ensures BlurPx(n) == 1.0 && ShadowSpreadPx(n) == 0.5
    ensures n >= 30 ==> FinalContrast(n) == 1.44
  {
  }

  /** All the style parameters for a `size` prop; nothing when it reads as NaN. */
  datatype OrbStyle = OrbStyle(blur: real, contrast: real, dot: real, shadow: real, mask: string)

  function Style(size: string): (r: Option<OrbStyle>)
    ensures r.None? <==> ParseSize(size).None?
    ensures r.Some? ==> var n := ParseSize(size).value;
              && r.value.blur == BlurPx(n) && r.value.contrast == FinalContrast(n)
              && r.value.dot == DotSizePx(n) && r.value.shadow == ShadowSpreadPx(n)
              && r.value.mask == MaskRadius(n)
  {
    match ParseSize(size)
    case None => None
    case Some(n) => Some(OrbStyle(BlurPx(n), FinalContrast(n), DotSizePx(n), ShadowSpreadPx(n), MaskRadius(n)))
  }

  /** A size written as "<n>px" always gets a style, and a bigger such size never
      gets less blur, contrast, dot size or shadow. */
  lemma StyleGrowsWithPxSize(m: int, n: int)
    requires m <= n
    ensures var a := Style(IntToString(m) + "px"); var b := Style(IntToString(n) + "px");
            && a.Some? && b.Some?
            && a.value.blur <= b.value.blur && a.value.contrast <= b.value.contrast
            && a.value.dot <= b.value.dot && a.value.shadow <= b.value.shadow
  {
    ParseSizeRoundTrip(m);
    ParseSizeRoundTrip(n);
    ParametersMonotone(m, n);
  }
}

=== FILE: island.dfy ===
/** The Dynamic Island widget gallery: the options panel's view switch, the
    variant key that names each (previous, next) transition, the spring-bounce
    lookup keyed by it, and the view-to-widget switch. The pending 500 ms
    `setTimeout` switches are explicit timers fired by an ordered event list. */
module DynamicIsland {
  import opened Wrappers
  import opened JsText

  /** The views offered by the options panel, in button order. */
  const OptionNames: seq<string> := [
    "idle", "ring", "timer", "record", "music", "airdrop",
    "airdropMini", "lowBattery", "phone", "findmy", "screenRecord"
  ]

  const Idle: string := "idle"

  /** Delay between collapsing to idle and expanding into the chosen view (ms). */
  const SwitchDelayMs: int := 500

  /** Spring bounce per variant key. The three "aridrop-*" keys are spelled as in the source. */
  const BounceVariants: map<string, real> := map[
    "idle" := 0.5,
    "ring-idle" := 0.5,
    "timer-ring" := 0.35,
    "ring-timer" := 0.35,
    "timer-idle" := 0.3,
    "idle-timer" := 0.3,
    "idle-ring" := 0.5,
    "music-timer" := 0.2,
    "music-ring" := 0.2,
    "aridrop-ring" := 0.2,
    "aridrop-timer" := 0.2,
    "aridrop-record" := 0.2,
    "music-record" := 0.2,
    "music-airdrop" := 0.2,
    "airdrop-airdropMini" := 0.2,
    "airdropMini-airdrop" := 0.2
  ]

  const DefaultBounce: real := 0.2

  /** `table[variantKey] || 0.2`: a registered key gives its entry (none is the
      falsy 0), anything else the default; every bounce lies in [0.2, 0.5]. Only the
      table's own keys are looked up: the names a JavaScript object inherits are
      `ObjectPrototypeKeys`, and no reachable state carries one. */
  function BounceFor(table: map<string, real>, variantKey: string): (b: real)
    ensures variantKey in table && table[variantKey] != 0.0 ==> b == table[variantKey]
    ensures !(variantKey in table && table[variantKey] != 0.0) ==> b == DefaultBounce
  {
    if variantKey in table && table[variantKey] != 0.0 then table[variantKey] else DefaultBounce
  }

  /** The bounce the capsule springs with for a variant key. */
  function Bounce(variantKey: string): (b: real)
    ensures variantKey in BounceVariants ==> b == BounceVariants[variantKey]
    ensures variantKey !in BounceVariants ==> b == DefaultBounce
    ensures 0.2 <= b <= 0.5
  {
    BounceFor(BounceVariants, variantKey)
  }

  // ---------------------------------------------------------------------------
  // The view switch

  /** The widget each view renders. */
  datatype Widget =
    | Ring | Record | Timer | Music | Airdrop | AirdropMini
    | LowBattery | Phone | FindMy | ScreenRecord | IdleSpacer

  /** The `switch (view)` of the island: every option has a case, and any other
      view falls out of the switch and renders nothing. */
  function ViewContent(view: string): (w: Option<Widget>)
    ensures w.Some? <==> view in OptionNames
    ensures w == Some(IdleSpacer) <==> view == Idle
  {
    match view
    case "ring" => Some(Ring)
    case "record" => Some(Record)
    case "timer" => Some(Timer)
    case "music" => Some(Music)
    case "airdrop" => Some(Airdrop)
    case "airdropMini" => Some(AirdropMini)
    case "lowBattery" => Some(LowBattery)
    case "phone" => Some(Phone)
    case "findmy" => Some(FindMy)
    case "screenRecord" => Some(ScreenRecord)
    case "idle" => Some(IdleSpacer)
    case _ => None
  }

  // ---------------------------------------------------------------------------
  // The state machine

  /** A `setTimeout(() => setView(target), 500)` that has not fired yet. */
  datatype PendingSwitch = PendingSwitch(due: int, target: string)

  /** The caller's `view` and `variantKey` state, the clock, and the pending switches
      in the order they were scheduled. */
  datatype Island = Island(now: int, view: string, variantKey: string, pending: seq<PendingSwitch>)

  /** What the user can click: a view button, the "Options" reset, and the AirDrop
      widget's Accept and Decline buttons (wired to the island's `setView`). */
  datatype Input = Select(name: string) | ResetClick | AirdropAccept | AirdropDecline

  datatype Event = Event(at: int, input: Input)

  /** Both state fields start out as 'idle', with nothing scheduled. */
  function Initial(): (s: Island)
    ensures s.view == Idle && s.variantKey == Idle && s.pending == []
    ensures ViewContent(s.view) == Some(IdleSpacer) && WellTimed(s)
  {
    Island(0, Idle, Idle, [])
  }

  /** Let the clock run to `t`: every switch due by then fires, in order. */
  function FireDue(s: Island, t: int): (r: Island)
    requires t >= s.now
    decreases |s.pending|
    ensures r.now == t && r.variantKey == s.variantKey && |r.pending| <= |s.pending|
  {
    if s.pending != [] && s.pending[0].due <= t then
      FireDue(s.(view := s.pending[0].target, pending := s.pending[1..]), t)
    else s.(now := t)
  }

  /** What is left after the clock runs is the rest of the queue: the switches that
      fired are a prefix of it. */
  lemma {:induction false} FireDueLeavesSuffix(s: Island, t: int)
    requires t >= s.now
    decreases |s.pending|
    ensures var r := FireDue(s, t);
            r.pending == s.pending[|s.pending| - |r.pending|..]
  {
    if s.pending != [] && s.pending[0].due <= t {
      var s' := s.(view := s.pending[0].target, pending := s.pending[1..]);
      var r := FireDue(s', t);
      assert FireDue(s, t) == r;
      FireDueLeavesSuffix(s', t);
      assert s'.pending[|s'.pending| - |r.pending|..] == s.pending[|s.pending| - |r.pending|..];
    }
  }

  /** The switches that fired were due by `t`, and the first one left is due later. */
  lemma {:induction false} FireDueFiresOnlyDue(s: Island, t: int)
    requires t >= s.now
    decreases |s.pending|
    ensures var r := FireDue(s, t);
            && (forall k :: 0 <= k < |s.pending| - |r.pending| ==> s.pending[k].due <= t)
            && (r.pending != [] ==> r.pending[0].due > t)
  {
    FireDueLeavesSuffix(s, t);
    if s.pending != [] && s.pending[0].due <= t {
      var s' := s.(view := s.pending[0].target, pending := s.pending[1..]);
      var r := FireDue(s', t);
      assert FireDue(s, t) == r;
      FireDueFiresOnlyDue(s', t);
      forall k | 0 < k < |s.pending| - |r.pending|
        ensures s.pending[k].due <= t
      {
        assert s.pending[k] == s'.pending[k - 1];
      }
    }
  }

  /** The view is the target of the last switch that fired, unchanged when none did. */
  lemma {:induction false} FireDueShowsLastFired(s: Island, t: int)
    requires t >= s.now
    decreases |s.pending|
    ensures var r := FireDue(s, t);
            var n := |s.pending| - |r.pending|;
            r.view == (if n == 0 then s.view else s.pending[n - 1].target)
  {
    if s.pending != [] && s.pending[0].due <= t {
      var s' := s.(view := s.pending[0].target, pending := s.pending[1..]);
      var r := FireDue(s', t);
      assert FireDue(s, t) == r;
      FireDueShowsLastFired(s', t);
      var n := |s.pending| - |r.pending|;
      if n > 1 { assert s'.pending[n - 2] == s.pending[n - 1]; }
    }
  }

  /** A view button click (`handleViewButtonClick`). */
  function SelectView(s: Island, name: string): (r: Island)
    ensures r.now == s.now && r.view == Idle
    ensures name == Idle ==> r.variantKey == Idle && r.pending == s.pending
    ensures name != Idle ==> && r.variantKey == s.view + "-" + name
                             && r.pending == s.pending + [PendingSwitch(s.now + SwitchDelayMs, name)]
  {
    if name == Idle then s.(view := Idle, variantKey := Idle)
    else s.(view := Idle, variantKey := s.view + "-" + name,
            pending := s.pending + [PendingSwitch(s.now + SwitchDelayMs, name)])
  }

  /** The "Options" reset (`handleResetToIdleClick`): both fields back to 'idle';
      a switch already scheduled is not cancelled. */
  function ResetToIdle(s: Island): (r: Island)
    ensures r.view == Idle && r.variantKey == Idle
    ensures r.pending == s.pending && r.now == s.now
  {
    s.(view := Idle, variantKey := Idle)
  }

  /** The AirDrop widget's buttons, when they are wired to the island's `setView`:
      Decline collapses to idle; Accept collapses and opens the mini view 500 ms later.
      The buttons exist only while the AirDrop view is shown. */
  function AirdropButton(s: Island, accept: bool): (r: Island)
    ensures s.view != "airdrop" ==> r == s
    ensures s.view == "airdrop" ==> r.view == Idle && r.variantKey == s.variantKey
    ensures s.view == "airdrop" && !accept ==> r.pending == s.pending
    ensures s.view == "airdrop" && accept ==>
              r.pending == s.pending + [PendingSwitch(s.now + SwitchDelayMs, "airdropMini")]
  {
    if s.view != "airdrop" then s
    else if accept then s.(view := Idle, pending := s.pending + [PendingSwitch(s.now + SwitchDelayMs, "airdropMini")])
    else s.(view := Idle)
  }

  /** The AirDrop buttons as the island actually wires them: the widget receives
      `setView={undefined}`, so its click handler calls `undefined("idle")` and throws
      a TypeError before any state changes. */
  function AirdropButtonAsWritten(s: Island, accept: bool): (r: Result<Island, string>)
    ensures s.view != "airdrop" ==> r == Success(s)
    ensures s.view == "airdrop" ==> r.Failure?
  {
    if s.view != "airdrop" then Success(s) else Failure("TypeError: setView is not a function")
  }

  /** As written, neither AirDrop button can leave the AirDrop view, while the wired
      buttons always collapse it to idle. */
  lemma AirdropButtonsAsWrittenThrow(s: Island, accept: bool)
    requires s.view == "airdrop"
    ensures AirdropButtonAsWritten(s, accept).Failure?
    ensures AirdropButton(s, accept).view == Idle
  {
  }

  /** One click. Every click either collapses the island to idle or changes nothing,
      and none cancels a switch already scheduled: the old queue is a prefix of the new
      one, which has at most one more entry. */
  function Apply(s: Island, input: Input): (r: Island)
    ensures r.now == s.now
    ensures r.view == Idle || r == s
    ensures !input.AirdropAccept? && !input.AirdropDecline? ==> r.view == Idle
    ensures input.ResetClick? ==> r.variantKey == Idle
    ensures |s.pending| <= |r.pending| <= |s.pending| + 1 && r.pending[..|s.pending|] == s.pending
  {
    match input
    case Select(name) => SelectView(s, name)
    case ResetClick => ResetToIdle(s)
    case AirdropAccept => AirdropButton(s, true)
    case AirdropDecline => AirdropButton(s, false)
  }

  /** One event: the clock runs to its time, then the click is handled. */
  function Step(s: Island, e: Event): (r: Island)
    requires e.at >= s.now
    ensures r.now == e.at
    ensures !e.input.AirdropAccept? && !e.input.AirdropDecline? ==> r.view == Idle
    ensures |r.pending| <= |s.pending| + 1
  {
    Apply(FireDue(s, e.at), e.input)
  }

  /** Events arrive in time order, none before the island's clock. */
  predicate Chronological(now: int, events: seq<Event>) {
    && (forall k :: 0 <= k < |events| ==> events[k].at >= now)
    && (forall k, l :: 0 <= k < l < |events| ==> events[k].at <= events[l].at)
  }

  /** Handle an ordered list of events. */
  function Run(s: Island, events: seq<Event>): (r: Island)
    requires Chronological(s.now, events)
    decreases |events|
    ensures r.now == if events == [] then s.now else events[|events| - 1].at
    ensures |r.pending| <= |s.pending| + |events|
  {
    if events == [] then s else
    ChronologicalTail(s.now, events);
    Run(Step(s, events[0]), events[1..])
  }

  /** After the first event, the rest are in order from its time. */
  lemma ChronologicalTail(now: int, events: seq<Event>)
    requires Chronological(now, events) && events != []
    ensures Chronological(events[0].at, events[1..])
  {
    var rest := events[1..];
    forall k | 0 <= k < |rest|
      ensures rest[k].at >= events[0].at
    {
      assert rest[k] == events[k + 1];
    }
    forall k, l | 0 <= k < l < |rest|
      ensures rest[k].at <= rest[l].at
    {
      assert rest[k] == events[k + 1] && rest[l] == events[l + 1];
    }
  }

  // ---------------------------------------------------------------------------
  // Timing properties

  /** Pending switches are due in scheduling order, none is overdue, and none is
      further off than one delay. */
  predicate WellTimed(s: Island) {
    && (forall k :: 0 <= k < |s.pending| ==> s.now < s.pending[k].due <= s.now + SwitchDelayMs)
    && (forall k, l :: 0 <= k < l < |s.pending| ==> s.pending[k].due <= s.pending[l].due)
  }

  lemma {:induction false} FireDueWellTimed(s: Island, t: int)
    requires WellTimed(s) && t >= s.now
    ensures WellTimed(FireDue(s, t))
    decreases |s.pending|
  {
    if s.pending != [] && s.pending[0].due <= t {
      var s' := s.(view := s.pending[0].target, pending := s.pending[1..]);
      assert forall k :: 0 <= k < |s'.pending| ==> s'.pending[k] == s.pending[k + 1];
      FireDueWellTimed(s', t);
    }
  }

  lemma ScheduleWellTimed(s: Island, target: string)
    requires WellTimed(s)
    ensures WellTimed(s.(pending := s.pending + [PendingSwitch(s.now + SwitchDelayMs, target)]))
  {
  }

  lemma ApplyWellTimed(s: Island, input: Input)
    requires WellTimed(s)
    ensures WellTimed(Apply(s, input))
  {
    match input
    case Select(name) =>
      if name != Idle { ScheduleWellTimed(s.(view := Idle, variantKey := s.view + "-" + name), name); }
    case ResetClick =>
    case AirdropAccept =>
      if s.view == "airdrop" { ScheduleWellTimed(s.(view := Idle), "airdropMini"); }
    case AirdropDecline =>
  }

  /** The clock discipline is kept by every event: this is what lets the pending
      timeouts be kept as a queue fired from the front. */
  lemma StepWellTimed(s: Island, e: Event)
    requires WellTimed(s) && e.at >= s.now
    ensures WellTimed(Step(s, e))
  {
    FireDueWellTimed(s, e.at);
    ApplyWellTimed(FireDue(s, e.at), e.input);
  }

  lemma {:induction false} RunWellTimed(s: Island, events: seq<Event>)
    requires WellTimed(s) && Chronological(s.now, events)
    ensures WellTimed(Run(s, events))
    decreases |events|
  {
    if events != [] {
      StepWellTimed(s, events[0]);
      ChronologicalTail(s.now, events);
      RunWellTimed(Step(s, events[0]), events[1..]);
    }
  }

  /** Running the clock with nothing scheduled only moves the clock. */
  lemma FireNothing(s: Island, t: int)
    requires s.pending == [] && t >= s.now
    ensures FireDue(s, t) == s.(now := t)
  {
  }

  /** Running the clock with one switch scheduled fires it exactly when it is due. */
  lemma FireOne(s: Island, t: int)
    requires |s.pending| == 1 && t >= s.now
    ensures s.pending[0].due <= t ==> FireDue(s, t) == s.(now := t, view := s.pending[0].target, pending := [])
    ensures s.pending[0].due > t ==> FireDue(s, t) == s.(now := t)
  {
    if s.pending[0].due <= t {
      var s' := s.(view := s.pending[0].target, pending := s.pending[1..]);
      assert s'.pending == [];
      FireNothing(s', t);
    }
  }

  /** Once the one waiting switch is due, its view is shown. */
  lemma FireOneShows(s: Island, t: int)
    requires |s.pending| == 1 && s.now <= t && s.pending[0].due <= t
    ensures FireDue(s, t).view == s.pending[0].target
  {
    FireOne(s, t);
  }

  /** A view button on a quiet island: idle now, the view scheduled one delay on. */
  lemma QuietSelect(s: Island, v: string, t: int)
    requires s.pending == [] && v != Idle && s.now <= t
    ensures Step(s, Event(t, Select(v))) == Island(t, Idle, s.view + "-" + v, [PendingSwitch(t + SwitchDelayMs, v)])
  {
    FireNothing(s, t);
  }

  /** Choosing a view from a quiet island collapses it to idle at once, keeps it idle
      for the whole delay, and shows the chosen view once the delay has run out. */
  lemma SwitchGoesThroughIdle(s: Island, v: string, t: int, later: int)
    requires s.pending == [] && v != Idle
    requires s.now <= t <= later
    ensures var s1 := Step(s, Event(t, Select(v)));
            && s1.view == Idle
            && s1.variantKey == s.view + "-" + v
            && (later < t + SwitchDelayMs ==> FireDue(s1, later).view == Idle)
            && (later >= t + SwitchDelayMs ==> FireDue(s1, later).view == v)
  {
    QuietSelect(s, v, t);
    FireOne(Step(s, Event(t, Select(v))), later);
  }

  /** A second click inside the 500 ms window sees the island still idle, so its
      variant key is "idle-<b>" whatever was shown before. */
  lemma ClickInsideWindowKeysFromIdle(s: Island, a: string, b: string, t1: int, t2: int)
    requires s.pending == [] && a != Idle && b != Idle
    requires s.now <= t1 <= t2 < t1 + SwitchDelayMs
    ensures Step(Step(s, Event(t1, Select(a))), Event(t2, Select(b))).variantKey == "idle-" + b
  {
    var s1 := Step(s, Event(t1, Select(a)));
    QuietSelect(s, a, t1);
    SelectBeforeDue(s1, b, t2);
    IdleKey(s1.view, b);
  }

  /** A view button while one switch is still waiting: the switch does not fire, so
      the key is built from the view shown now. */
  lemma SelectBeforeDue(s: Island, v: string, t: int)
    requires |s.pending| == 1 && s.now <= t < s.pending[0].due && v != Idle
    ensures Step(s, Event(t, Select(v))).variantKey == s.view + "-" + v
  {
    FireOne(s, t);
  }

  /** The key for a view chosen while idle. It is a lemma of its own so that the
      comparison of the two texts is made once, apart from the timer reasoning. */
  lemma IdleKey(view: string, name: string)
    requires view == Idle
    ensures view + "-" + name == "idle-" + name
  {
  }

  /** A reset inside the window does not cancel the scheduled switch: once it is due,
      the chosen view comes back over the reset. */
  lemma ResetDoesNotCancelSwitch(s: Island, v: string, t1: int, t2: int, t3: int)
    requires s.pending == [] && v != Idle
    requires s.now <= t1 <= t2 < t1 + SwitchDelayMs <= t3
    ensures var r := Step(Step(s, Event(t1, Select(v))), Event(t2, ResetClick));
            r.view == Idle && r.variantKey == Idle && FireDue(r, t3).view == v
  {
    var s1 := Step(s, Event(t1, Select(v)));
    QuietSelect(s, v, t1);
    ResetBeforeDue(s1, t2);
    var r := Step(s1, Event(t2, ResetClick));
    assert r.pending == s1.pending == [PendingSwitch(t1 + SwitchDelayMs, v)];
    FireOneShows(r, t3);
  }

  /** A reset while one switch is still waiting keeps that switch. */
  lemma ResetBeforeDue(s: Island, t: int)
    requires |s.pending| == 1 && s.now <= t < s.pending[0].due
    ensures Step(s, Event(t, ResetClick)) == s.(now := t, view := Idle, variantKey := Idle)
  {
    FireOne(s, t);
  }

  /** With the buttons wired, Accept collapses the AirDrop view and opens the mini
      view 500 ms later; Decline only collapses it. */
  lemma AirdropAcceptOpensMini(s: Island, t: int, t2: int)
    requires s.pending == [] && s.view == "airdrop" && s.now <= t
    requires t2 >= t + SwitchDelayMs
    ensures var r := Step(s, Event(t, AirdropAccept));
            r.view == Idle && FireDue(r, t2).view == "airdropMini"
    ensures Step(s, Event(t, AirdropDecline)).view == Idle
    ensures Step(s, Event(t, AirdropDecline)).pending == []
  {
    FireNothing(s, t);
    var r := Step(s, Event(t, AirdropAccept));
    assert r == AirdropButton(s.(now := t), true);
    FireOne(r, t2);
  }

  // ---------------------------------------------------------------------------
  // Which variant keys can occur

  predicate IsOption(name: string) {
    name in OptionNames
  }

  /** Option names never contain the '-' that joins a variant key. */
  lemma OptionsHaveNoDash(name: string)
    requires IsOption(name)
    ensures '-' !in name
  {
  }

  /** A key the options panel can produce: 'idle', or "<a>-<b>" for option names a
      and b, where a is everything before the first '-'. */
  predicate ProducibleKey(key: string) {
    var d := IndexOfChar(key, '-');
    key == Idle || (d < |key| && IsOption(key[..d]) && IsOption(key[d + 1..]))
  }

  /** Joining two option names gives a producible key, split back at the dash. */
  lemma JoinedKeyProducible(a: string, b: string)
    requires IsOption(a) && IsOption(b)
    ensures ProducibleKey(a + "-" + b)
  {
    var key := a + "-" + b;
    OptionsHaveNoDash(a);
    assert forall i :: 0 <= i < |a| ==> key[i] == a[i];
    assert key[|a|] == '-';
    assert IndexOfChar(key, '-') == |a|;
    assert key[..|a|] == a && key[|a| + 1..] == b;
  }

  predicate TargetsAreOptions(pending: seq<PendingSwitch>) {
    forall k :: 0 <= k < |pending| ==> IsOption(pending[k].target)
  }

  /** What every reachable state satisfies. */
  predicate Reachable(s: Island) {
    IsOption(s.view) && TargetsAreOptions(s.pending) && ProducibleKey(s.variantKey)
  }

  lemma InitialReachable()
    ensures Reachable(Initial())
  {
  }

  lemma {:induction false} FireDueReachable(s: Island, t: int)
    requires t >= s.now && Reachable(s)
    ensures Reachable(FireDue(s, t))
    decreases |s.pending|
  {
    if s.pending != [] && s.pending[0].due <= t {
      var s' := s.(view := s.pending[0].target, pending := s.pending[1..]);
      assert forall k :: 0 <= k < |s'.pending| ==> s'.pending[k] == s.pending[k + 1];
      FireDueReachable(s', t);
    }
  }

  lemma ScheduleKeepsTargets(pending: seq<PendingSwitch>, p: PendingSwitch)
    requires TargetsAreOptions(pending) && IsOption(p.target)
    ensures TargetsAreOptions(pending + [p])
  {
  }

  lemma ApplyReachable(s: Island, input: Input)
    requires Reachable(s)
    requires input.Select? ==> IsOption(input.name)
    ensures Reachable(Apply(s, input))
  {
    match input
    case Select(name) =>
      if name != Idle {
        JoinedKeyProducible(s.view, name);
        ScheduleKeepsTargets(s.pending, PendingSwitch(s.now + SwitchDelayMs, name));
      }
    case ResetClick =>
    case AirdropAccept =>
      if s.view == "airdrop" {
        ScheduleKeepsTargets(s.pending, PendingSwitch(s.now + SwitchDelayMs, "airdropMini"));
      }
    case AirdropDecline =>
  }

  /** Clicks on the panel's own buttons keep the island reachable. */
  lemma StepReachable(s: Island, e: Event)
    requires e.at >= s.now && Reachable(s)
    requires e.input.Select? ==> IsOption(e.input.name)
    ensures Reachable(Step(s, e))
  {
    FireDueReachable(s, e.at);
    ApplyReachable(FireDue(s, e.at), e.input);
  }

  /** Every view button in the list is one of the panel's options. */
  predicate PanelClicks(events: seq<Event>) {
    forall k :: 0 <= k < |events| ==> (events[k].input.Select? ==> IsOption(events[k].input.name))
  }

  /** Any run of clicks on the panel's buttons leaves the island reachable. */
  lemma {:induction false} RunReachable(s: Island, events: seq<Event>)
    requires Reachable(s) && Chronological(s.now, events)
    requires PanelClicks(events)
    ensures Reachable(Run(s, events))
    decreases |events|
  {
    if events != [] {
      StepReachable(s, events[0]);
      var s1 := Step(s, events[0]);
      var rest := events[1..];
      assert forall k :: 0 <= k < |rest| ==> rest[k] == events[k + 1];
      RunReachable(s1, rest);
    }
  }

  /** The misspelt 'aridrop-*' entries can never be looked up: no option is named
      'aridrop', so no producible key starts with it. */
  lemma AridropKeysUnproducible()
    ensures !ProducibleKey("aridrop-ring")
    ensures !ProducibleKey("aridrop-timer")
    ensures !ProducibleKey("aridrop-record")
  {
    AridropKeyUnproducible("aridrop-ring");
    AridropKeyUnproducible("aridrop-timer");
    AridropKeyUnproducible("aridrop-record");
  }

  /** A key whose text before its first '-' is "aridrop" is not producible. */
  lemma AridropKeyUnproducible(key: string)
    requires |key| > 8 && key[..8] == "aridrop-"
    ensures !ProducibleKey(key)
  {
    assert key[7] == '-';
    assert forall i :: 0 <= i < 7 ==> key[i] != '-';
    assert IndexOfChar(key, '-') == 7;
    assert key[..7] == "aridrop";
    assert !IsOption("aridrop");
  }

  /** The typo is harmless: were the entries spelt 'airdrop-*', every key would spring
      with the same bounce, because the misspelt entries hold the default 0.2. */
  lemma AridropTypoIsHarmless(key: string)
    ensures var fixed := BounceVariants - {"aridrop-ring", "aridrop-timer", "aridrop-record"}
                         + map["airdrop-ring" := 0.2, "airdrop-timer" := 0.2, "airdrop-record" := 0.2];
            BounceFor(fixed, key) == Bounce(key)
  {
  }

  // ---------------------------------------------------------------------------
  // Inherited keys

  /** The property names a plain JavaScript object inherits from `Object.prototype`.
      Looking one of them up in the bounce table gives the inherited member, which is
      truthy and not a number, instead of falling back to 0.2. */
  const ObjectPrototypeKeys: set<string> := {
    "constructor", "hasOwnProperty", "isPrototypeOf", "propertyIsEnumerable",
    "toLocaleString", "toString", "valueOf", "__proto__",
    "__defineGetter__", "__defineSetter__", "__lookupGetter__", "__lookupSetter__"
  }

  /** A key without a '-' is producible only as the idle key. */
  lemma DashFreeKey(key: string)
    requires '-' !in key
    ensures ProducibleKey(key) <==> key == Idle
  {
    assert IndexOfChar(key, '-') == |key|;
  }

  /** No inherited property name is a key the island can produce. */
  lemma PrototypeKeysUnproducible(key: string)
    requires key in ObjectPrototypeKeys
    ensures !ProducibleKey(key)
  {
    assert '-' !in key && key != Idle;
    DashFreeKey(key);
  }

  /** In every reachable state the variant key is an own key of the table or no key at
      all, so the lookup with its 0.2 fallback is exactly what the program computes,
      and the capsule's bounce lies in [0.2, 0.5]. */
  lemma ReachableKeyIsNotInherited(s: Island)
    requires Reachable(s)
    ensures s.variantKey !in ObjectPrototypeKeys
    ensures 0.2 <= Bounce(s.variantKey) <= 0.5
  {
    if s.variantKey in ObjectPrototypeKeys {
      PrototypeKeysUnproducible(s.variantKey);
      assert false;
    }
  }
}

=== FILE: jstext.dfy ===
/** The JavaScript string and number built-ins the components lean on, stated
    exactly for the inputs the model feeds them: the `\s` character class and
    `trim`, integer-to-string conversion, decimal digit parsing, `padStart`,
    substring search and single replacement. */
module JsText {
  import opened Wrappers

  /** The ECMAScript WhiteSpace and LineTerminator characters outside the
      U+2000..U+200A block. */
  const SpaceChars: set<char> := {
    ' ', '\t', '\n', '\U{000B}', '\U{000C}', '\r', '\U{00A0}', '\U{1680}',
    '\U{2028}', '\U{2029}', '\U{202F}', '\U{205F}', '\U{3000}', '\U{FEFF}'
  }

  /** A character of the ECMAScript WhiteSpace or LineTerminator sets: the class
      matched by `\s` in a regular expression and stripped by `String.prototype.trim`. */
  predicate IsSpace(c: char) {
    c in SpaceChars || '\U{2000}' <= c <= '\U{200A}'
  }

  predicate IsDigit(c: char) {
    '0' <= c <= '9'
  }

  predicate AllDigits(s: string) {
    forall i :: 0 <= i < |s| ==> IsDigit(s[i])
  }

  predicate NoSpace(s: string) {
    forall i :: 0 <= i < |s| ==> !IsSpace(s[i])
  }

  // ---------------------------------------------------------------------------
  // trim

  /** The first index at or after `from` that does not hold white space (or |s|). */
  function SkipSpace(s: string, from: nat): (n: nat)
    requires from <= |s|
    decreases |s| - from
    ensures from <= n <= |s|
    ensures forall i :: from <= i < n ==> IsSpace(s[i])
    ensures n == |s| || !IsSpace(s[n])
  {
    if from < |s| && IsSpace(s[from]) then SkipSpace(s, from + 1) else from
  }

  /** The end of `s[lo..hi]` once its trailing white space is cut off. */
  function SkipSpaceBack(s: string, lo: nat, hi: nat): (n: nat)
    requires lo <= hi <= |s|
    decreases hi
    ensures lo <= n <= hi
    ensures forall i :: n <= i < hi ==> IsSpace(s[i])
    ensures n == lo || !IsSpace(s[n - 1])
  {
    if hi > lo && IsSpace(s[hi - 1]) then SkipSpaceBack(s, lo, hi - 1) else hi
  }

  /** `String.prototype.trim`: the result is the slice of `s` left once the
      leading and trailing white space is cut away; it neither starts nor ends
      with white space, and everything cut away was white space. */
  function Trim(s: string): (r: string)
    ensures var a := SkipSpace(s, 0);
              && a + |r| <= |s| && r == s[a..a + |r|]
              && (forall i :: 0 <= i < a ==> IsSpace(s[i]))
              && (forall i :: a + |r| <= i < |s| ==> IsSpace(s[i]))
    ensures r == [] || (!IsSpace(r[0]) && !IsSpace(r[|r| - 1]))
  {
    var a := SkipSpace(s, 0);
    var b := SkipSpaceBack(s, a, |s|);
    s[a..b]
  }

  // ---------------------------------------------------------------------------
  // Decimal digits

  function DigitChar(d: nat): (c: char)
    requires d < 10
    ensures IsDigit(c) && c as int - '0' as int == d
  {
    ('0' as int + d) as char
  }

  function DigitValue(c: char): (d: nat)
    requires IsDigit(c)
    ensures d < 10
  {
    c as int - '0' as int
  }

  /** The number a string of decimal digits denotes (the empty string denotes 0). */
  function DigitsValue(s: string): (n: nat)
    requires AllDigits(s)
  {
    if s == [] then 0 else 10 * DigitsValue(s[..|s| - 1]) + DigitValue(s[|s| - 1])
  }

  /** The first index at or after `from` that does not hold a decimal digit (or |s|). */
  function DigitsEnd(s: string, from: nat): (n: nat)
    requires from <= |s|
    decreases |s| - from
    ensures from <= n <= |s|
    ensures forall i :: from <= i < n ==> IsDigit(s[i])
    ensures n == |s| || !IsDigit(s[n])
  {
    if from < |s| && IsDigit(s[from]) then DigitsEnd(s, from + 1) else from
  }

  /** `DigitsEnd` is determined by the digit run it stops after. */
  lemma {:induction false} DigitsEndAt(s: string, from: nat, n: nat)
    requires from <= n <= |s|
    requires forall i :: from <= i < n ==> IsDigit(s[i])
    requires n == |s| || !IsDigit(s[n])
    ensures DigitsEnd(s, from) == n
    decreases n - from
  {
    if from < n {
      DigitsEndAt(s, from + 1, n);
    }
  }

  /** `Number.prototype.toString()` of a non-negative integer: its decimal digits,
      with no leading zero except for 0 itself. */
  function NatToString(n: nat): (s: string)
    ensures |s| >= 1 && AllDigits(s)
    ensures s[0] == '0' ==> n == 0
    ensures n < 10 <==> |s| == 1
    ensures n < 100 <==> |s| <= 2
  {
    if n < 10 then [DigitChar(n)] else NatToString(n / 10) + [DigitChar(n % 10)]
  }

  /** The text of a two-digit number is its two digits. */
  lemma TwoDigitText(n: nat, a: nat, b: nat)
    requires n == 10 * a + b && 1 <= a < 10 && b < 10
    ensures NatToString(n) == [DigitChar(a), DigitChar(b)]
  {
    assert n / 10 == a && n % 10 == b;
  }

  /** The text of a three-digit number is its three digits. */
  lemma ThreeDigitText(n: nat, a: nat, b: nat, c: nat)
    requires n == 100 * a + 10 * b + c && 1 <= a < 10 && b < 10 && c < 10
    ensures NatToString(n) == [DigitChar(a), DigitChar(b), DigitChar(c)]
  {
    assert n / 10 == 10 * a + b && n % 10 == c;
    TwoDigitText(n / 10, a, b);
  }

  /** `Number.prototype.toString()` of any integer, with a minus sign when negative. */
  function IntToString(n: int): (s: string)
    ensures |s| >= 1
    ensures n >= 0 ==> s == NatToString(n)
    ensures n < 0 ==> s == "-" + NatToString(-n)
    ensures n >= 0 ==> AllDigits(s)
    ensures n < 0 ==> |s| >= 2 && s[0] == '-' && AllDigits(s[1..])
  {
    if n >= 0 then NatToString(n) else "-" + NatToString(-n)
  }

  /** Reading the digits back gives the number: the conversion loses nothing. */
  lemma {:induction false} NatToStringRoundTrip(n: nat)
    ensures DigitsValue(NatToString(n)) == n
  {
    if n >= 10 {
      var s := NatToString(n);
      assert s[..|s| - 1] == NatToString(n / 10);
      NatToStringRoundTrip(n / 10);
    }
  }

  /** Two numbers with the same decimal text are the same number. */
  lemma NatToStringInjective(m: nat, n: nat)
    requires NatToString(m) == NatToString(n)
    ensures m == n
  {
    NatToStringRoundTrip(m);
    NatToStringRoundTrip(n);
  }

  /** Two integers with the same text are the same integer. */
  lemma IntToStringInjective(m: int, n: int)
    requires IntToString(m) == IntToString(n)
    ensures m == n
  {
    if m >= 0 && n >= 0 {
      NatToStringInjective(m, n);
    } else if m < 0 && n < 0 {
      assert IntToString(m)[1..] == NatToString(-m);
      assert IntToString(n)[1..] == NatToString(-n);
      NatToStringInjective(-m, -n);
    }
  }

  /** `parseInt(s, 10)`: after leading white space and an optional sign, the longest
      run of decimal digits; None (NaN) when there is no digit there. */
  function ParseInt(s: string): (r: Option<int>)
    ensures var i := SkipSpace(s, 0);
            var k := if i < |s| && (s[i] == '-' || s[i] == '+') then i + 1 else i;
            r.None? <==> k == |s| || !IsDigit(s[k])
  {
    var i := SkipSpace(s, 0);
    var negative := i < |s| && s[i] == '-';
    var k := if i < |s| && (s[i] == '-' || s[i] == '+') then i + 1 else i;
    var j := DigitsEnd(s, k);
    if j == k then None
    else
      assert AllDigits(s[k..j]);
      var magnitude: int := DigitsValue(s[k..j]);
      Some(if negative then -magnitude else magnitude)
  }

  /** `parseInt` reads back a number's text, whatever non-digit text follows it. */
  lemma ParseIntRoundTrip(n: int, rest: string)
    requires rest == [] || !IsDigit(rest[0])
    ensures ParseInt(IntToString(n) + rest) == Some(n)
  {
    var s := IntToString(n) + rest;
    if n >= 0 {
      var e := NonNegativeText(n, rest, s);
      ParseIntOf(s, false, 0, e);
      NatToStringRoundTrip(n);
    } else {
      var e := NegativeText(n, rest, s);
      ParseIntOf(s, true, 1, e);
      NatToStringRoundTrip(-n);
    }
  }

  /** `parseInt` of a text with no leading white space whose sign, if any, is at 0 and
      whose digit run is `s[k..e]`: the run's value, negated after a '-'. */
  lemma ParseIntOf(s: string, negative: bool, k: nat, e: nat)
    requires |s| > 0 && !IsSpace(s[0])
    requires negative ==> s[0] == '-' && k == 1
    requires !negative ==> s[0] != '-' && s[0] != '+' && k == 0
    requires k < e <= |s| && DigitsEnd(s, k) == e && AllDigits(s[k..e])
    ensures var v: int := DigitsValue(s[k..e]); ParseInt(s) == Some(if negative then -v else v)
  {
    assert SkipSpace(s, 0) == 0;
  }

  /** The text of a non-negative number followed by a non-digit: its digits are the
      run at 0. */
  lemma NonNegativeText(n: int, rest: string, s: string) returns (e: nat)
    requires n >= 0 && (rest == [] || !IsDigit(rest[0])) && s == IntToString(n) + rest
    ensures |s| > 0 && !IsSpace(s[0]) && s[0] != '-' && s[0] != '+'
    ensures 0 < e <= |s| && DigitsEnd(s, 0) == e && s[0..e] == NatToString(n)
  {
    var digits := NatToString(n);
    e := |digits|;
    assert s[0..e] == digits;
    assert forall i :: 0 <= i < e ==> s[i] == digits[i];
    assert e < |s| ==> s[e] == rest[0];
    DigitsEndAt(s, 0, e);
  }

  /** The text of a negative number followed by a non-digit: a '-', then the digits
      of its magnitude as the run at 1. */
  lemma NegativeText(n: int, rest: string, s: string) returns (e: nat)
    requires n < 0 && (rest == [] || !IsDigit(rest[0])) && s == IntToString(n) + rest
    ensures |s| > 0 && !IsSpace(s[0]) && s[0] == '-'
    ensures 1 < e <= |s| && DigitsEnd(s, 1) == e && s[1..e] == NatToString(-n)
  {
    var digits := NatToString(-n);
    e := 1 + |digits|;
    assert s == "-" + digits + rest;
    assert s[1..e] == digits;
    assert forall i :: 1 <= i < e ==> s[i] == digits[i - 1];
    assert e < |s| ==> s[e] == rest[0];
    DigitsEndAt(s, 1, e);
  }

  // ---------------------------------------------------------------------------
  // padStart(2, "0")

  /** `s.padStart(2, "0")`: zeros in front until the length is 2; longer strings are kept. */
  function PadStart2(s: string): (r: string)
    ensures |s| >= 2 ==> r == s
    ensures |s| < 2 ==> |r| == 2 && r[2 - |s|..] == s
    ensures forall i :: 0 <= i < |r| - |s| ==> r[i] == '0'
  {
    if |s| >= 2 then s else if |s| == 1 then "0" + s else "00"
  }

  // ---------------------------------------------------------------------------
  // Substring search

  predicate OccursAt(s: string, sub: string, i: nat) {
    i + |sub| <= |s| && s[i..i + |sub|] == sub
  }

  /** `s.indexOf(c, from)` for a single character, with |s| standing for "not found". */
  function IndexOfChar(s: string, c: char, from: nat := 0): (k: nat)
    requires from <= |s|
    decreases |s| - from
    ensures from <= k <= |s|
    ensures forall i :: from <= i < k ==> s[i] != c
    ensures k < |s| ==> s[k] == c
  {
    if from == |s| || s[from] == c then from else IndexOfChar(s, c, from + 1)
  }

  /** `s.indexOf(sub, from)`: the first position at or after `from` where `sub` occurs. */
  function IndexOfFrom(s: string, sub: string, from: nat): (r: Option<nat>)
    decreases |s| - from
    ensures r.Some? ==> from <= r.value && OccursAt(s, sub, r.value)
    ensures r.Some? ==> forall j :: from <= j < r.value ==> !OccursAt(s, sub, j)
    ensures r.None? ==> forall j :: from <= j ==> !OccursAt(s, sub, j)
  {
    if from + |sub| > |s| then None
    else if s[from..from + |sub|] == sub then Some(from)
    else IndexOfFrom(s, sub, from + 1)
  }

  /** `s.indexOf(sub)`: the first occurrence, if any. */
  function IndexOf(s: string, sub: string): (r: Option<nat>)
    ensures r.Some? ==> OccursAt(s, sub, r.value)
    ensures r.Some? ==> forall j :: 0 <= j < r.value ==> !OccursAt(s, sub, j)
    ensures r.None? <==> forall j :: 0 <= j ==> !OccursAt(s, sub, j)
  {
    IndexOfFrom(s, sub, 0)
  }

  /** An occurrence with none before it is the one `indexOf` finds. */
  lemma FirstOccurrence(s: string, sub: string, i: nat)
    requires OccursAt(s, sub, i) && forall j :: 0 <= j < i ==> !OccursAt(s, sub, j)
    ensures IndexOf(s, sub) == Some(i)
  {
  }

  /** `/sub/.test(s)` for a literal pattern: does `sub` occur anywhere in `s`? */
  predicate Contains(s: string, sub: string) {
    IndexOf(s, sub).Some?
  }

  /** `s.replace(pat, rep)` with a string pattern: only the first occurrence is replaced. */
  function ReplaceFirst(s: string, pat: string, rep: string): (r: string)
    ensures IndexOf(s, pat).None? ==> r == s
    ensures IndexOf(s, pat).Some? ==>
              var i := IndexOf(s, pat).value;
              r == s[..i] + rep + s[i + |pat|..]
  {
    match IndexOf(s, pat)
    case None => s
    case Some(i) => s[..i] + rep + s[i + |pat|..]
  }

  // ---------------------------------------------------------------------------
  // Math.max, Math.min

  /** `Math.max` of two numbers. */
  function Max(a: real, b: real): (r: real)
    ensures r >= a && r >= b && (r == a || r == b)
  {
    if a >= b then a else b
  }

  /** `Math.min` of two numbers. */
  function Min(a: real, b: real): (r: real)
    ensures r <= a && r <= b && (r == a || r == b)
  {
    if a <= b then a else b
  }
}

=== FILE: loading.dfy ===
/** The loading gate: a flag that starts true and is cleared once, 6000 ms after the
    provider mounts, with the page scroll locked on the body while it holds. */
module LoadingContext {
  import opened Wrappers

  const GateDurationMs: int := 6000

  /** The three body style properties the gate writes. */
  datatype BodyStyle = BodyStyle(overflow: string, position: string, width: string)

  const Locked: BodyStyle := BodyStyle("hidden", "fixed", "100%")
  const Cleared: BodyStyle := BodyStyle("", "", "")

  /** The provider's state: the clock, whether it is mounted, the flag, its pending
      timeout, and the body style it last wrote. */
  datatype Gate = Gate(now: int, mounted: bool, isLoading: bool, timer: Option<int>, body: BodyStyle)

  /** The body effect for a flag value: lock while loading, clear otherwise. */
  function BodyFor(isLoading: bool): (b: BodyStyle)
    ensures isLoading <==> b == Locked
    ensures !isLoading <==> b == Cleared
  {
    if isLoading then Locked else Cleared
  }

  /** Mounting at time `t`: the flag starts true, the timeout is set for `t + 6000`,
      and the body effect locks the page. */
  function Mount(t: int): (g: Gate)
    ensures g.isLoading && g.mounted && g.body == Locked
    ensures g.timer == Some(t + GateDurationMs)
  {
    Gate(t, true, true, Some(t + GateDurationMs), BodyFor(true))
  }

  /** Let the clock run to `t`: a due timeout clears the flag, and the body effect's
      cleanup and re-run leave the body cleared. */
  function Advance(g: Gate, t: int): (r: Gate)
    requires t >= g.now
    ensures r.now == t && r.mounted == g.mounted
    ensures g.timer.Some? && g.timer.value <= t ==> !r.isLoading && r.timer.None? && r.body == Cleared
    ensures !(g.timer.Some? && g.timer.value <= t) ==> r == g.(now := t)
  {
    if g.timer.Some? && g.timer.value <= t then Gate(t, g.mounted, false, None, BodyFor(false))
    else g.(now := t)
  }

  /** Unmounting: the timeout is cancelled and the effect cleanup clears the body. */
  function Unmount(g: Gate): (r: Gate)
    ensures !r.mounted && r.timer.None? && r.body == Cleared
    ensures r.isLoading == g.isLoading && r.now == g.now
  {
    g.(mounted := false, timer := None, body := Cleared)
  }

  datatype Input = Wait | UnmountNow

  datatype Event = Event(at: int, input: Input)

  /** One event: the clock runs to its time, then the provider may unmount. Nothing
      mounts it again. */
  function Step(g: Gate, e: Event): (r: Gate)
    requires e.at >= g.now
    ensures r.now == e.at
    ensures r.mounted ==> g.mounted
    ensures e.input == UnmountNow ==> !r.mounted
    ensures e.input == UnmountNow && g.mounted ==> r.timer.None? && r.body == Cleared
    ensures !g.isLoading ==> !r.isLoading
  {
    var g' := Advance(g, e.at);
    match e.input
    case Wait => g'
    case UnmountNow => if g'.mounted then Unmount(g') else g'
  }

  predicate Chronological(now: int, events: seq<Event>) {
    && (forall k :: 0 <= k < |events| ==> events[k].at >= now)
    && (forall k, l :: 0 <= k < l < |events| ==> events[k].at <= events[l].at)
  }

  /** Handle an ordered list of events. */
  function Run(g: Gate, events: seq<Event>): (r: Gate)
    requires Chronological(g.now, events)
    decreases |events|
    ensures r.now == if events == [] then g.now else events[|events| - 1].at
    ensures r.mounted ==> g.mounted
  {
    if events == [] then g
    else
      var g1 := Step(g, events[0]);
      assert Chronological(g1.now, events[1..]);
      Run(g1, events[1..])
  }

  /** What every state after mounting satisfies: while mounted the body is locked
      exactly when the flag is set, and after unmounting it is cleared; a timeout is
      pending only while mounted and loading, and never one already due. */
  predicate Sound(g: Gate) {
    && (g.mounted ==> g.body == BodyFor(g.isLoading))
    && (!g.mounted ==> g.body == Cleared)
    && (g.timer.Some? <==> g.mounted && g.isLoading)
    && (g.timer.Some? ==> g.timer.value > g.now)
  }

  lemma MountSound(t: int)
    ensures Sound(Mount(t))
  {
  }

  lemma StepSound(g: Gate, e: Event)
    requires Sound(g) && e.at >= g.now
    ensures Sound(Step(g, e))
    ensures !g.isLoading ==> !Step(g, e).isLoading
  {
  }

  /** Every run keeps the state sound, and a cleared flag is never set again. */
  lemma {:induction false} RunSound(g: Gate, events: seq<Event>)
    requires Sound(g) && Chronological(g.now, events)
    ensures Sound(Run(g, events))
    ensures !g.isLoading ==> !Run(g, events).isLoading
    decreases |events|
  {
    if events != [] {
      StepSound(g, events[0]);
      RunSound(Step(g, events[0]), events[1..]);
    }
  }

  /** With the provider mounted at `t0` and still mounted, the flag holds exactly until
      6000 ms have passed, and the body is locked exactly as long. */
  lemma LoadingUntilTimeout(t0: int, t: int)
    requires t >= t0
    ensures var g := Step(Mount(t0), Event(t, Wait));
            && (g.isLoading <==> t < t0 + GateDurationMs)
            && (g.body == Locked <==> t < t0 + GateDurationMs)
  {
  }

  /** Unmounting before the timeout cancels it: the flag is never cleared afterwards,
      and the body stays cleared. */
  lemma UnmountCancelsTimeout(t0: int, t1: int, t2: int)
    requires t0 <= t1 < t0 + GateDurationMs && t1 <= t2
    ensures var g := Step(Step(Mount(t0), Event(t1, UnmountNow)), Event(t2, Wait));
            && g.isLoading && g.timer.None? && g.body == Cleared
  {
  }

  /** `useLoading`: the context value, or the error thrown outside a provider. */
  function UseLoading(context: Option<bool>): (r: Result<bool, string>)
    ensures context.None? <==> r.Failure?
    ensures context.Some? ==> r == Success(context.value)
  {
    match context
    case None => Failure("useLoading must be used within a LoadingProvider")
    case Some(isLoading) => Success(isLoading)
  }
}

/** The loading screen: visible from mount, fading out from 5200 ms, gone at 6000 ms. */
module LoadingScreen {
  import opened Wrappers

  const FadeOutAtMs: int := 5200
  const HideAtMs: int := 6000

  datatype Screen = Screen(now: int, isVisible: bool, isExiting: bool,
                           fadeTimer: Option<int>, hideTimer: Option<int>)

  /** Mounting at `t`: visible, not exiting, with both timeouts set. */
  function Mount(t: int): (s: Screen)
    ensures s.isVisible && !s.isExiting
    ensures s.fadeTimer == Some(t + FadeOutAtMs) && s.hideTimer == Some(t + HideAtMs)
  {
    Screen(t, true, false, Some(t + FadeOutAtMs), Some(t + HideAtMs))
  }

  /** Let the clock run to `t`: each due timeout fires once. */
  function Advance(s: Screen, t: int): (r: Screen)
    requires t >= s.now
    ensures r.now == t
    ensures s.fadeTimer.Some? && s.fadeTimer.value <= t ==> r.isExiting && r.fadeTimer.None?
    ensures !(s.fadeTimer.Some? && s.fadeTimer.value <= t) ==> r.isExiting == s.isExiting && r.fadeTimer == s.fadeTimer
    ensures s.hideTimer.Some? && s.hideTimer.value <= t ==> !r.isVisible && r.hideTimer.None?
    ensures !(s.hideTimer.Some? && s.hideTimer.value <= t) ==> r.isVisible == s.isVisible && r.hideTimer == s.hideTimer
  {
    var afterFade := if s.fadeTimer.Some? && s.fadeTimer.value <= t
                     then s.(isExiting := true, fadeTimer := None) else s;
    var afterHide := if afterFade.hideTimer.Some? && afterFade.hideTimer.value <= t
                     then afterFade.(isVisible := false, hideTimer := None) else afterFade;
    afterHide.(now := t)
  }

  /** Unmounting clears both timeouts, so nothing changes afterwards. */
  function Unmount(s: Screen): (r: Screen)
    ensures r.fadeTimer.None? && r.hideTimer.None?
    ensures r.isVisible == s.isVisible && r.isExiting == s.isExiting
  {
    s.(fadeTimer := None, hideTimer := None)
  }

  /** The rendered class attribute, or nothing once the screen is hidden. */
  function Render(s: Screen): (r: Option<string>)
    ensures r.None? <==> !s.isVisible
    ensures s.isVisible && s.isExiting ==> r == Some("loading-screen loading-screen--exiting")
    ensures s.isVisible && !s.isExiting ==> r == Some("loading-screen ")
  {
    if !s.isVisible then None
    else
      var modifier := if s.isExiting then "loading-screen--exiting" else "";
      assert "loading-screen " + "" == "loading-screen ";
      assert "loading-screen " + "loading-screen--exiting" == "loading-screen loading-screen--exiting";
      Some("loading-screen " + modifier)
  }

  /** Mounted at `t0` and observed at `t`: visible exactly before 6000 ms, exiting exactly
      from 5200 ms, so the fade always starts before the screen goes. */
  lemma Timeline(t0: int, t: int)
    requires t >= t0
    ensures var s := Advance(Mount(t0), t);
            && (s.isVisible <==> t < t0 + HideAtMs)
            && (s.isExiting <==> t >= t0 + FadeOutAtMs)
            && (!s.isVisible ==> s.isExiting)
  {
  }

  /** Once unmounted, no later clock advance changes what the screen shows. */
  lemma UnmountFreezes(s: Screen, t: int)
    requires t >= s.now
    ensures var r := Advance(Unmount(s), t);
            r.isVisible == s.isVisible && r.isExiting == s.isExiting
  {
  }

  /** The exiting modifier is in the class attribute exactly while exiting. */
  lemma ExitingClassIffExiting(s: Screen)
    requires s.isVisible
    ensures var c := Render(s).value;
            (|c| > 15 && c[15..] == "loading-screen--exiting") <==> s.isExiting
  {
  }
}

=== FILE: music.dfy ===
/** The music widget: a two-minute track whose elapsed time counts up once a second
    while playing and stops at the track length, a six-bar waveform, a play/pause
    button, and the elapsed and remaining times. */
module MusicWidget {
  import opened Wrappers
  import opened SecondCounter
  import WidgetClock
  import opened JsText

  const TotalDuration: int := 120
  const Bars: nat := 6

  /** The widget's state: the clock, the elapsed time, the pause flag, the bar heights,
      the cover's flip, and the next firing of the timer interval (none while paused). */
  datatype Player = Player(now: int, time: int, isPaused: bool, heights: seq<real>,
                           flipped: bool, nextTick: Option<int>)

  /** Mounting at `t`: one second elapsed, playing, with the first heights drawn and
      the timer interval started. */
  function Mount(t: int, samples: seq<real>): (p: Player)
    requires |samples| == Bars && RandomDraws(samples)
    ensures p.time == 1 && !p.isPaused && !p.flipped && p.now == t
    ensures p.nextTick == Some(t + TickMs) && |p.heights| == Bars
  {
    Player(t, 1, false, Heights(samples), false, Some(t + TickMs))
  }

  /** Let the clock run to `t`: while playing, every due firing adds a second until the
      track length is reached. */
  function Advance(p: Player, t: int): (r: Player)
    requires t >= p.now
    ensures r.now == t && r.isPaused == p.isPaused && r.heights == p.heights
    ensures p.nextTick.None? ==> r.time == p.time && r.nextTick.None?
    ensures p.nextTick.Some? ==> r.nextTick.Some? && r.nextTick.value > t
    ensures p.time <= TotalDuration ==> p.time <= r.time <= TotalDuration
  {
    match p.nextTick
    case None => p.(now := t)
    case Some(due) =>
      FireTicksClosedForm(p.time, due, t, Some(TotalDuration));
      var (time, next) := FireTicks(p.time, due, t, Some(TotalDuration));
      p.(now := t, time := time, nextTick := Some(next))
  }

  /** What the user or the waveform interval does. `Seek` is the slider's `onChange`,
      whose bounds belong to a slider outside this model; `Redraw` is a firing of the
      100 ms waveform interval with the random numbers it draws. */
  datatype Input = Wait | TogglePause | FlipCover | Seek(value: int) | Redraw(samples: seq<real>)

  datatype Event = Event(at: int, input: Input)

  /** A redraw carries one random number per bar. */
  predicate ValidInput(i: Input) {
    i.Redraw? ==> |i.samples| == Bars && RandomDraws(i.samples)
  }

  /** The input applied at the current time. Toggling the pause flag restarts (or
      stops) the interval; a redraw only happens while the waveform interval runs. */
  function Apply(p: Player, i: Input): (r: Player)
    requires ValidInput(i)
    ensures r.now == p.now
    ensures i.TogglePause? ==> r.isPaused == !p.isPaused
    ensures !i.TogglePause? ==> r.isPaused == p.isPaused && r.nextTick == p.nextTick
    ensures !i.Seek? ==> r.time == p.time
    ensures i.Redraw? && p.isPaused ==> r == p
  {
    match i
    case Wait => p
    case TogglePause =>
      if p.isPaused then p.(isPaused := false, nextTick := Some(p.now + TickMs))
      else p.(isPaused := true, nextTick := None)
    case FlipCover => p.(flipped := !p.flipped)
    case Seek(v) => p.(time := v)
    case Redraw(samples) => if p.isPaused then p else p.(heights := Heights(samples))
  }

  /** One event: the clock runs to its time, then the input is applied. Only a seek
      moves the elapsed time outside the counting, which stops at the track length. */
  function Step(p: Player, e: Event): (r: Player)
    requires e.at >= p.now && ValidInput(e.input)
    ensures r.now == e.at
    ensures e.input.TogglePause? ==> r.isPaused == !p.isPaused
    ensures !e.input.TogglePause? ==> r.isPaused == p.isPaused
    ensures !e.input.Seek? && p.time <= TotalDuration ==> p.time <= r.time <= TotalDuration
  {
    Apply(Advance(p, e.at), e.input)
  }

  /** What holds after every step: the interval runs exactly while playing and is
      never overdue, and there is one height per bar, each from a random draw. */
  predicate Sound(p: Player) {
    && (p.nextTick.Some? <==> !p.isPaused)
    && (p.nextTick.Some? ==> p.nextTick.value > p.now)
    && |p.heights| == Bars
    && (forall k :: 0 <= k < |p.heights| ==> 0.2 <= p.heights[k] < 1.0)
  }

  /** Steps keep the state sound; without the slider, ticks never take the time past
      the track length, and the time never goes back. */
  lemma StepSound(p: Player, e: Event)
    requires Sound(p) && e.at >= p.now && ValidInput(e.input)
    ensures Sound(Step(p, e))
    ensures !e.input.Seek? && p.time <= TotalDuration ==> p.time <= Step(p, e).time <= TotalDuration
  {
  }

  predicate Chronological(now: int, events: seq<Event>) {
    && (forall k :: 0 <= k < |events| ==> events[k].at >= now && ValidInput(events[k].input))
    && (forall k, l :: 0 <= k < l < |events| ==> events[k].at <= events[l].at)
  }

  /** Handle an ordered list of events. */
  function Run(p: Player, events: seq<Event>): (r: Player)
    requires Chronological(p.now, events)
    decreases |events|
    ensures r.now == if events == [] then p.now else events[|events| - 1].at
  {
    if events == [] then p
    else
      var p1 := Step(p, events[0]);
      var rest := events[1..];
      assert forall k :: 0 <= k < |rest| ==> rest[k] == events[k + 1];
      Run(p1, rest)
  }

  /** Without seeking, the elapsed time stays within the track and never decreases,
      whatever is clicked and however long the widget runs. */
  lemma {:induction false} RunStaysWithinTrack(p: Player, events: seq<Event>)
    requires Sound(p) && p.time <= TotalDuration && Chronological(p.now, events)
    requires forall k :: 0 <= k < |events| ==> !events[k].input.Seek?
    ensures Sound(Run(p, events))
    ensures p.time <= Run(p, events).time <= TotalDuration
    decreases |events|
  {
    if events != [] {
      StepSound(p, events[0]);
      var rest := events[1..];
      assert forall k :: 0 <= k < |rest| ==> rest[k] == events[k + 1];
      RunStaysWithinTrack(Step(p, events[0]), rest);
    }
  }

  /** Playing from mount at `t0`, at time `t` the elapsed time is one plus the whole
      seconds since mount, held at the track length. */
  lemma PlayingTimeline(t0: int, samples: seq<real>, t: int)
    requires |samples| == Bars && RandomDraws(samples) && t >= t0
    ensures var elapsed := 1 + (t - t0) / TickMs;
            Advance(Mount(t0, samples), t).time == if elapsed <= TotalDuration then elapsed else TotalDuration
  {
    FireTicksClosedForm(1, t0 + TickMs, t, Some(TotalDuration));
  }

  /** While paused the time stands still, however long the clock runs. */
  lemma PausedHoldsTime(p: Player, t: int)
    requires Sound(p) && p.isPaused && t >= p.now
    ensures Advance(p, t).time == p.time
  {
  }

  /** `totalDuration - time`: never negative while the time is within the track. */
  function TimeRemaining(time: int): (r: int)
    ensures r >= 0 <==> time <= TotalDuration
    ensures r + time == TotalDuration
  {
    TotalDuration - time
  }

  /** One bar's animated height: the 4 px floor while paused, otherwise the drawn
      height scaled to 14 px but never below 4. */
  function MusicBarHeight(isPaused: bool, h: real): (r: real)
    ensures r >= 4.0 && (r == 4.0 || r == h * 14.0)
    ensures isPaused ==> r == 4.0
    ensures !isPaused && h * 14.0 >= 4.0 ==> r == h * 14.0
    ensures !isPaused && h * 14.0 < 4.0 ==> r == 4.0
  {
    if isPaused then 4.0 else BarHeight(4.0, h)
  }

  /** What is drawn: the elapsed time, the remaining time after a minus sign, and one
      height per bar. */
  datatype View = View(elapsed: string, remaining: string, bars: seq<real>)

  function Render(p: Player): (v: View)
    ensures |v.bars| == |p.heights|
    ensures forall k :: 0 <= k < |v.bars| ==> v.bars[k] >= 4.0 && (p.isPaused ==> v.bars[k] == 4.0)
    ensures forall k :: 0 <= k < |v.bars| && !p.isPaused ==>
              v.bars[k] >= p.heights[k] * 14.0 && (v.bars[k] == 4.0 || v.bars[k] == p.heights[k] * 14.0)
    ensures |v.remaining| >= 1 && v.remaining[0] == '-'
    ensures 0 <= p.time < 6000 ==> |v.elapsed| == 5
  {
    View(WidgetClock.PaddedClock(p.time), "-" + WidgetClock.PaddedClock(TimeRemaining(p.time)),
         seq(|p.heights|, k requires 0 <= k < |p.heights| => MusicBarHeight(p.isPaused, p.heights[k])))
  }

  /** The two times shown always add up to the track length: elapsed plus remaining
      read back from the texts is 120 for any time within the track. */
  lemma ShownTimesAddUp(p: Player)
    requires 0 <= p.time <= TotalDuration
    ensures var v := Render(p);
            var e := v.elapsed; var r := v.remaining[1..];
            && |e| == 5 && |r| == 5
            && AllDigits(e[..2]) && AllDigits(e[3..]) && AllDigits(r[..2]) && AllDigits(r[3..])
            && DigitsValue(e[..2]) * 60 + DigitsValue(e[3..])
               + DigitsValue(r[..2]) * 60 + DigitsValue(r[3..]) == TotalDuration
  {
    var v := Render(p);
    FiveCharClock(p.time);
    FiveCharClock(TimeRemaining(p.time));
    assert v.elapsed == WidgetClock.PaddedClock(p.time);
    assert v.remaining[1..] == WidgetClock.PaddedClock(TimeRemaining(p.time));
  }

  /** Below 6000 s the clock text is `MM:SS` and reads back as the count. */
  lemma FiveCharClock(s: int)
    requires 0 <= s < 6000
    ensures var r := WidgetClock.PaddedClock(s);
            && |r| == 5 && AllDigits(r[..2]) && AllDigits(r[3..])
            && DigitsValue(r[..2]) * 60 + DigitsValue(r[3..]) == s
  {
    var r := WidgetClock.PaddedClock(s);
    WidgetClock.PaddedClockRoundTrip(s);
    assert r[..|r| - 3] == r[..2] && r[|r| - 2..] == r[3..];
  }
}

=== FILE: navigation.dfy ===
/** The floating navigation bar: which item is active for the current path, where the
    sliding indicator goes, which link carries the active class, and the effect that
    keeps the indicator in place. */
module Navigation {
  import opened Wrappers

  datatype NavItem = NavItem(path: string, title: string)

  /** The bar's items, in display order. */
  const NavItems: seq<NavItem> := [
    NavItem("/", "Home"),
    NavItem("/projects", "Work"),
    NavItem("/about", "About"),
    NavItem("/blog", "Blog"),
    NavItem("/contact", "Contact")
  ]

  /** Half the indicator's 42 px width: the offset that centres it under a link. */
  const IndicatorHalfWidth: real := 21.0

  /** Delay of the second indicator update, after layout shifts (ms). */
  const IndicatorRetryMs: int := 100

  /** No two items share a path. */
  predicate DistinctPaths(items: seq<NavItem>) {
    forall i, j :: 0 <= i < j < |items| ==> items[i].path != items[j].path
  }

  lemma NavPathsDistinct()
    ensures DistinctPaths(NavItems)
  {
  }

  /** `findIndex(item => item.path === pathname)`, with None for -1. */
  function FindIndex(items: seq<NavItem>, pathname: string): (r: Option<nat>)
    ensures r.Some? ==> r.value < |items| && items[r.value].path == pathname
    ensures r.Some? ==> forall j :: 0 <= j < r.value ==> items[j].path != pathname
    ensures r.None? <==> forall j :: 0 <= j < |items| ==> items[j].path != pathname
  {
    if items == [] then None
    else if items[0].path == pathname then Some(0)
    else match FindIndex(items[1..], pathname)
      case None => None
      case Some(k) => Some(k + 1)
  }

  /** The active-index effect: a listed path selects its item; any other path keeps
      the index the bar already had (initially 0). */
  function ActiveIndexFor(activeIndex: nat, pathname: string): (r: nat)
    ensures (exists j :: 0 <= j < |NavItems| && NavItems[j].path == pathname) ==>
              r < |NavItems| && NavItems[r].path == pathname
    ensures (forall j :: 0 <= j < |NavItems| ==> NavItems[j].path != pathname) ==> r == activeIndex
  {
    match FindIndex(NavItems, pathname)
    case Some(k) => k
    case None => activeIndex
  }

  /** The paths in order, and the item each one selects. */
  lemma ActiveIndexTable(previous: nat)
    ensures ActiveIndexFor(previous, "/") == 0
    ensures ActiveIndexFor(previous, "/projects") == 1
    ensures ActiveIndexFor(previous, "/about") == 2
    ensures ActiveIndexFor(previous, "/blog") == 3
    ensures ActiveIndexFor(previous, "/contact") == 4
    ensures ActiveIndexFor(previous, "/blog/") == previous
  {
    assert NavItems[3].path == "/blog";
    assert forall j :: 0 <= j < |NavItems| ==> NavItems[j].path != "/blog/";
  }

  // ---------------------------------------------------------------------------
  // The indicator

  /** A bounding box: left edge and width, in px. */
  datatype Rect = Rect(left: real, width: real)

  /** What the indicator update can see of the DOM: the two refs (absent before
      mount), and for each list child the `.nav-link` box inside it, if there is one. */
  datatype Layout = Layout(list: Option<seq<Option<Rect>>>, container: Option<Rect>)

  /** `updateIndicatorPosition`: with the list, the container, the active child and its
      link all present, the indicator is placed so that its centre sits under the
      link's centre; if anything is missing the position is left as it was. */
  function UpdateIndicator(position: real, activeIndex: nat, layout: Layout): (r: real)
    ensures (&& layout.list.Some? && layout.container.Some?
             && activeIndex < |layout.list.value| && layout.list.value[activeIndex].Some?) ==>
              var link := layout.list.value[activeIndex].value;
              layout.container.value.left + r + IndicatorHalfWidth == link.left + link.width / 2.0
    ensures !(&& layout.list.Some? && layout.container.Some?
              && activeIndex < |layout.list.value| && layout.list.value[activeIndex].Some?) ==>
              r == position
  {
    if layout.list.Some? && layout.container.Some? then
      var children := layout.list.value;
      if activeIndex < |children| then
        match children[activeIndex]
        case Some(link) => link.left - layout.container.value.left + link.width / 2.0 - IndicatorHalfWidth
        case None => position
      else position
    else position
  }

  /** Moving the container moves nothing relative to it: the offset depends only on the
      link's place within the container. */
  lemma IndicatorTranslationInvariant(position: real, activeIndex: nat, links: seq<Option<Rect>>,
                                      container: Rect, shift: real)
    requires activeIndex < |links| && links[activeIndex].Some?
    ensures var moved := seq(|links|, k requires 0 <= k < |links| =>
                               match links[k] case None => None case Some(b) => Some(Rect(b.left + shift, b.width)));
            UpdateIndicator(position, activeIndex, Layout(Some(links), Some(container)))
            == UpdateIndicator(position, activeIndex, Layout(Some(moved), Some(Rect(container.left + shift, container.width))))
  {
  }

  // ---------------------------------------------------------------------------
  // Rendering

  /** The class of an item's link: active exactly when the path is the current one. */
  function LinkClass(pathname: string, itemPath: string): (c: string)
    ensures pathname == itemPath ==> c == "nav-link nav-link--active"
    ensures pathname != itemPath ==> c == "nav-link "
  {
    var modifier := if pathname == itemPath then "nav-link--active" else "";
    assert "nav-link " + "" == "nav-link ";
    assert "nav-link " + "nav-link--active" == "nav-link nav-link--active";
    "nav-link " + modifier
  }

  /** The link classes of the whole bar, or nothing at all while the page is loading. */
  function Render(isLoading: bool, pathname: string): (r: Option<seq<string>>)
    ensures isLoading <==> r.None?
    ensures r.Some? ==> |r.value| == |NavItems|
    ensures r.Some? ==> forall k :: 0 <= k < |NavItems| ==> r.value[k] == LinkClass(pathname, NavItems[k].path)
  {
    if isLoading then None
    else Some(seq(|NavItems|, k requires 0 <= k < |NavItems| => LinkClass(pathname, NavItems[k].path)))
  }

  /** Since the paths are distinct, at most one link is marked active, and it is the
      one the active-index effect selects. */
  lemma AtMostOneActive(pathname: string, i: nat, j: nat, previous: nat)
    requires i < |NavItems| && j < |NavItems|
    requires LinkClass(pathname, NavItems[i].path) == "nav-link nav-link--active"
    requires LinkClass(pathname, NavItems[j].path) == "nav-link nav-link--active"
    ensures i == j && ActiveIndexFor(previous, pathname) == i
  {
    NavPathsDistinct();
  }

  // ---------------------------------------------------------------------------
  // The indicator effect's lifecycle

  /** What the indicator effect has left registered: the animation frame, the 100 ms
      retry, and the resize listeners, each tagged with the effect run it belongs to
      (every run makes a fresh `updateIndicatorPosition` closure). */
  datatype Triggers = Triggers(run: nat, frames: set<nat>, retries: set<nat>, resizeListeners: seq<nat>)

  /** Cleanup: the frame and the retry of the last run are cancelled and its listener is
      removed (only that closure; other listeners are untouched). */
  function Cleanup(t: Triggers): (r: Triggers)
    ensures r.run == t.run
    ensures t.run !in r.frames && t.run !in r.retries && t.run !in r.resizeListeners
    ensures forall n :: n != t.run ==> (n in r.frames <==> n in t.frames) && (n in r.retries <==> n in t.retries)
    ensures forall n :: n != t.run ==> (n in r.resizeListeners <==> n in t.resizeListeners)
  {
    Triggers(t.run, t.frames - {t.run}, t.retries - {t.run}, RemoveAll(t.resizeListeners, t.run))
  }

  function RemoveAll(s: seq<nat>, x: nat): (r: seq<nat>)
    ensures forall y :: y in r <==> y in s && y != x
    ensures (forall k :: 0 <= k < |s| ==> s[k] == x) ==> r == []
  {
    if s == [] then []
    else
      assert forall y :: y in s <==> y == s[0] || y in s[1..];
      if s[0] == x then RemoveAll(s[1..], x) else [s[0]] + RemoveAll(s[1..], x)
  }

  /** The effect re-runs (on mount and whenever the active index or the loading flag
      change): the previous run is cleaned up, then a new run registers all three. */
  function Rerun(t: Triggers, first: bool): (r: Triggers)
    ensures r.run == t.run + 1
    ensures r.frames == (if first then t.frames else t.frames - {t.run}) + {r.run}
    ensures r.retries == (if first then t.retries else t.retries - {t.run}) + {r.run}
    ensures r.run in r.resizeListeners
    ensures forall n :: n != r.run ==>
              (n in r.resizeListeners <==> n in t.resizeListeners && (first || n != t.run))
  {
    var c := if first then t else Cleanup(t);
    Triggers(t.run + 1, c.frames + {t.run + 1}, c.retries + {t.run + 1}, c.resizeListeners + [t.run + 1])
  }

  /** Only the latest run has anything registered. */
  predicate OnlyLatest(t: Triggers) {
    && (forall n :: n in t.frames ==> n == t.run)
    && (forall n :: n in t.retries ==> n == t.run)
    && (forall k :: 0 <= k < |t.resizeListeners| ==> t.resizeListeners[k] == t.run)
    && |t.resizeListeners| <= 1
  }

  /** After any number of re-runs there is at most one frame, retry and listener, all
      belonging to the latest run; the cleanup at unmount releases every one. */
  lemma TriggersReleased(t: Triggers)
    requires OnlyLatest(t)
    ensures OnlyLatest(Rerun(t, false))
    ensures var c := Cleanup(t); c.frames == {} && c.retries == {} && c.resizeListeners == []
  {
    var r := Rerun(t, false);
    assert forall k :: 0 <= k < |r.resizeListeners| ==> r.resizeListeners[k] in r.resizeListeners;
  }
}

=== FILE: recorder.dfy ===
/** The voice-memo widget: a counter that starts at one second and adds a second every
    1000 ms for as long as it is mounted (its recording flag is never cleared), and a
    sixteen-bar waveform. */
module RecordWidget {
  import opened Wrappers
  import opened SecondCounter
  import WidgetClock

  const Bars: nat := 16

  /** The widget's state: the clock, the counter, the bar heights, and the next firing
      of the timer interval. `isRecording` is always true and is not kept. */
  datatype Recorder = Recorder(now: int, time: int, heights: seq<real>, nextTick: int)

  function Mount(t: int, samples: seq<real>): (r: Recorder)
    requires |samples| == Bars && RandomDraws(samples)
    ensures r.time == 1 && r.now == t && r.nextTick == t + TickMs && |r.heights| == Bars
  {
    Recorder(t, 1, Heights(samples), t + TickMs)
  }

  /** Let the clock run to `t`: every due firing adds exactly one second. */
  function Advance(r: Recorder, t: int): (r': Recorder)
    requires t >= r.now
    ensures r'.now == t && r'.heights == r.heights
    ensures r'.time == r.time + Firings(r.nextTick, t)
    ensures r'.nextTick > t
  {
    FireTicksClosedForm(r.time, r.nextTick, t, None);
    var (time, next) := FireTicks(r.time, r.nextTick, t, None);
    Recorder(t, time, r.heights, next)
  }

  /** A firing of the 100 ms waveform interval with the numbers it draws. */
  function Redraw(r: Recorder, samples: seq<real>): (r': Recorder)
    requires |samples| == Bars && RandomDraws(samples)
    ensures |r'.heights| == Bars && r'.time == r.time
  {
    r.(heights := Heights(samples))
  }

  /** From mount at `t0`, at time `t` the counter shows one plus the whole seconds
      since mount: it never stops, never skips and has no upper bound. */
  lemma Timeline(t0: int, samples: seq<real>, t: int)
    requires |samples| == Bars && RandomDraws(samples) && t >= t0
    ensures Advance(Mount(t0, samples), t).time == 1 + (t - t0) / TickMs
  {
  }

  /** Advancing in two stretches is advancing once. */
  lemma AdvanceCompose(r: Recorder, t1: int, t2: int)
    requires r.now <= t1 <= t2
    ensures Advance(Advance(r, t1), t2) == Advance(r, t2)
  {
    FireTicksCompose(r.time, r.nextTick, t1, t2, None);
  }

  /** What is drawn: the `MM:SS` counter and one height per bar, never below 4 px. */
  function Render(r: Recorder): (v: (string, seq<real>))
    ensures |v.1| == |r.heights|
    ensures forall k :: 0 <= k < |v.1| ==>
              && v.1[k] >= 4.0 && v.1[k] >= r.heights[k] * 14.0
              && (v.1[k] == 4.0 || v.1[k] == r.heights[k] * 14.0)
    ensures 0 <= r.time < 6000 ==> |v.0| == 5
  {
    (WidgetClock.PaddedClock(r.time),
     seq(|r.heights|, k requires 0 <= k < |r.heights| => BarHeight(4.0, r.heights[k])))
  }
}

/** The call widget: the same counter, and two eighteen-bar height arrays that are
    redrawn together although only the first is ever drawn. */
module PhoneWidget {
  import opened Wrappers
  import opened SecondCounter
  import WidgetClock

  const Bars: nat := 18

  datatype Call = Call(now: int, time: int, heights: seq<real>, heights2: seq<real>, nextTick: int)

  function Mount(t: int, samples: seq<real>, samples2: seq<real>): (c: Call)
    requires |samples| == Bars && RandomDraws(samples)
    requires |samples2| == Bars && RandomDraws(samples2)
    ensures c.time == 1 && c.now == t && c.nextTick == t + TickMs
    ensures |c.heights| == Bars && |c.heights2| == Bars
  {
    Call(t, 1, Heights(samples), Heights(samples2), t + TickMs)
  }

  function Advance(c: Call, t: int): (c': Call)
    requires t >= c.now
    ensures c'.now == t && c'.heights == c.heights && c'.heights2 == c.heights2
    ensures c'.time == c.time + Firings(c.nextTick, t)
    ensures c'.nextTick > t
  {
    FireTicksClosedForm(c.time, c.nextTick, t, None);
    var (time, next) := FireTicks(c.time, c.nextTick, t, None);
    Call(t, time, c.heights, c.heights2, next)
  }

  /** A waveform firing refreshes both arrays at once. */
  function Redraw(c: Call, samples: seq<real>, samples2: seq<real>): (c': Call)
    requires |samples| == Bars && RandomDraws(samples)
    requires |samples2| == Bars && RandomDraws(samples2)
    ensures |c'.heights| == Bars && |c'.heights2| == Bars
    ensures c'.time == c.time && c'.now == c.now
  {
    c.(heights := Heights(samples), heights2 := Heights(samples2))
  }

  lemma Timeline(t0: int, samples: seq<real>, samples2: seq<real>, t: int)
    requires |samples| == Bars && RandomDraws(samples)
    requires |samples2| == Bars && RandomDraws(samples2)
    requires t >= t0
    ensures Advance(Mount(t0, samples, samples2), t).time == 1 + (t - t0) / TickMs
  {
  }

  /** What is drawn: the `MM:SS` counter and the first array's heights, scaled to 14 px
      with a floor of 0. */
  function Render(c: Call): (v: (string, seq<real>))
    ensures |v.1| == |c.heights|
    ensures forall k :: 0 <= k < |v.1| ==>
              && v.1[k] >= 0.0 && v.1[k] >= c.heights[k] * 14.0
              && (v.1[k] == 0.0 || v.1[k] == c.heights[k] * 14.0)
  {
    (WidgetClock.PaddedClock(c.time),
     seq(|c.heights|, k requires 0 <= k < |c.heights| => BarHeight(0.0, c.heights[k])))
  }

  /** The second array never shows: two calls that differ only in it look the same. */
  lemma SecondArrayNeverShown(c: Call, other: seq<real>)
    ensures Render(c.(heights2 := other)) == Render(c)
  {
  }

  /** With heights drawn by `Math.random` every bar is in fact taller than 2.8 px, so the
      floor of 0 never applies. */
  lemma FloorNeverApplies(c: Call, k: nat)
    requires forall j :: 0 <= j < |c.heights| ==> 0.2 <= c.heights[j] < 1.0
    requires k < |c.heights|
    ensures Render(c).1[k] == c.heights[k] * 14.0 >= 2.8
  {
  }
}

=== FILE: routes.dfy ===
/** The application's route table: five exact paths, one page each, no fallback, and
    the routed subtree keyed by the pathname. */
module AppRoutes {
  import opened Wrappers
  import Navigation

  datatype Page = HomePage | AboutPage | ProjectsPage | BlogPage | ContactPage

  datatype Route = Route(path: string, page: Page)

  /** The `<Route>` elements, in order. */
  const RouteTable: seq<Route> := [
    Route("/", HomePage),
    Route("/about", AboutPage),
    Route("/projects", ProjectsPage),
    Route("/blog", BlogPage),
    Route("/contact", ContactPage)
  ]

  /** How many routes match a path exactly. */
  function MatchCount(routes: seq<Route>, pathname: string): (n: nat)
    ensures n <= |routes|
    ensures n == 0 <==> forall k :: 0 <= k < |routes| ==> routes[k].path != pathname
  {
    if routes == [] then 0
    else (if routes[0].path == pathname then 1 else 0) + MatchCount(routes[1..], pathname)
  }

  /** The page rendered for a path: the first route whose path is the pathname. */
  function MatchRoute(routes: seq<Route>, pathname: string): (r: Option<Page>)
    ensures r.None? <==> forall k :: 0 <= k < |routes| ==> routes[k].path != pathname
    ensures r.Some? ==> exists k :: 0 <= k < |routes| && routes[k] == Route(pathname, r.value)
  {
    if routes == [] then None
    else if routes[0].path == pathname then Some(routes[0].page)
    else
      assert forall k :: 0 <= k < |routes| - 1 ==> routes[1..][k] == routes[k + 1];
      MatchRoute(routes[1..], pathname)
  }

  /** Each of the five paths selects exactly one route, and each page has one path. */
  lemma EachPathOnePage()
    ensures MatchCount(RouteTable, "/") == 1 && MatchRoute(RouteTable, "/") == Some(HomePage)
    ensures MatchCount(RouteTable, "/about") == 1 && MatchRoute(RouteTable, "/about") == Some(AboutPage)
    ensures MatchCount(RouteTable, "/projects") == 1 && MatchRoute(RouteTable, "/projects") == Some(ProjectsPage)
    ensures MatchCount(RouteTable, "/blog") == 1 && MatchRoute(RouteTable, "/blog") == Some(BlogPage)
    ensures MatchCount(RouteTable, "/contact") == 1 && MatchRoute(RouteTable, "/contact") == Some(ContactPage)
  {
    OnePath(0, "/", HomePage);
    OnePath(1, "/about", AboutPage);
    OnePath(2, "/projects", ProjectsPage);
    OnePath(3, "/blog", BlogPage);
    OnePath(4, "/contact", ContactPage);
  }

  lemma OnePath(k: nat, path: string, page: Page)
    requires k < |RouteTable| && RouteTable[k] == Route(path, page)
    ensures MatchCount(RouteTable, path) == 1 && MatchRoute(RouteTable, path) == Some(page)
  {
    PathsDistinct();
    UniqueMatch(RouteTable, k);
  }

  /** The five paths have five different lengths. */
  lemma PathsDistinct()
    ensures forall j, k :: 0 <= j < |RouteTable| && 0 <= k < |RouteTable| && j != k ==> RouteTable[j].path != RouteTable[k].path
  {
    forall j, k | 0 <= j < |RouteTable| && 0 <= k < |RouteTable| && j != k
      ensures RouteTable[j].path != RouteTable[k].path
    {
      assert |RouteTable[j].path| == PathLength(j) && |RouteTable[k].path| == PathLength(k);
    }
  }

  function PathLength(k: nat): (n: nat)
    requires k < 5
    ensures k < |RouteTable| && n == |RouteTable[k].path|
  {
    [1, 6, 9, 5, 8][k]
  }

  /** A route whose path no other route shares is the one match for that path. */
  lemma {:induction false} UniqueMatch(routes: seq<Route>, k: nat)
    requires k < |routes|
    requires forall j :: 0 <= j < |routes| && j != k ==> routes[j].path != routes[k].path
    ensures MatchCount(routes, routes[k].path) == 1
    ensures MatchRoute(routes, routes[k].path) == Some(routes[k].page)
  {
    var rest := routes[1..];
    if k == 0 {
      assert MatchCount(rest, routes[0].path) == 0;
    } else {
      assert forall j :: 0 <= j < |rest| && j != k - 1 ==> rest[j].path != rest[k - 1].path by {
        forall j | 0 <= j < |rest| && j != k - 1
          ensures rest[j].path != rest[k - 1].path
        {
          assert rest[j] == routes[j + 1];
        }
      }
      UniqueMatch(rest, k - 1);
    }
  }

  /** There is no catch-all: any other path renders no page. */
  lemma NoCatchAll(pathname: string)
    requires forall k :: 0 <= k < |RouteTable| ==> RouteTable[k].path != pathname
    ensures MatchRoute(RouteTable, pathname).None?
  {
  }

  /** The location the router is given. */
  datatype Location = Location(pathname: string, search: string, hash: string)

  /** The key of `<Routes>`: the pathname alone. A new key remounts the routed subtree
      (and lets the exit animation run); a change in query or hash keeps it. */
  function RoutesKey(loc: Location): (key: string)
    ensures key == loc.pathname
  {
    loc.pathname
  }

  /** Keeping the subtree is safe and remounting is never wasted: the same key always
      renders the same page, query and hash never change the key, and between two
      routed paths the key changes exactly when the page does. */
  lemma RemountIffPathChanges(a: Location, b: Location)
    ensures RoutesKey(a) == RoutesKey(a.(search := b.search, hash := b.hash))
    ensures RoutesKey(a) == RoutesKey(b) ==> MatchRoute(RouteTable, a.pathname) == MatchRoute(RouteTable, b.pathname)
    ensures MatchRoute(RouteTable, a.pathname).Some? && MatchRoute(RouteTable, b.pathname).Some? ==>
              (RoutesKey(a) != RoutesKey(b) <==> MatchRoute(RouteTable, a.pathname) != MatchRoute(RouteTable, b.pathname))
  {
    var pa, pb := MatchRoute(RouteTable, a.pathname), MatchRoute(RouteTable, b.pathname);
    if pa.Some? && pb.Some? && a.pathname != b.pathname {
      PagesDistinct(a.pathname, b.pathname);
    }
  }

  /** Different routed paths render different pages: each page has one route. */
  lemma PagesDistinct(x: string, y: string)
    requires x != y
    requires MatchRoute(RouteTable, x).Some? && MatchRoute(RouteTable, y).Some?
    ensures MatchRoute(RouteTable, x) != MatchRoute(RouteTable, y)
  {
    PagesDiffer();
    DistinctMatches(RouteTable, x, y);
  }

  /** The five routes have five different pages. */
  lemma PagesDiffer()
    ensures forall k, l :: 0 <= k < |RouteTable| && 0 <= l < |RouteTable| && k != l ==> RouteTable[k].page != RouteTable[l].page
  {
    forall k, l | 0 <= k < |RouteTable| && 0 <= l < |RouteTable| && k != l
      ensures RouteTable[k].page != RouteTable[l].page
    {
      assert PageIndex(RouteTable[k].page) == k && PageIndex(RouteTable[l].page) == l;
    }
  }

  /** In a table whose routes all have different pages, two different matched paths
      match different pages. */
  lemma DistinctMatches(routes: seq<Route>, x: string, y: string)
    requires forall k, l :: 0 <= k < |routes| && 0 <= l < |routes| && k != l ==> routes[k].page != routes[l].page
    requires x != y
    requires MatchRoute(routes, x).Some? && MatchRoute(routes, y).Some?
    ensures MatchRoute(routes, x) != MatchRoute(routes, y)
  {
    var i, j := MatchIndex(routes, x), MatchIndex(routes, y);
    assert i != j;
  }

  /** The position of the first route whose path is the pathname, or the table's
      length when there is none. */
  function MatchIndex(routes: seq<Route>, pathname: string): (k: nat)
    ensures k <= |routes|
    ensures k < |routes| ==> routes[k].path == pathname && MatchRoute(routes, pathname) == Some(routes[k].page)
    ensures k == |routes| ==> MatchRoute(routes, pathname).None?
  {
    if routes == [] || routes[0].path == pathname then 0
    else 1 + MatchIndex(routes[1..], pathname)
  }

  /** A page's position in the route table. */
  function PageIndex(p: Page): (k: nat)
    ensures k < |RouteTable| && RouteTable[k].page == p
  {
    match p
    case HomePage => 0
    case AboutPage => 1
    case ProjectsPage => 2
    case BlogPage => 3
    case ContactPage => 4
  }

  /** The navigation bar links to exactly the routed paths, and every routed path has a
      link. */
  lemma RoutesMatchNavigation()
    ensures forall k :: 0 <= k < |RouteTable| ==>
              exists j :: 0 <= j < |Navigation.NavItems| && Navigation.NavItems[j].path == RouteTable[k].path
    ensures forall j :: 0 <= j < |Navigation.NavItems| ==>
              exists k :: 0 <= k < |RouteTable| && RouteTable[k].path == Navigation.NavItems[j].path
  {
    assert RouteTable[0].path == Navigation.NavItems[0].path;
    assert RouteTable[1].path == Navigation.NavItems[2].path;
    assert RouteTable[2].path == Navigation.NavItems[1].path;
    assert RouteTable[3].path == Navigation.NavItems[3].path;
    assert RouteTable[4].path == Navigation.NavItems[4].path;
  }
}

=== FILE: screenrecord.dfy ===
/** The screen-recording widget: two timeouts set at mount move it from idle to
    recording after 1000 ms and to saved after 12500 ms; the button saves at once; a
    seconds counter runs exactly while recording. */
module ScreenRecordWidget {
  import opened Wrappers
  import opened SecondCounter
  import WidgetClock

  const StartAtMs: int := 1000
  const SaveAtMs: int := 12500

  /** `recordingState`: "idle", "record" or "saved". */
  datatype Phase = IdlePhase | RecordPhase | SavedPhase

  /** The widget's state: the clock, the two flags, the counter, the phase, the two
      pending timeouts and the next firing of the seconds interval. */
  datatype Screen = Screen(now: int, recording: bool, timerActive: bool, seconds: int, phase: Phase,
                           startTimer: Option<int>, saveTimer: Option<int>, nextTick: Option<int>)

  /** Mounting at `t`: idle, not recording, zero seconds, both timeouts pending. */
  function Mount(t: int): (s: Screen)
    ensures s.phase == IdlePhase && !s.recording && s.seconds == 0 && s.nextTick.None?
    ensures s.startTimer == Some(t + StartAtMs) && s.saveTimer == Some(t + SaveAtMs)
  {
    Screen(t, false, false, 0, IdlePhase, Some(t + StartAtMs), Some(t + SaveAtMs), None)
  }

  /** `setRecording(value)` followed by its effects: `timerActive` follows the flag,
      and when it changes the seconds interval is started (due 1000 ms later) or
      cleared. */
  function SetRecording(s: Screen, value: bool): (r: Screen)
    ensures r.recording == value && r.timerActive == value
    ensures r.seconds == s.seconds && r.phase == s.phase && r.now == s.now
    ensures r.startTimer == s.startTimer && r.saveTimer == s.saveTimer
    ensures value == s.timerActive ==> r.nextTick == s.nextTick
    ensures value != s.timerActive ==> r.nextTick == (if value then Some(s.now + TickMs) else None)
  {
    if value == s.timerActive then s.(recording := value)
    else s.(recording := value, timerActive := value,
            nextTick := if value then Some(s.now + TickMs) else None)
  }

  /** The seconds interval fired up to `t`. */
  function TicksThrough(s: Screen, t: int): (r: Screen)
    ensures r == s.(seconds := r.seconds, nextTick := r.nextTick)
    ensures s.nextTick.None? ==> r == s
    ensures s.nextTick.Some? ==> r.seconds == s.seconds + Firings(s.nextTick.value, t)
    ensures s.nextTick.Some? ==> r.nextTick.Some? && r.nextTick.value > t && r.nextTick.value >= s.nextTick.value
  {
    match s.nextTick
    case None => s
    case Some(due) =>
      FireTicksClosedForm(s.seconds, due, t, None);
      var (seconds, next) := FireTicks(s.seconds, due, t, None);
      s.(seconds := seconds, nextTick := Some(next))
  }

  /** The earlier of the two pending timeouts (the start one on a tie). */
  function NextTimeout(s: Screen): (r: Option<int>)
    ensures r.None? <==> s.startTimer.None? && s.saveTimer.None?
    ensures r.Some? ==> (s.startTimer == r || s.saveTimer == r)
    ensures r.Some? && s.startTimer.Some? ==> r.value <= s.startTimer.value
    ensures r.Some? && s.saveTimer.Some? ==> r.value <= s.saveTimer.value
  {
    match (s.startTimer, s.saveTimer)
    case (None, None) => None
    case (Some(a), None) => Some(a)
    case (None, Some(b)) => Some(b)
    case (Some(a), Some(b)) => if a <= b then Some(a) else Some(b)
  }

  /** A timeout firing: the start one begins recording, the save one saves. */
  function FireTimeout(s: Screen): (r: Screen)
    requires s.startTimer.Some? || s.saveTimer.Some?
    ensures r.now == s.now && r.seconds == s.seconds
    ensures s.startTimer.Some? && NextTimeout(s) == s.startTimer ==>
              r.phase == RecordPhase && r.recording && r.startTimer.None? && r.saveTimer == s.saveTimer
    ensures !(s.startTimer.Some? && NextTimeout(s) == s.startTimer) ==>
              r.phase == SavedPhase && !r.recording && r.saveTimer.None? && r.startTimer == s.startTimer
  {
    if s.startTimer.Some? && NextTimeout(s) == s.startTimer then
      SetRecording(s.(phase := RecordPhase, startTimer := None), true)
    else
      SetRecording(s.(phase := SavedPhase, saveTimer := None), false)
  }

  /** How many of the two timeouts are still pending. */
  function PendingTimeouts(s: Screen): (n: nat)
    ensures n <= 2
    ensures n == 0 <==> NextTimeout(s).None?
  {
    (if s.startTimer.Some? then 1 else 0) + (if s.saveTimer.Some? then 1 else 0)
  }

  /** Let the clock run to `t`: timeouts and interval firings happen in time order,
      a timeout before an interval firing due at the same moment. */
  function Advance(s: Screen, t: int): (r: Screen)
    requires t >= s.now
    decreases PendingTimeouts(s)
    ensures r.now == t && r.seconds >= s.seconds
  {
    match NextTimeout(s)
    case Some(d) =>
      if d <= t then
        var s1 := TicksThrough(s, d - 1);
        var at := if d > s.now then d else s.now;
        Advance(FireTimeout(s1.(now := at)), t)
      else TicksThrough(s, t).(now := t)
    case None => TicksThrough(s, t).(now := t)
  }

  datatype Input = Wait | Click

  datatype Event = Event(at: int, input: Input)

  /** The button: save now and stop recording. */
  function ClickButton(s: Screen): (r: Screen)
    ensures r.phase == SavedPhase && !r.recording
    ensures r.startTimer == s.startTimer && r.saveTimer == s.saveTimer && r.seconds == s.seconds
  {
    SetRecording(s.(phase := SavedPhase), false)
  }

  /** One event: the clock runs to its time, then the button may be clicked. */
  function Step(s: Screen, e: Event): (r: Screen)
    requires e.at >= s.now
    ensures r.now == e.at && r.seconds >= s.seconds
    ensures e.input == Click ==> r.phase == SavedPhase && !r.recording
  {
    var s1 := Advance(s, e.at);
    match e.input
    case Wait => s1
    case Click => ClickButton(s1)
  }

  /** What holds after every step. */
  predicate Sound(s: Screen) {
    && s.timerActive == s.recording
    && (s.nextTick.Some? <==> s.timerActive)
    && (s.nextTick.Some? ==> s.nextTick.value > s.now)
    && (s.startTimer.Some? ==> s.startTimer.value > s.now)
    && (s.saveTimer.Some? ==> s.saveTimer.value > s.now)
    && (s.recording <==> s.phase == RecordPhase)
    && (s.startTimer.Some? && s.saveTimer.Some? ==> s.startTimer.value < s.saveTimer.value)
    && (s.saveTimer.None? ==> s.startTimer.None? && s.phase == SavedPhase)
    && (s.startTimer.Some? ==> s.phase != RecordPhase)
  }

  lemma MountSound(t: int)
    ensures Sound(Mount(t))
  {
  }

  lemma {:induction false} AdvanceSound(s: Screen, t: int)
    requires Sound(s) && t >= s.now
    ensures Sound(Advance(s, t))
    ensures Advance(s, t).startTimer.None? || Advance(s, t).startTimer == s.startTimer
    ensures Advance(s, t).saveTimer.None? || Advance(s, t).saveTimer == s.saveTimer
    decreases PendingTimeouts(s)
  {
    match NextTimeout(s)
    case Some(d) =>
      if d <= t {
        var s1 := TicksThrough(s, d - 1);
        var s2 := FireTimeout(s1.(now := d));
        assert Sound(s2);
        AdvanceSound(s2, t);
      }
    case None =>
  }

  /** Steps keep the state sound, never move a pending timeout, and never decrease
      the seconds. */
  lemma StepSound(s: Screen, e: Event)
    requires Sound(s) && e.at >= s.now
    ensures Sound(Step(s, e)) && Step(s, e).seconds >= s.seconds
    ensures Step(s, e).startTimer.None? || Step(s, e).startTimer == s.startTimer
    ensures Step(s, e).saveTimer.None? || Step(s, e).saveTimer == s.saveTimer
  {
    AdvanceSound(s, e.at);
  }

  predicate Chronological(now: int, events: seq<Event>) {
    && (forall k :: 0 <= k < |events| ==> events[k].at >= now)
    && (forall k, l :: 0 <= k < l < |events| ==> events[k].at <= events[l].at)
  }

  /** Handle an ordered list of events. */
  function Run(s: Screen, events: seq<Event>): (r: Screen)
    requires Chronological(s.now, events)
    decreases |events|
    ensures r.now == if events == [] then s.now else events[|events| - 1].at
    ensures r.seconds >= s.seconds
  {
    if events == [] then s
    else
      var s1 := Step(s, events[0]);
      var rest := events[1..];
      assert forall k :: 0 <= k < |rest| ==> rest[k] == events[k + 1];
      Run(s1, rest)
  }

  /** Whatever the clicks, a run from mount at `t0` that reaches 12500 ms ends saved and
      not recording, and the seconds never went back. */
  lemma {:induction false} RunEndsSaved(t0: int, s: Screen, events: seq<Event>)
    requires Sound(s) && Chronological(s.now, events)
    requires s.startTimer.None? || s.startTimer == Some(t0 + StartAtMs)
    requires s.saveTimer.None? || s.saveTimer == Some(t0 + SaveAtMs)
    ensures Sound(Run(s, events)) && Run(s, events).seconds >= s.seconds
    ensures Run(s, events).now >= t0 + SaveAtMs ==>
              Run(s, events).phase == SavedPhase && !Run(s, events).recording
    decreases |events|
  {
    if events != [] {
      StepSound(s, events[0]);
      var rest := events[1..];
      assert forall k :: 0 <= k < |rest| ==> rest[k] == events[k + 1];
      RunEndsSaved(t0, Step(s, events[0]), rest);
    }
  }

  /** A click before the first timeout is undone by it: the widget records anyway. */
  lemma EarlyClickOverridden(t0: int, t1: int, t2: int)
    requires t0 <= t1 < t0 + StartAtMs <= t2 < t0 + SaveAtMs
    ensures var s := Step(Step(Mount(t0), Event(t1, Click)), Event(t2, Wait));
            s.phase == RecordPhase && s.recording
  {
    var s1 := Step(Mount(t0), Event(t1, Click));
    assert s1.startTimer == Some(t0 + StartAtMs) && s1.saveTimer == Some(t0 + SaveAtMs);
    assert s1.nextTick.None?;
    var s2 := FireTimeout(s1.(now := t0 + StartAtMs));
    assert s2.phase == RecordPhase && s2.recording && s2.startTimer.None?;
    assert NextTimeout(s2) == Some(t0 + SaveAtMs);
    assert Advance(s1, t2) == TicksThrough(s2, t2).(now := t2);
  }

  /** Left alone, the counter has run from the first timeout: at 1000 ms plus n whole
      seconds it shows n. */
  lemma SecondsWhileRecording(t0: int, t: int)
    requires t0 + StartAtMs <= t < t0 + SaveAtMs
    ensures Step(Mount(t0), Event(t, Wait)).seconds == (t - t0 - StartAtMs) / TickMs
  {
    var s0 := Mount(t0);
    var s1 := FireTimeout(s0.(now := t0 + StartAtMs));
    assert s1.nextTick == Some(t0 + StartAtMs + TickMs) && s1.seconds == 0;
    assert NextTimeout(s1) == Some(t0 + SaveAtMs);
    assert Advance(s0, t) == TicksThrough(s1, t).(now := t);
  }

  /** The label under the counter. */
  function Label(phase: Phase): (r: string)
    ensures r == "Recording Saved" <==> phase == SavedPhase
    ensures r == "Screen Recording" <==> phase != SavedPhase
  {
    if phase != SavedPhase then "Screen Recording" else "Recording Saved"
  }

  /** What is drawn: the `M:SS` counter and the label. */
  function Render(s: Screen): (v: (string, string))
    ensures v.1 == "Recording Saved" <==> s.phase == SavedPhase
    ensures s.seconds >= 0 ==> |v.0| >= 4 && v.0[|v.0| - 3] == ':'
  {
    (WidgetClock.ShortClock(s.seconds), Label(s.phase))
  }
}

=== FILE: skiper2.dfy ===
/** The prototype island page: a second copy of the island, its options panel and
    its bounce table, with the page itself owning the `view`/`variantKey` state. */
module Skiper2 {
  import opened Wrappers
  import DynamicIsland

  /** The prototype's own bounce table, entry for entry as it is written there. */
  const BounceTable: map<string, real> := map[
    "idle" := 0.5,
    "ring-idle" := 0.5,
    "timer-ring" := 0.35,
    "ring-timer" := 0.35,
    "timer-idle" := 0.3,
    "idle-timer" := 0.3,
    "idle-ring" := 0.5,
    "music-timer" := 0.2,
    "music-ring" := 0.2,
    "aridrop-ring" := 0.2,
    "aridrop-timer" := 0.2,
    "aridrop-record" := 0.2,
    "music-record" := 0.2,
    "music-airdrop" := 0.2,
    "airdrop-airdropMini" := 0.2,
    "airdropMini-airdrop" := 0.2
  ]

  /** The prototype's button list. */
  const Buttons: seq<string> := [
    "idle", "ring", "timer", "record", "music", "airdrop",
    "airdropMini", "lowBattery", "phone", "findmy", "screenRecord"
  ]

  /** The page's state: both fields start as 'idle', and nothing is scheduled. */
  function Initial(): (s: DynamicIsland.Island)
    ensures s.view == "idle" && s.variantKey == "idle" && s.pending == []
    ensures DynamicIsland.Reachable(s)
  {
    DynamicIsland.Island(0, "idle", "idle", [])
  }

  /** The bounce of the outer capsule and of the inner content box: both read the
      same table with the same 0.2 fallback. */
  function CapsuleBounces(variantKey: string): (b: (real, real))
    ensures b.0 == b.1
    ensures variantKey in BounceTable && BounceTable[variantKey] != 0.0 ==> b.0 == BounceTable[variantKey]
    ensures variantKey !in BounceTable ==> b.0 == 0.2
  {
    var bounce := DynamicIsland.BounceFor(BounceTable, variantKey);
    (bounce, bounce)
  }

  /** The prototype's table and buttons are the island's, so both copies spring the
      same way for every key. */
  lemma CopiesAgree(variantKey: string)
    ensures BounceTable == DynamicIsland.BounceVariants
    ensures Buttons == DynamicIsland.OptionNames
    ensures CapsuleBounces(variantKey).0 == DynamicIsland.Bounce(variantKey)
  {
  }

  /** A click on one of the prototype's buttons: 'idle' resets both fields at once;
      any other name collapses to idle, keys the transition from the view shown at
      click time, and schedules the switch 500 ms later. */
  function Click(s: DynamicIsland.Island, name: string): (r: DynamicIsland.Island)
    ensures r.now == s.now && r.view == "idle"
    ensures name == "idle" ==> r.variantKey == "idle" && r.pending == s.pending
    ensures name != "idle" ==>
              && r.variantKey == s.view + "-" + name
              && r.pending == s.pending + [DynamicIsland.PendingSwitch(s.now + 500, name)]
  {
    if name == "idle" then s.(view := "idle", variantKey := "idle")
    else s.(view := "idle", variantKey := s.view + "-" + name,
            pending := s.pending + [DynamicIsland.PendingSwitch(s.now + 500, name)])
  }

  /** The prototype's "Options" reset: both fields to 'idle'. */
  function Reset(s: DynamicIsland.Island): (r: DynamicIsland.Island)
    ensures r.view == "idle" && r.variantKey == "idle"
    ensures r.pending == s.pending && r.now == s.now
  {
    s.(view := "idle", variantKey := "idle")
  }

  /** The prototype's handlers are the island's handlers, click for click. */
  lemma HandlersAgree(s: DynamicIsland.Island, name: string)
    ensures Click(s, name) == DynamicIsland.SelectView(s, name)
    ensures Reset(s) == DynamicIsland.ResetToIdle(s)
  {
  }

  /** The prototype renders the same widget for every view as the island. */
  function ViewContent(view: string): (w: Option<DynamicIsland.Widget>)
    ensures w.Some? <==> view in Buttons
    ensures w == DynamicIsland.ViewContent(view)
  {
    match view
    case "ring" => Some(DynamicIsland.Ring)
    case "record" => Some(DynamicIsland.Record)
    case "timer" => Some(DynamicIsland.Timer)
    case "music" => Some(DynamicIsland.Music)
    case "airdrop" => Some(DynamicIsland.Airdrop)
    case "airdropMini" => Some(DynamicIsland.AirdropMini)
    case "lowBattery" => Some(DynamicIsland.LowBattery)
    case "phone" => Some(DynamicIsland.Phone)
    case "findmy" => Some(DynamicIsland.FindMy)
    case "screenRecord" => Some(DynamicIsland.ScreenRecord)
    case "idle" => Some(DynamicIsland.IdleSpacer)
    case _ => None
  }
}

=== FILE: slider.dfy ===
/** The elastic slider: a pointer press or a drag sets the value from the pointer's
    position on the track, rounded to a whole step of `max`; releasing the pointer
    anywhere in the document ends the drag. */
module ElasticSlider {
  import opened Wrappers

  /** The track's bounding rectangle, horizontally. */
  datatype Rect = Rect(left: real, width: real)

  /** What `updateValue` passes to `onChange`: nothing (no element yet), NaN, or a
      number. */
  datatype Change = NoChange | ChangeNaN | ChangeTo(value: int)

  /** `Math.max(0, Math.min(1, v))` for a number that is not NaN. */
  function Clamp01(v: real): (p: real)
    ensures 0.0 <= p <= 1.0
    ensures 0.0 <= v <= 1.0 ==> p == v
    ensures v < 0.0 ==> p == 0.0
    ensures v > 1.0 ==> p == 1.0
  {
    if v < 0.0 then 0.0 else if v > 1.0 then 1.0 else v
  }

  /** `Math.round`: the nearest integer, halves rounding up. */
  function Round(v: real): (n: int)
    ensures n as real <= v + 0.5 < n as real + 1.0
  {
    (v + 0.5).Floor
  }

  /** The pointer's position as a fraction of the track, clamped to [0, 1]. On a
      zero-width track `x / 0` is an infinity (clamped to 0 or 1) or, at the left
      edge itself, NaN, shown as None. */
  function Fraction(rect: Rect, clientX: real): (p: Option<real>)
    requires rect.width >= 0.0
    ensures p.None? <==> rect.width == 0.0 && clientX == rect.left
    ensures p.Some? ==> 0.0 <= p.value <= 1.0
    ensures p.Some? && clientX <= rect.left ==> p.value == 0.0
    ensures p.Some? && clientX >= rect.left + rect.width ==> p.value == 1.0
    ensures rect.width > 0.0 && rect.left <= clientX <= rect.left + rect.width ==>
              p.Some? && p.value * rect.width == clientX - rect.left
  {
    var x := clientX - rect.left;
    if rect.width == 0.0 then
      if x > 0.0 then Some(1.0) else if x < 0.0 then Some(0.0) else None
    else
      if 0.0 <= x <= rect.width then
        ShareOfWidth(x, rect.width);
        Some(Clamp01(x / rect.width))
      else
        ShareOutsideWidth(x, rect.width);
        Some(Clamp01(x / rect.width))
  }

  lemma ShareOfWidth(x: real, w: real)
    requires w > 0.0 && 0.0 <= x <= w
    ensures 0.0 <= x / w <= 1.0 && x / w * w == x
    ensures x == w ==> x / w == 1.0
  {
    assert x / w * w == x;
  }

  lemma ShareOutsideWidth(x: real, w: real)
    requires w > 0.0 && (x < 0.0 || x > w)
    ensures x < 0.0 ==> x / w < 0.0
    ensures x > w ==> x / w > 1.0
  {
    var q := x / w;
    assert q * w == x;
    ScaleSign(q, w);
    ScaleSign(q - 1.0, w);
    assert (q - 1.0) * w == x - w;
  }

  /** Scaling by a positive width keeps the sign. */
  lemma ScaleSign(a: real, w: real)
    requires w > 0.0
    ensures a >= 0.0 <==> a * w >= 0.0
  {
    if a >= 0.0 {
      assert a * w >= 0.0;
    } else {
      assert a * w < 0.0;
    }
  }

  /** `updateValue`: nothing before the element is mounted, otherwise the rounded
      share of `max` under the pointer. */
  function UpdateValue(element: Option<Rect>, clientX: real, max: int): (c: Change)
    requires element.Some? ==> element.value.width >= 0.0
    ensures c.NoChange? <==> element.None?
    ensures c.ChangeNaN? <==> element.Some? && Fraction(element.value, clientX).None?
    ensures c.ChangeTo? && max >= 0 ==> 0 <= c.value <= max
    ensures c.ChangeTo? && clientX <= element.value.left ==> c.value == 0
    ensures c.ChangeTo? && clientX >= element.value.left + element.value.width ==> c.value == max
  {
    match element
    case None => NoChange
    case Some(rect) =>
      match Fraction(rect, clientX)
      case None => ChangeNaN
      case Some(p) =>
        ScaleBounds(p, max, p * max as real);
        ChangeTo(Round(p * max as real))
  }

  /** The rounded share `v` of `max` lies in [0, max], and is exactly 0 and `max` at
      the ends of the track. */
  lemma ScaleBounds(p: real, max: int, v: real)
    requires 0.0 <= p <= 1.0 && v == p * max as real
    ensures max >= 0 ==> 0 <= Round(v) <= max
    ensures p == 0.0 ==> Round(v) == 0
    ensures p == 1.0 ==> Round(v) == max
  {
    if max >= 0 {
      ShareOfMax(p, max);
      RoundWithin(v, 0, max);
    }
    if p == 0.0 || p == 1.0 {
      RoundEnds(p, max);
    }
  }

  /** The ends of the track give exactly 0 and `max`. */
  lemma RoundEnds(p: real, max: int)
    requires p == 0.0 || p == 1.0
    ensures p == 0.0 ==> Round(p * max as real) == 0
    ensures p == 1.0 ==> Round(p * max as real) == max
  {
    if p == 0.0 {
      assert p * max as real == 0 as real;
    } else {
      assert p * max as real == max as real;
    }
  }

  /** Moving the pointer right never lowers the value. */
  lemma UpdateMonotone(rect: Rect, x1: real, x2: real, max: int)
    requires rect.width > 0.0 && x1 <= x2 && max >= 0
    ensures UpdateValue(Some(rect), x1, max).ChangeTo? && UpdateValue(Some(rect), x2, max).ChangeTo?
    ensures UpdateValue(Some(rect), x1, max).value <= UpdateValue(Some(rect), x2, max).value
  {
    FractionMonotone(rect, x1, x2);
    var p1, p2 := Fraction(rect, x1).value, Fraction(rect, x2).value;
    ScaleMonotone(p1, p2, max);
    var v1, v2 := p1 * max as real, p2 * max as real;
    RoundMonotone(v1, v2);
    assert UpdateValue(Some(rect), x1, max) == ChangeTo(Round(v1));
    assert UpdateValue(Some(rect), x2, max) == ChangeTo(Round(v2));
  }

  lemma FractionMonotone(rect: Rect, x1: real, x2: real)
    requires rect.width > 0.0 && x1 <= x2
    ensures Fraction(rect, x1).Some? && Fraction(rect, x2).Some?
    ensures Fraction(rect, x1).value <= Fraction(rect, x2).value
  {
    var a, b := x1 - rect.left, x2 - rect.left;
    DivideMonotone(a, b, rect.width);
    assert Fraction(rect, x1) == Some(Clamp01(a / rect.width));
    assert Fraction(rect, x2) == Some(Clamp01(b / rect.width));
  }

  lemma DivideMonotone(a: real, b: real, w: real)
    requires w > 0.0 && a <= b
    ensures a / w <= b / w
  {
    assert (b - a) / w >= 0.0;
    assert b / w - a / w == (b - a) / w;
  }

  lemma ScaleMonotone(p1: real, p2: real, max: int)
    requires p1 <= p2 && max >= 0
    ensures p1 * max as real <= p2 * max as real
  {
    assert (p2 - p1) * max as real >= 0.0;
  }

  /** A share in [0, 1] of a non-negative `max` lies between 0 and `max`. */
  lemma ShareOfMax(p: real, max: int)
    requires 0.0 <= p <= 1.0 && max >= 0
    ensures 0 as real <= p * max as real <= max as real
  {
    ScaleMonotone(0.0, p, max);
    ScaleMonotone(p, 1.0, max);
  }

  /** Rounding a number between two integers stays between them. */
  lemma RoundWithin(v: real, lo: int, hi: int)
    requires lo as real <= v <= hi as real
    ensures lo <= Round(v) <= hi
  {
    var n := Round(v);
    assert n as real > lo as real - 1.0;
    assert n as real < hi as real + 1.0;
  }

  lemma RoundMonotone(a: real, b: real)
    requires a <= b
    ensures Round(a) <= Round(b)
  {
  }

  /** The filled width and the knob's position, as a percentage of the track; a zero
      `max` divides by zero and draws nothing sensible, shown as None. */
  function DisplayPercent(value: int, max: int): (pct: Option<real>)
    ensures pct.None? <==> max == 0
    ensures pct.Some? ==> pct.value * max as real == value as real * 100.0
    ensures pct.Some? && 0 <= value <= max ==> 0.0 <= pct.value <= 100.0
  {
    if max == 0 then None
    else
      var q := value as real / max as real;
      assert q * max as real == value as real;
      assert 0 <= value <= max ==> 0.0 <= q <= 1.0;
      Some(q * 100.0)
  }

  /** The drawn knob and the value agree: pressing where the knob is drawn gives the
      value back, for every value within the slider's range. */
  lemma PressOnKnobGivesValue(rect: Rect, value: int, max: int, x: real)
    requires rect.width > 0.0 && 0 <= value <= max && max > 0
    requires x == rect.left + rect.width * DisplayPercent(value, max).value / 100.0
    ensures UpdateValue(Some(rect), x, max) == ChangeTo(value)
  {
    var q := value as real / max as real;
    ShareOfWidth(value as real, max as real);
    KnobGivesValue(rect, value, max, q, DisplayPercent(value, max).value, x);
  }

  /** The knob drawn at `p` percent, where `p` is the share `q` of `max` that `value`
      is, reads back as `value`. */
  lemma KnobGivesValue(rect: Rect, value: int, max: int, q: real, p: real, x: real)
    requires rect.width > 0.0 && 0.0 <= q <= 1.0 && q * max as real == value as real && p == q * 100.0
    requires x == rect.left + rect.width * p / 100.0
    ensures UpdateValue(Some(rect), x, max) == ChangeTo(value)
  {
    KnobFraction(rect, q, p);
    UpdateAtFraction(rect, x, max, q);
    assert Round(value as real) == value;
  }

  /** Where the track reads a share `q`, the value is `q` of `max`, rounded. */
  lemma UpdateAtFraction(rect: Rect, x: real, max: int, q: real)
    requires rect.width >= 0.0 && Fraction(rect, x) == Some(q)
    ensures UpdateValue(Some(rect), x, max) == ChangeTo(Round(q * max as real))
  {
  }

  /** The point drawn at `p` percent (share `q`) of the track reads back as share `q`. */
  lemma KnobFraction(rect: Rect, q: real, p: real)
    requires rect.width > 0.0 && 0.0 <= q <= 1.0 && p == q * 100.0
    ensures Fraction(rect, rect.left + rect.width * p / 100.0) == Some(q)
  {
    KnobOffset(rect.width, q, p);
  }

  /** The knob's offset at share `q` lies on the track and divides back to `q`. */
  lemma KnobOffset(w: real, q: real, p: real)
    requires w > 0.0 && 0.0 <= q <= 1.0 && p == q * 100.0
    ensures var d := w * p / 100.0; 0.0 <= d <= w && d / w == q
  {
    var d := w * p / 100.0;
    assert d == q * w;
    ScaleSign(q, w);
    ScaleSign(1.0 - q, w);
    assert (1.0 - q) * w == w - d;
    var r := d / w;
    assert r * w == d;
    Cancel(r, q, w);
  }

  /** Equal multiples of a positive width have equal factors. */
  lemma Cancel(a: real, b: real, w: real)
    requires w > 0.0 && a * w == b * w
    ensures a == b
  {
    ScaleSign(a - b, w);
    ScaleSign(b - a, w);
    assert (a - b) * w == a * w - b * w;
    assert (b - a) * w == b * w - a * w;
  }

  /** The slider's state: whether a drag is on, and whether the document-level
      `pointerup` listener is attached (the effect adds it exactly while dragging). */
  datatype Slider = Slider(isDragging: bool, listening: bool)

  const Idle: Slider := Slider(false, false)

  /** A press or a move on the track at some horizontal position, or a release
      anywhere in the document. */
  datatype Pointer = Down(x: real) | Move(x: real) | Up

  /** One pointer event, with the effect that follows the render applied. */
  function Handle(s: Slider, e: Pointer, element: Option<Rect>, max: int): (r: (Slider, Change))
    requires element.Some? ==> element.value.width >= 0.0
    ensures r.0.listening == r.0.isDragging
    ensures e.Down? ==> r.0.isDragging && r.1 == UpdateValue(element, e.x, max)
    ensures e.Move? ==> r.0 == Slider(s.isDragging, s.isDragging)
    ensures e.Move? && !s.isDragging ==> r.1 == NoChange
    ensures e.Up? ==> r.1 == NoChange
    ensures e.Up? && s.listening ==> !r.0.isDragging
  {
    match e
    case Down(x) => (Slider(true, true), UpdateValue(element, x, max))
    case Move(x) => (Slider(s.isDragging, s.isDragging), if s.isDragging then UpdateValue(element, x, max) else NoChange)
    case Up => (if s.listening then Idle else Slider(s.isDragging, s.isDragging), NoChange)
  }

  /** The state after the first `k` events from an idle slider. */
  function StateAfter(events: seq<Pointer>, k: nat, element: Option<Rect>, max: int): (s: Slider)
    requires k <= |events| && (element.Some? ==> element.value.width >= 0.0)
    ensures s.listening == s.isDragging
  {
    if k == 0 then Idle else Handle(StateAfter(events, k - 1, element, max), events[k - 1], element, max).0
  }

  /** What the `k`-th event passes to `onChange`. */
  function ChangeAt(events: seq<Pointer>, k: nat, element: Option<Rect>, max: int): (c: Change)
    requires k < |events| && (element.Some? ==> element.value.width >= 0.0)
    ensures events[k].Up? ==> c == NoChange
    ensures events[k].Down? ==> c == UpdateValue(element, events[k].x, max)
  {
    Handle(StateAfter(events, k, element, max), events[k], element, max).1
  }

  /** A drag is held before event `k`: some earlier press has not been followed by a
      release. */
  predicate HeldBefore(events: seq<Pointer>, k: nat)
    requires k <= |events|
  {
    exists j :: 0 <= j < k && events[j].Down? && forall i :: j < i < k ==> !events[i].Up?
  }

  /** The slider drags exactly from a press up to the next release. */
  lemma {:induction false} DraggingIffHeld(events: seq<Pointer>, k: nat, element: Option<Rect>, max: int)
    requires k <= |events| && (element.Some? ==> element.value.width >= 0.0)
    ensures StateAfter(events, k, element, max).isDragging <==> HeldBefore(events, k)
  {
    if k > 0 {
      DraggingIffHeld(events, k - 1, element, max);
      var e := events[k - 1];
      match e
      case Down(_) =>
        assert events[k - 1].Down?;
      case Up =>
      case Move(_) =>
        if HeldBefore(events, k) {
          var j :| 0 <= j < k && events[j].Down? && forall i :: j < i < k ==> !events[i].Up?;
          assert j < k - 1;
          assert HeldBefore(events, k - 1);
        }
        if HeldBefore(events, k - 1) {
          var j :| 0 <= j < k - 1 && events[j].Down? && forall i :: j < i < k - 1 ==> !events[i].Up?;
          assert forall i :: j < i < k ==> !events[i].Up?;
        }
    }
  }

  /** With the track mounted, an event changes the value exactly when it is a press,
      or a move while a press is held. */
  lemma ChangesOnlyWhileHeld(events: seq<Pointer>, k: nat, rect: Rect, max: int)
    requires k < |events| && rect.width >= 0.0
    ensures ChangeAt(events, k, Some(rect), max) != NoChange <==>
              events[k].Down? || (events[k].Move? && HeldBefore(events, k))
  {
    DraggingIffHeld(events, k, Some(rect), max);
  }
}

=== FILE: splittext.dfy ===
/** The split-text effect: the element's text becomes one span per character, and
    the scroll trigger's start string is built from the threshold and a CSS-like
    `rootMargin` parsed by a small regular expression. */
module SplitText {
  import opened Wrappers
  import opened JsText

  const Nbsp: char := '\U{00A0}'

  /** The defaults of the component's props. */
  const DefaultThresholdHundredths: int := 10
  const DefaultRootMargin: string := "-100px"

  // ---------------------------------------------------------------------------
  // splitTextIntoCharacters

  /** One character span: its class, its inline display, and its text. */
  datatype Span = Span(className: string, display: string, content: string)

  /** The text a character's span shows: a space becomes a no-break space. */
  function Shown(c: char): (d: char)
    ensures c == ' ' ==> d == Nbsp
    ensures c != ' ' ==> d == c
  {
    if c == ' ' then Nbsp else c
  }

  /** The span for one character. */
  function CharSpan(c: char): (s: Span)
    ensures s.className == "split-char" && s.display == "inline-block"
    ensures |s.content| == 1 && (s.content[0] == Nbsp <==> c == ' ' || c == Nbsp)
  {
    Span("split-char", "inline-block", [Shown(c)])
  }

  /** `splitTextIntoCharacters`: one span per character of the text, in order. */
  method SplitIntoCharacters(textContent: string) returns (spans: seq<Span>)
    ensures |spans| == |textContent|
    ensures forall k :: 0 <= k < |spans| ==> spans[k].className == "split-char" && spans[k].display == "inline-block"
    ensures forall k :: 0 <= k < |spans| ==> spans[k].content == [Shown(textContent[k])]
    ensures spans == Spans(textContent)
  {
    spans := [];
    var i := 0;
    while i < |textContent|
      invariant 0 <= i <= |textContent|
      invariant |spans| == i
      invariant forall k :: 0 <= k < i ==> spans[k] == CharSpan(textContent[k])
    {
      spans := spans + [CharSpan(textContent[i])];
      i := i + 1;
    }
  }

  /** The element's text content once it holds the spans. */
  function Joined(spans: seq<Span>): (s: string)
    ensures |s| == |spans| || exists k :: 0 <= k < |spans| && |spans[k].content| != 1
  {
    if spans == [] then "" else spans[0].content + Joined(spans[1..])
  }

  /** The spans the function produces for a text, as a sequence. */
  function Spans(text: string): (spans: seq<Span>)
    ensures |spans| == |text|
    ensures forall k :: 0 <= k < |spans| ==> spans[k] == CharSpan(text[k])
  {
    seq(|text|, k requires 0 <= k < |text| => CharSpan(text[k]))
  }

  lemma {:induction false} JoinedSpans(text: string)
    ensures Joined(Spans(text)) == seq(|text|, k requires 0 <= k < |text| => Shown(text[k]))
  {
    if text != [] {
      assert Spans(text)[1..] == Spans(text[1..]);
      JoinedSpans(text[1..]);
    }
  }

  /** Splitting the element again (when the effect re-runs on the already split
      element) gives the same spans: the no-break spaces are kept as they are. */
  lemma SplitIdempotent(text: string)
    ensures Spans(Joined(Spans(text))) == Spans(text)
  {
    JoinedSpans(text);
  }

  /** Reading the spans back and turning no-break spaces into spaces gives the text
      again whenever it had no no-break space of its own. */
  lemma SplitRoundTrip(text: string)
    requires forall k :: 0 <= k < |text| ==> text[k] != Nbsp
    ensures var back := Joined(Spans(text));
            seq(|back|, k requires 0 <= k < |back| => if back[k] == Nbsp then ' ' else back[k]) == text
  {
    JoinedSpans(text);
  }

  // ---------------------------------------------------------------------------
  // rootMargin

  /** The units the margin pattern accepts. */
  predicate IsUnit(u: string) {
    u == "px" || u == "em" || u == "rem" || u == "%"
  }

  /** A margin matched by `^(-?\d+(?:\.\d+)?)(px|em|rem|%)?$`: sign, whole digits,
      optional fraction digits, optional unit. */
  datatype Margin = Margin(negative: bool, whole: string, fraction: Option<string>, unit: Option<string>)

  predicate WellFormed(m: Margin) {
    && |m.whole| > 0 && AllDigits(m.whole)
    && (m.fraction.Some? ==> |m.fraction.value| > 0 && AllDigits(m.fraction.value))
    && (m.unit.Some? ==> IsUnit(m.unit.value))
  }

  /** The text of a margin. */
  function Render(m: Margin): (t: string)
    ensures |t| >= |m.whole|
    ensures m.negative ==> |t| > 0 && t[0] == '-'
  {
    (if m.negative then "-" else "") + m.whole + AfterWhole(m)
  }

  /** The text after a margin's whole digits: the fraction, then the unit. */
  function AfterWhole(m: Margin): (t: string)
    ensures m.fraction.None? ==> t == m.unit.GetOr("")
    ensures m.fraction.Some? ==> t == "." + (m.fraction.value + m.unit.GetOr(""))
  {
    match m.fraction
    case None => m.unit.GetOr("")
    case Some(f) => "." + (f + m.unit.GetOr(""))
  }

  /** What may follow the number: nothing, or a unit. */
  function ParseUnit(rest: string): (r: Option<Option<string>>)
    ensures r.Some? <==> rest == "" || IsUnit(rest)
    ensures r.Some? ==> r.value.GetOr("") == rest && (r.value.Some? ==> IsUnit(r.value.value))
  {
    if rest == "" then Some(None) else if IsUnit(rest) then Some(Some(rest)) else None
  }

  /** The margin pattern as a parser: a match exactly when the whole string is an
      optional '-', digits, optionally '.' and digits, then optionally a unit. */
  function ParseMargin(s: string): (r: Option<Margin>)
    ensures r.Some? ==> WellFormed(r.value) && Render(r.value) == s
  {
    var negative := |s| > 0 && s[0] == '-';
    var i := if negative then 1 else 0;
    var j := DigitsEnd(s, i);
    if j == i then None
    else if j < |s| && s[j] == '.' && j + 1 < |s| && IsDigit(s[j + 1]) then
      var k := DigitsEnd(s, j + 1);
      match ParseUnit(s[k..])
      case None => None
      case Some(unit) =>
        RenderFraction(s, negative, i, j, k, unit);
        Some(Margin(negative, s[i..j], Some(s[j + 1..k]), unit))
    else
      match ParseUnit(s[j..])
      case None => None
      case Some(unit) =>
        RenderWhole(s, negative, i, j, unit);
        Some(Margin(negative, s[i..j], None, unit))
  }

  /** The pieces the parser cuts a string into render back to the string: the
      case without a fraction. */
  lemma RenderWhole(s: string, negative: bool, i: nat, j: nat, unit: Option<string>)
    requires negative <==> |s| > 0 && s[0] == '-'
    requires i == (if negative then 1 else 0) && i < j <= |s|
    requires forall n :: i <= n < j ==> IsDigit(s[n])
    requires unit.GetOr("") == s[j..] && (unit.Some? ==> IsUnit(unit.value))
    ensures WellFormed(Margin(negative, s[i..j], None, unit))
    ensures Render(Margin(negative, s[i..j], None, unit)) == s
  {
    var sign := if negative then "-" else "";
    assert s[..i] == sign;
    DigitSlice(s, i, j);
    assert s == s[..i] + s[i..j] + s[j..];
  }

  /** The same with a fraction. */
  lemma RenderFraction(s: string, negative: bool, i: nat, j: nat, k: nat, unit: Option<string>)
    requires negative <==> |s| > 0 && s[0] == '-'
    requires i == (if negative then 1 else 0) && i < j && j + 1 < k <= |s| && s[j] == '.'
    requires forall n :: i <= n < j ==> IsDigit(s[n])
    requires forall n :: j + 1 <= n < k ==> IsDigit(s[n])
    requires unit.GetOr("") == s[k..] && (unit.Some? ==> IsUnit(unit.value))
    ensures WellFormed(Margin(negative, s[i..j], Some(s[j + 1..k]), unit))
    ensures Render(Margin(negative, s[i..j], Some(s[j + 1..k]), unit)) == s
  {
    var sign := if negative then "-" else "";
    assert s[..i] == sign;
    DigitSlice(s, i, j);
    DigitSlice(s, j + 1, k);
    assert s[j..] == "." + (s[j + 1..k] + s[k..]) by {
      assert s[j..] == [s[j]] + s[j + 1..];
      assert s[j + 1..] == s[j + 1..k] + s[k..];
    }
    assert s == s[..i] + s[i..j] + s[j..];
  }

  /** A stretch of digits, cut out. */
  lemma DigitSlice(s: string, i: nat, j: nat)
    requires i <= j <= |s| && forall n :: i <= n < j ==> IsDigit(s[n])
    ensures AllDigits(s[i..j])
  {
    forall n | 0 <= n < j - i
      ensures IsDigit(s[i..j][n])
    {
      assert s[i..j][n] == s[i + n];
    }
  }

  /** Every well-formed margin is read back from its text: together with the parser's
      own contract, the parser accepts exactly the texts of well-formed margins. */
  lemma ParseRender(m: Margin)
    requires WellFormed(m)
    ensures ParseMargin(Render(m)) == Some(m)
  {
    var s := Render(m);
    var i := if m.negative then 1 else 0;
    var j := i + |m.whole|;
    WholeDigitsOf(m, s, i, j);
    if m.fraction.None? {
      ParseRenderWhole(m, s, i, j);
    } else {
      ParseRenderFraction(m, s, i, j);
    }
  }

  /** Where a margin's whole digits sit in its text, and that the digit run ends
      there. */
  lemma WholeDigitsOf(m: Margin, s: string, i: nat, j: nat)
    requires WellFormed(m) && s == Render(m)
    requires i == (if m.negative then 1 else 0) && j == i + |m.whole|
    ensures j <= |s| && s[i..j] == m.whole && s[j..] == AfterWhole(m)
    ensures DigitsEnd(s, i) == j
    ensures m.negative <==> |s| > 0 && s[0] == '-'
  {
    var sign := if m.negative then "-" else "";
    var tail := AfterWhole(m);
    assert |sign| == i;
    assert s[i..j] == m.whole && s[j..] == tail by {
      assert s == (sign + m.whole) + tail;
      assert (sign + m.whole)[i..] == m.whole;
    }
    UnitNotDigit(m);
    assert forall n :: i <= n < j ==> s[n] == m.whole[n - i];
    assert j < |s| ==> s[j] == tail[0];
    DigitsEndAt(s, i, j);
    assert !m.negative ==> s[0] == m.whole[0] && IsDigit(s[0]);
  }

  /** What follows the whole digits never starts with a digit. */
  lemma UnitNotDigit(m: Margin)
    requires WellFormed(m)
    ensures AfterWhole(m) == [] || !IsDigit(AfterWhole(m)[0])
    ensures m.unit.GetOr("") == [] || !IsDigit(m.unit.GetOr("")[0])
  {
  }

  lemma ParseRenderWhole(m: Margin, s: string, i: nat, j: nat)
    requires WellFormed(m) && m.fraction.None? && (m.negative <==> |s| > 0 && s[0] == '-')
    requires i == (if m.negative then 1 else 0) && j == i + |m.whole| <= |s|
    requires s[i..j] == m.whole && s[j..] == AfterWhole(m) && DigitsEnd(s, i) == j
    ensures ParseMargin(s) == Some(m)
  {
    UnitNotDigit(m);
    assert ParseUnit(s[j..]) == Some(m.unit);
  }

  lemma ParseRenderFraction(m: Margin, s: string, i: nat, j: nat)
    requires WellFormed(m) && m.fraction.Some? && (m.negative <==> |s| > 0 && s[0] == '-')
    requires i == (if m.negative then 1 else 0) && j == i + |m.whole| <= |s|
    requires s[i..j] == m.whole && s[j..] == AfterWhole(m) && DigitsEnd(s, i) == j
    ensures ParseMargin(s) == Some(m)
  {
    var k := FractionEnd(m, s, j);
    assert m == Margin(m.negative, s[i..j], Some(s[j + 1..k]), m.unit);
  }

  /** After the whole digits of a margin with a fraction come a '.', the fraction's
      digits up to `k`, and the unit. */
  lemma FractionEnd(m: Margin, s: string, j: nat) returns (k: nat)
    requires WellFormed(m) && m.fraction.Some? && j <= |s| && s[j..] == AfterWhole(m)
    ensures j < |s| && s[j] == '.' && j + 1 < |s| && IsDigit(s[j + 1])
    ensures k == j + 1 + |m.fraction.value| && DigitsEnd(s, j + 1) == k
    ensures s[j + 1..k] == m.fraction.value && ParseUnit(s[k..]) == Some(m.unit)
  {
    var f := m.fraction.value;
    var unit := m.unit.GetOr("");
    k := j + 1 + |f|;
    assert s[j + 1..] == f + unit by {
      assert s[j + 1..] == s[j..][1..];
    }
    assert s[j + 1..k] == f && s[k..] == unit by {
      assert s[j + 1..k] == s[j + 1..][..|f|];
      assert s[k..] == s[j + 1..][|f|..];
    }
    assert s[j] == s[j..][0] && s[j + 1] == f[0];
    UnitNotDigit(m);
    DigitsEndAt(s, j + 1, k);
  }


  // ---------------------------------------------------------------------------
  // The scroll trigger's start string

  /** The value of fraction digits `d1 d2 ...` read after a decimal point:
      `(d1 + (d2 + ...) / 10) / 10`. */
  function FractionValue(f: string): (r: real)
    requires AllDigits(f)
    ensures 0.0 <= r < 1.0
  {
    if f == [] then 0.0 else (DigitValue(f[0]) as real + FractionValue(f[1..])) / 10.0
  }

  /** The exact decimal value `parseFloat` reads from the matched number. */
  function Value(m: Margin): (v: real)
    requires WellFormed(m)
    ensures m.negative ==> v <= -(DigitsValue(m.whole) as real)
    ensures !m.negative ==> v >= DigitsValue(m.whole) as real
  {
    var magnitude := DigitsValue(m.whole) as real
      + (match m.fraction case None => 0.0 case Some(f) => FractionValue(f));
    if m.negative then -magnitude else magnitude
  }

  /** The margin's number is whole when its fraction digits add nothing. */
  predicate Whole(m: Margin)
    requires WellFormed(m)
  {
    m.fraction.None? || FractionValue(m.fraction.value) == 0.0
  }

  /** The value and unit the component uses: a match gives its number and its unit
      (px when none is written); anything else counts as 0 px. */
  function MarginValueAndUnit(rootMargin: string): (r: (real, string))
    ensures ParseMargin(rootMargin).None? ==> r == (0.0, "px")
    ensures ParseMargin(rootMargin).Some? ==>
              r.0 == Value(ParseMargin(rootMargin).value) && IsUnit(r.1)
              && (ParseMargin(rootMargin).value.unit.None? ==> r.1 == "px")
  {
    match ParseMargin(rootMargin)
    case None => (0.0, "px")
    case Some(m) => (Value(m), m.unit.GetOr("px"))
  }

  /** A whole margin's value is its whole digits, with the sign. */
  lemma WholeValue(m: Margin)
    requires WellFormed(m) && Whole(m)
    ensures Value(m) == if m.negative then -(DigitsValue(m.whole) as real) else DigitsValue(m.whole) as real
  {
  }

  /** The margin text, in the form `Number.toString` gives a whole number. */
  predicate WholeMarginText(rootMargin: string) {
    ParseMargin(rootMargin).None? || Whole(ParseMargin(rootMargin).value)
  }

  /** The suffix for a margin: none for 0 (including -0), `-=|v|unit` below 0 and
      `+=vunit` above. */
  function MarginSuffix(rootMargin: string): (r: string)
    requires WholeMarginText(rootMargin)
    ensures MarginValueAndUnit(rootMargin).0 == 0.0 <==> r == ""
    ensures MarginValueAndUnit(rootMargin).0 < 0.0 ==> |r| >= 2 && r[..2] == "-="
    ensures MarginValueAndUnit(rootMargin).0 > 0.0 ==> |r| >= 2 && r[..2] == "+="
  {
    match ParseMargin(rootMargin)
    case None => ""
    case Some(m) =>
      WholeValue(m);
      SignedSuffix(m.negative, DigitsValue(m.whole), m.unit.GetOr("px"))
  }

  /** The suffix for a whole margin of magnitude `n`. */
  function SignedSuffix(negative: bool, n: nat, unit: string): (r: string)
    ensures r == "" <==> n == 0
    ensures n > 0 && negative ==> |r| >= 2 && r[..2] == "-="
    ensures n > 0 && !negative ==> |r| >= 2 && r[..2] == "+="
  {
    if n == 0 then "" else (if negative then "-=" else "+=") + NatToString(n) + unit
  }


  /** `top <(1 - threshold) * 100>%<suffix>`, with the threshold given in hundredths:
      the text after "top " up to the first '%' is the percentage, and what follows
      the '%' is the margin's suffix. */
  function ScrollTriggerStart(thresholdHundredths: int, rootMargin: string): (start: string)
    requires WholeMarginText(rootMargin)
    ensures |start| > 5 && start[..4] == "top "
    ensures var p := IndexOfChar(start, '%', 4);
            && p < |start|
            && start[4..p] == IntToString(100 - thresholdHundredths)
            && start[p + 1..] == MarginSuffix(rootMargin)
  {
    StartText(thresholdHundredths, MarginSuffix(rootMargin))
  }

  /** The start string for a threshold and an already computed suffix. */
  function StartText(thresholdHundredths: int, suffix: string): (start: string)
    ensures |start| > 5 && start[..4] == "top "
    ensures var p := IndexOfChar(start, '%', 4);
            && p < |start|
            && start[4..p] == IntToString(100 - thresholdHundredths)
            && start[p + 1..] == suffix
  {
    var percent := IntToString(100 - thresholdHundredths);
    PercentSplits(percent, suffix);
    "top " + percent + "%" + suffix
  }

  /** Where the '%' falls in a start string whose percentage holds no '%'. */
  lemma PercentSplits(percent: string, suffix: string)
    requires forall i :: 0 <= i < |percent| ==> percent[i] != '%'
    ensures var start := "top " + percent + "%" + suffix;
            var p := IndexOfChar(start, '%', 4);
            p == 4 + |percent| && start[..4] == "top "
            && start[4..p] == percent && start[p + 1..] == suffix
  {
    var start := "top " + percent + "%" + suffix;
    var p := 4 + |percent|;
    assert start[4..p] == percent && start[p] == '%';
    assert start[p + 1..] == suffix;
  }

  /** The start string gives back the threshold and the margin's suffix: two settings
      produce the same start exactly when they agree on both. */
  lemma StartDeterminesSettings(a: int, b: int, marginA: string, marginB: string)
    requires WholeMarginText(marginA) && WholeMarginText(marginB)
    ensures ScrollTriggerStart(a, marginA) == ScrollTriggerStart(b, marginB)
            <==> a == b && MarginSuffix(marginA) == MarginSuffix(marginB)
  {
    if ScrollTriggerStart(a, marginA) == ScrollTriggerStart(b, marginB) {
      StartTextInjective(a, b, MarginSuffix(marginA), MarginSuffix(marginB));
    }
  }

  /** Equal start strings come from equal thresholds and equal suffixes. */
  lemma StartTextInjective(a: int, b: int, suffixA: string, suffixB: string)
    requires StartText(a, suffixA) == StartText(b, suffixB)
    ensures a == b && suffixA == suffixB
  {
    var x, y := 100 - a, 100 - b;
    assert IntToString(x) == IntToString(y) by {
      var start := StartText(a, suffixA);
      var p := IndexOfChar(start, '%', 4);
      SameSlice(start, 4, p, IntToString(x), IntToString(y));
    }
    IntToStringInjective(x, y);
  }

  /** Two strings that are the same slice are equal. */
  lemma SameSlice(s: string, i: int, j: int, x: string, y: string)
    requires 0 <= i <= j <= |s| && s[i..j] == x && s[i..j] == y
    ensures x == y
  {
  }

  /** The start string is "top ", the percentage, '%' and the suffix. */
  lemma StartPieces(t: int, margin: string)
    requires WholeMarginText(margin)
    ensures ScrollTriggerStart(t, margin) == "top " + IntToString(100 - t) + "%" + MarginSuffix(margin)
  {
  }

  /** The default margin reads as -100 px, so its suffix is "-=100px". */
  lemma DefaultSuffix()
    ensures WholeMarginText(DefaultRootMargin)
    ensures MarginSuffix(DefaultRootMargin) == "-=100px"
  {
    var m := Margin(true, "100", None, Some("px"));
    assert WellFormed(m);
    assert Render(m) == DefaultRootMargin;
    ParseRender(m);
    assert DigitsValue("100") == 100 by {
      assert "100"[..2] == "10" && "10"[..1] == "1";
    }
    assert NatToString(100) == "100";
  }

  /** A margin in a unit the pattern does not know adds no suffix. */
  lemma UnknownUnitSuffix()
    ensures WholeMarginText("10vh")
    ensures MarginSuffix("10vh") == ""
  {
    assert DigitsEnd("10vh", 0) == 2 by { DigitsEndAt("10vh", 0, 2); }
    assert ParseMargin("10vh").None?;
  }

  /** With the component's defaults the trigger starts at "top 90%-=100px". */
  lemma DefaultStart(t: int, margin: string)
    requires t == DefaultThresholdHundredths && margin == DefaultRootMargin
    ensures WholeMarginText(margin)
    ensures ScrollTriggerStart(t, margin) == "top 90%-=100px"
  {
    DefaultSuffix();
    StartPieces(t, margin);
    NinetyText(100 - t);
    DefaultLiteral(IntToString(100 - t), MarginSuffix(margin));
  }

  /** A margin the pattern rejects adds no suffix to the default start. */
  lemma UnknownUnitStart(t: int, margin: string)
    requires t == DefaultThresholdHundredths && margin == "10vh"
    ensures WholeMarginText(margin)
    ensures ScrollTriggerStart(t, margin) == "top 90%"
  {
    UnknownUnitSuffix();
    StartPieces(t, margin);
    NinetyText(100 - t);
    StartLiteral(IntToString(100 - t), MarginSuffix(margin), "");
  }

  /** The default percentage followed by the default suffix. */
  lemma DefaultLiteral(percent: string, suffix: string)
    requires percent == "90" && suffix == "-=100px"
    ensures "top " + percent + "%" + suffix == "top 90%-=100px"
  {
  }

  /** The default percentage followed by a known suffix. */
  lemma StartLiteral(percent: string, suffix: string, expected: string)
    requires percent == "90" && suffix == expected
    ensures "top " + percent + "%" + suffix == "top 90%" + expected
  {
  }

  /** The default threshold leaves 90 percent, written "90". */
  lemma NinetyText(n: int)
    requires n == 90
    ensures IntToString(n) == "90"
  {
    assert NatToString(n / 10) == "9";
    assert NatToString(n) == NatToString(n / 10) + [DigitChar(n % 10)];
  }


  // ---------------------------------------------------------------------------
  // The effect's guard

  /** What the effect builds: the spans and the trigger's start. */
  datatype Setup = Setup(spans: seq<Span>, start: string)

  /** The effect does nothing without the element, with an empty `text` prop, or
      before the fonts have loaded; otherwise it splits the element's own text. */
  function SetUp(element: Option<string>, text: string, fontsLoaded: bool,
                 thresholdHundredths: int, rootMargin: string): (r: Option<Setup>)
    requires WholeMarginText(rootMargin)
    ensures r.Some? <==> element.Some? && text != "" && fontsLoaded
    ensures r.Some? ==> |r.value.spans| == |element.value|
    ensures r.Some? ==> r.value.spans == Spans(element.value)
    ensures r.Some? ==> r.value.start == ScrollTriggerStart(thresholdHundredths, rootMargin)
  {
    if element.None? || text == "" || !fontsLoaded then None
    else Some(Setup(Spans(element.value), ScrollTriggerStart(thresholdHundredths, rootMargin)))
  }
}

=== FILE: theme.dfy ===
/** The root element's class list (a DOMTokenList), reduced to what the theme code
    uses: removing tokens and adding one token, which must be non-empty and free of
    ASCII white space. */
module ClassList {
  import opened Wrappers

  predicate AsciiSpace(c: char) {
    c == ' ' || c == '\t' || c == '\n' || c == '\U{000C}' || c == '\r'
  }

  /** A token `add` accepts without throwing. */
  predicate ValidToken(t: string) {
    t != [] && forall i :: 0 <= i < |t| ==> !AsciiSpace(t[i])
  }

  /** A class list holds each token at most once. */
  predicate Distinct(classes: seq<string>) {
    forall i, j :: 0 <= i < j < |classes| ==> classes[i] != classes[j]
  }

  /** `classList.remove(...drop)`: every listed token goes, everything else stays in order. */
  function Remove(classes: seq<string>, drop: set<string>): (r: seq<string>)
    ensures forall c :: c in r <==> c in classes && c !in drop
    ensures |r| <= |classes|
    ensures Distinct(classes) ==> Distinct(r)
  {
    if classes == [] then []
    else
      var rest := Remove(classes[1..], drop);
      assert forall c :: c in classes <==> c == classes[0] || c in classes[1..];
      if classes[0] in drop then rest else [classes[0]] + rest
  }

  /** `classList.add(token)`: appended when absent, kept when present; an empty token
      or one with white space in it throws. */
  function Add(classes: seq<string>, token: string): (r: Result<seq<string>, string>)
    ensures !ValidToken(token) ==> r.Failure?
    ensures ValidToken(token) ==> r.Success? && (forall c :: c in r.value <==> c in classes || c == token)
    ensures ValidToken(token) && Distinct(classes) ==> Distinct(r.value)
  {
    if token == [] then Failure("SyntaxError")
    else if !ValidToken(token) then Failure("InvalidCharacterError")
    else if token in classes then Success(classes)
    else Success(classes + [token])
  }
}

/** The theme store: initial theme from storage or the OS preference, the two effects
    that apply a theme to the root element and persist it, and the context hook. */
module ThemeProvider {
  import opened Wrappers
  import ClassList

  const Light: string := "light"
  const Dark: string := "dark"
  const StorageKey: string := "theme"

  /** The part of the document the provider touches: local storage and the root
      element's classes. */
  datatype Document = Document(storage: map<string, string>, root: seq<string>)

  /** The provider's React state. */
  datatype Provider = Provider(current: string, resolved: string, initialized: bool)

  /** `getSystemThemePreference`: the `prefers-color-scheme: dark` query decides. */
  function SystemPreference(prefersDark: bool): (t: string)
    ensures t == Dark <==> prefersDark
    ensures t == Light <==> !prefersDark
  {
    if prefersDark then Dark else Light
  }

  /** `getInitialThemeValue`: a stored value wins when it is truthy (present and not
      empty), whatever it says; otherwise the OS preference. */
  function InitialTheme(storage: map<string, string>, prefersDark: bool): (t: string)
    ensures StorageKey in storage && storage[StorageKey] != "" ==> t == storage[StorageKey]
    ensures !(StorageKey in storage && storage[StorageKey] != "") ==> t == SystemPreference(prefersDark)
    ensures t != ""
  {
    if StorageKey in storage && storage[StorageKey] != "" then storage[StorageKey]
    else SystemPreference(prefersDark)
  }

  /** `remove('light', 'dark')` followed by `add(theme)` on the root classes. */
  function ApplyClass(root: seq<string>, theme: string): (r: Result<seq<string>, string>)
    ensures !ClassList.ValidToken(theme) ==> r.Failure?
    ensures ClassList.ValidToken(theme) ==> r.Success?
    ensures r.Success? ==> forall c :: c in r.value <==> c == theme || (c in root && c != Light && c != Dark)
  {
    ClassList.Add(ClassList.Remove(root, {Light, Dark}), theme)
  }

  /** The mount effect: read the initial theme again, put it in both state fields,
      apply its class to the root, and mark the store initialised. Storage is not
      written. */
  function InitEffect(doc: Document, prefersDark: bool): (r: Result<(Provider, Document), string>)
    ensures r.Success? ==> var (p, d) := r.value;
              && p.current == InitialTheme(doc.storage, prefersDark)
              && p.resolved == p.current && p.initialized
              && d.storage == doc.storage
              && (forall c :: c in d.root <==> c == p.current || (c in doc.root && c != Light && c != Dark))
    ensures r.Failure? <==> !ClassList.ValidToken(InitialTheme(doc.storage, prefersDark))
  {
    var theme := InitialTheme(doc.storage, prefersDark);
    match ApplyClass(doc.root, theme)
    case Failure(e) => Failure(e)
    case Success(root) => Success((Provider(theme, theme, true), doc.(root := root)))
  }

  /** The update effect: nothing happens before initialisation; afterwards the root
      gets the current theme's class, storage gets the current theme, and the
      resolved theme follows. */
  function UpdateEffect(p: Provider, doc: Document): (r: Result<(Provider, Document), string>)
    ensures !p.initialized ==> r == Success((p, doc))
    ensures p.initialized && r.Success? ==> var (p', d) := r.value;
              && p' == p.(resolved := p.current)
              && d.storage == doc.storage[StorageKey := p.current]
              && (forall c :: c in d.root <==> c == p.current || (c in doc.root && c != Light && c != Dark))
    ensures p.initialized ==> (r.Failure? <==> !ClassList.ValidToken(p.current))
  {
    if !p.initialized then Success((p, doc))
    else
      match ApplyClass(doc.root, p.current)
      case Failure(e) => Failure(e)
      case Success(root) => Success((p.(resolved := p.current), Document(doc.storage[StorageKey := p.current], root)))
  }

  /** Mounting the provider: both state fields start from the initial theme; the first
      commit runs the mount effect and the update effect (which still sees the store
      uninitialised and skips); the re-render that the initialised flag causes runs
      the update effect again. `defaultTheme` is accepted and never read. */
  function Mount(doc: Document, prefersDark: bool, defaultTheme: string): (r: Result<(Provider, Document), string>)
    ensures r.Success? ==> r.value.0.current == InitialTheme(doc.storage, prefersDark)
  {
    var first := Provider(InitialTheme(doc.storage, prefersDark), InitialTheme(doc.storage, prefersDark), false);
    match InitEffect(doc, prefersDark)
    case Failure(e) => Failure(e)
    case Success(mounted) =>
      match UpdateEffect(first, mounted.1)
      case Failure(e) => Failure(e)
      case Success(_) => UpdateEffect(mounted.0, mounted.1)
  }

  /** `updateTheme`: setting the current value re-renders and runs the update effect;
      setting the value it already has is a no-op, as React bails out of the update. */
  function SetTheme(p: Provider, doc: Document, theme: string): (r: Result<(Provider, Document), string>)
    requires theme == Light || theme == Dark
    ensures theme == p.current ==> r == Success((p, doc))
    ensures theme != p.current && p.initialized ==> r.Success? && Consistent(r.value.0, r.value.1)
  {
    if theme == p.current then Success((p, doc))
    else UpdateEffect(p.(current := theme), doc)
  }

  /** What holds between changes once the store is initialised: the root carries the
      current theme's class and not the other one's, storage holds the current theme,
      and the resolved theme is the current one. */
  predicate Consistent(p: Provider, doc: Document) {
    && p.initialized
    && p.resolved == p.current
    && p.current in doc.root
    && (Light in doc.root <==> p.current == Light)
    && (Dark in doc.root <==> p.current == Dark)
    && StorageKey in doc.storage && doc.storage[StorageKey] == p.current
  }

  /** `useTheme`: the context value, or the error thrown outside a provider. */
  function UseTheme(context: Option<Provider>): (r: Result<Provider, string>)
    ensures context.None? <==> r.Failure?
    ensures context.Some? ==> r == Success(context.value)
  {
    match context
    case None => Failure("useTheme must be used within a ThemeProvider")
    case Some(p) => Success(p)
  }

  // ---------------------------------------------------------------------------
  // Properties

  /** Once mounted, the store is consistent and holds the initial theme, and the
      other classes of the root are those it had, less 'light' and 'dark'. */
  lemma MountConsistent(doc: Document, prefersDark: bool, defaultTheme: string)
    requires ClassList.ValidToken(InitialTheme(doc.storage, prefersDark))
    ensures var r := Mount(doc, prefersDark, defaultTheme);
            && r.Success?
            && Consistent(r.value.0, r.value.1)
            && r.value.0.current == InitialTheme(doc.storage, prefersDark)
            && forall c :: c != r.value.0.current ==>
                 (c in r.value.1.root <==> c in doc.root && c != Light && c != Dark)
  {
    var theme := InitialTheme(doc.storage, prefersDark);
    var (p1, d1) := InitEffect(doc, prefersDark).value;
    var (p2, d2) := UpdateEffect(p1, d1).value;
    assert forall c :: c in d2.root <==> c == theme || (c in doc.root && c != Light && c != Dark);
  }

  /** The `defaultTheme` prop never changes the outcome of mounting. */
  lemma DefaultThemeIgnored(doc: Document, prefersDark: bool, a: string, b: string)
    ensures Mount(doc, prefersDark, a) == Mount(doc, prefersDark, b)
  {
  }

  /** A stored value is used without validation: a non-empty stored 'blue' becomes the
      theme, and neither 'light' nor 'dark' is then on the root. */
  lemma StoredValueNotValidated(prefersDark: bool)
    ensures var doc := Document(map[StorageKey := "blue"], []);
            && InitialTheme(doc.storage, prefersDark) == "blue"
            && Mount(doc, prefersDark, Dark).Success?
            && Light !in Mount(doc, prefersDark, Dark).value.1.root
            && Dark !in Mount(doc, prefersDark, Dark).value.1.root
  {
    var doc := Document(map[StorageKey := "blue"], []);
    assert ClassList.ValidToken("blue");
    MountConsistent(doc, prefersDark, Dark);
  }

  /** An empty stored value is falsy and falls back to the OS preference. */
  lemma EmptyStoredValueFallsBack(prefersDark: bool)
    ensures InitialTheme(map[StorageKey := ""], prefersDark) == SystemPreference(prefersDark)
  {
  }

  /** A stored value with white space in it makes the mount effect throw. */
  lemma StoredValueWithSpaceThrows(prefersDark: bool)
    ensures Mount(Document(map[StorageKey := "a b"], []), prefersDark, Dark).Failure?
  {
    assert !ClassList.ValidToken("a b") by { assert "a b"[1] == ' '; }
  }

  /** Every change keeps the store consistent, and leaves every class other than
      'light', 'dark' and the new theme as it was. */
  lemma SetThemeConsistent(p: Provider, doc: Document, theme: string)
    requires Consistent(p, doc)
    requires theme == Light || theme == Dark
    ensures var r := SetTheme(p, doc, theme);
            && r.Success? && Consistent(r.value.0, r.value.1)
            && r.value.0.current == theme
            && forall c :: c != Light && c != Dark && c != theme && c != p.current ==>
                 (c in r.value.1.root <==> c in doc.root)
  {
    if theme != p.current {
      assert ClassList.ValidToken(theme) by {
        if theme == Light { assert forall i :: 0 <= i < |Light| ==> !ClassList.AsciiSpace(Light[i]); }
        else { assert forall i :: 0 <= i < |Dark| ==> !ClassList.AsciiSpace(Dark[i]); }
      }
    }
  }

  /** Only 'light' and 'dark' are ever removed: the class of an unvalidated stored
      theme stays on the root after the user switches to a real one. */
  lemma StaleClassSurvives(p: Provider, doc: Document, theme: string)
    requires Consistent(p, doc) && p.current != Light && p.current != Dark
    requires theme == Light || theme == Dark
    ensures var r := SetTheme(p, doc, theme);
            r.Success? && p.current in r.value.1.root && theme in r.value.1.root
  {
    SetThemeConsistent(p, doc, theme);
  }

  /** Nothing reaches storage before the store is initialised. */
  lemma NoStorageWriteBeforeInit(p: Provider, doc: Document)
    requires !p.initialized
    ensures UpdateEffect(p, doc) == Success((p, doc))
  {
  }
}

/** The theme toggle button: the flip rule, the local `isDark` flag, and the single
    transition style element it keeps in the document head. */
module ThemeToggle {
  import ThemeProvider

  const StyleId: string := "theme-transition-styles"

  /** A `<style>` element of the document head. */
  datatype StyleElement = StyleElement(id: string, text: string)

  /** The toggle's local state and the document head it writes to. */
  datatype Toggle = Toggle(isDark: bool, head: seq<StyleElement>)

  /** `theme === 'light' ? 'dark' : 'light'`. */
  function Toggled(theme: string): (t: string)
    ensures theme == ThemeProvider.Light ==> t == ThemeProvider.Dark
    ensures theme != ThemeProvider.Light ==> t == ThemeProvider.Light
  {
    if theme == ThemeProvider.Light then ThemeProvider.Dark else ThemeProvider.Light
  }

  /** On the two real themes the flip is an involution; any other value goes to light. */
  lemma ToggledInvolution(theme: string)
    requires theme == ThemeProvider.Light || theme == ThemeProvider.Dark
    ensures Toggled(Toggled(theme)) == theme
    ensures Toggled(theme) != theme
  {
  }

  /** How many head elements carry the id. */
  function CountId(head: seq<StyleElement>, id: string): (n: nat)
    ensures n <= |head|
    ensures n == 0 <==> forall k :: 0 <= k < |head| ==> head[k].id != id
  {
    if head == [] then 0 else (if head[0].id == id then 1 else 0) + CountId(head[1..], id)
  }

  /** `getElementById`: the first element with the id, if any. */
  function FindId(head: seq<StyleElement>, id: string): (k: nat)
    ensures k <= |head|
    ensures k < |head| ==> head[k].id == id
    ensures forall j :: 0 <= j < k ==> head[j].id != id
  {
    if head == [] || head[0].id == id then 0 else 1 + FindId(head[1..], id)
  }

  lemma {:induction false} CountIdUpdate(head: seq<StyleElement>, k: nat, e: StyleElement, id: string)
    requires k < |head| && head[k].id == e.id
    ensures CountId(head[k := e], id) == CountId(head, id)
  {
    if k > 0 {
      assert head[k := e][1..] == head[1..][k - 1 := e];
      CountIdUpdate(head[1..], k - 1, e, id);
    }
  }

  lemma {:induction false} CountIdAppend(head: seq<StyleElement>, e: StyleElement, id: string)
    ensures CountId(head + [e], id) == CountId(head, id) + (if e.id == id then 1 else 0)
  {
    if head != [] {
      assert (head + [e])[1..] == head[1..] + [e];
      CountIdAppend(head[1..], e, id);
    }
  }

  /** `createAnimation`: reuse the style element with the id if there is one, create and
      append it otherwise, and set its text. The head never holds more than one. */
  function CreateAnimation(head: seq<StyleElement>, css: string): (r: seq<StyleElement>)
    ensures CountId(head, StyleId) <= 1 ==> CountId(r, StyleId) == 1
    ensures exists k :: 0 <= k < |r| && r[k] == StyleElement(StyleId, css)
    ensures CountId(head, StyleId) > 0 ==> |r| == |head|
    ensures |head| <= |r|
    ensures forall j | 0 <= j < |head| && j != FindId(head, StyleId) :: r[j] == head[j]
    ensures CountId(head, StyleId) == 0 ==> r == head + [StyleElement(StyleId, css)]
    ensures CountId(head, StyleId) > 0 ==>
              && FindId(head, StyleId) < |head|
              && r == head[FindId(head, StyleId) := StyleElement(StyleId, css)]
  {
    var k := FindId(head, StyleId);
    if k < |head| then
      CountIdUpdate(head, k, StyleElement(StyleId, css), StyleId);
      var r := head[k := StyleElement(StyleId, css)];
      assert r[k] == StyleElement(StyleId, css);
      r
    else
      CountIdAppend(head, StyleElement(StyleId, css), StyleId);
      var r := head + [StyleElement(StyleId, css)];
      assert r[|head|] == StyleElement(StyleId, css);
      r
  }

  /** A click: flip the local flag, write the transition styles, and ask the provider
      for the flipped theme. Whether the browser has view transitions only decides if
      the request runs inside one; either way it is made exactly once, so the result
      does not depend on it. */
  function Click(t: Toggle, theme: string, css: string, hasViewTransitions: bool): (r: (Toggle, seq<string>))
    ensures r.0.isDark == !t.isDark
    ensures r.1 == [Toggled(theme)]
    ensures CountId(t.head, StyleId) <= 1 ==> CountId(r.0.head, StyleId) == 1
  {
    (Toggle(!t.isDark, CreateAnimation(t.head, css)), [Toggled(theme)])
  }

  /** The effect that re-syncs the flag whenever the resolved theme changes. */
  function Sync(t: Toggle, resolved: string): (r: Toggle)
    ensures r.isDark <==> resolved == ThemeProvider.Dark
    ensures r.head == t.head
  {
    t.(isDark := resolved == ThemeProvider.Dark)
  }

  /** A click on a consistent store flips the theme, leaves the store consistent, and
      once the flag re-syncs it shows the new theme, whatever the flag was before. */
  lemma ClickFlipsTheme(t: Toggle, p: ThemeProvider.Provider, doc: ThemeProvider.Document,
                        css: string, hasViewTransitions: bool)
    requires ThemeProvider.Consistent(p, doc)
    requires p.current == ThemeProvider.Light || p.current == ThemeProvider.Dark
    ensures var (t1, calls) := Click(t, p.current, css, hasViewTransitions);
            var r := ThemeProvider.SetTheme(p, doc, calls[0]);
            && r.Success?
            && ThemeProvider.Consistent(r.value.0, r.value.1)
            && r.value.0.current == Toggled(p.current) && r.value.0.current != p.current
            && (Sync(t1, r.value.0.resolved).isDark <==> r.value.0.current == ThemeProvider.Dark)
  {
    ThemeProvider.SetThemeConsistent(p, doc, Toggled(p.current));
  }
}

=== FILE: ticker.dfy ===
/** The one-second counters of the widgets: an interval that fires every 1000 ms from
    when it was started, each firing adding one second (music stops adding at its track
    length), and the random bar heights redrawn by the waveform interval. */
module SecondCounter {
  import opened Wrappers
  import opened JsText

  const TickMs: int := 1000

  /** How often an interval whose next firing is due at `due` fires up to and
      including time `t`. */
  function Firings(due: int, t: int): (k: nat)
    ensures k > 0 ==> due + TickMs * (k - 1) <= t
    ensures t < due + TickMs * k
  {
    if due <= t then (t - due) / TickMs + 1 else 0
  }

  /** One firing of the timer update: plus one, or (with a cap) plus one only while
      below the cap. */
  function Tick(time: int, cap: Option<int>): (r: int)
    ensures r == time || r == time + 1
    ensures cap.Some? && time >= cap.value ==> r == time
    ensures (cap.None? || time < cap.value) ==> r == time + 1
  {
    match cap
    case None => time + 1
    case Some(c) => if time < c then time + 1 else time
  }

  /** The interval fired one firing at a time up to `t`: the count and the next due time. */
  function FireTicks(time: int, due: int, t: int, cap: Option<int>): (r: (int, int))
    decreases if due <= t then t - due + 1 else 0
    ensures r.1 > t && r.1 >= due && r.0 >= time
    ensures due > t ==> r == (time, due)
    ensures cap.None? ==> r.1 == due + TickMs * (r.0 - time)
    ensures cap.Some? && time <= cap.value ==> r.0 <= cap.value
  {
    if due <= t then FireTicks(Tick(time, cap), due + TickMs, t, cap) else (time, due)
  }

  /** The count after `k` firings, in closed form. */
  function CountAfter(time: int, k: nat, cap: Option<int>): (r: int)
    ensures cap.None? ==> r == time + k
    ensures cap.Some? && time >= cap.value ==> r == time
    ensures cap.Some? && time < cap.value ==> r == if time + k <= cap.value then time + k else cap.value
  {
    match cap
    case None => time + k
    case Some(c) => if time >= c then time else if time + k <= c then time + k else c
  }

  /** Firing the interval one firing at a time adds exactly the firings due by `t`
      (capped when there is a cap) and moves the next firing past `t`. */
  lemma {:induction false} FireTicksClosedForm(time: int, due: int, t: int, cap: Option<int>)
    ensures FireTicks(time, due, t, cap) == (CountAfter(time, Firings(due, t), cap), due + TickMs * Firings(due, t))
    decreases if due <= t then t - due + 1 else 0
  {
    if due <= t {
      FireTicksClosedForm(Tick(time, cap), due + TickMs, t, cap);
      assert Firings(due + TickMs, t) + 1 == Firings(due, t);
    }
  }

  /** Firing up to `t1` and then up to `t2` is firing up to `t2`. */
  lemma FireTicksCompose(time: int, due: int, t1: int, t2: int, cap: Option<int>)
    requires t1 <= t2
    ensures var (time1, due1) := FireTicks(time, due, t1, cap);
            FireTicks(time1, due1, t2, cap) == FireTicks(time, due, t2, cap)
  {
    FireTicksClosedForm(time, due, t1, cap);
    var (time1, due1) := FireTicks(time, due, t1, cap);
    FireTicksClosedForm(time1, due1, t2, cap);
    FireTicksClosedForm(time, due, t2, cap);
    assert Firings(due, t1) + Firings(due1, t2) == Firings(due, t2);
  }

  // ---------------------------------------------------------------------------
  // The waveform's random heights

  /** What `Math.random()` can return. */
  predicate RandomDraws(samples: seq<real>) {
    forall k :: 0 <= k < |samples| ==> 0.0 <= samples[k] < 1.0
  }

  /** `Math.random() * 0.8 + 0.2` for each bar. */
  function Heights(samples: seq<real>): (hs: seq<real>)
    requires RandomDraws(samples)
    ensures |hs| == |samples|
    ensures forall k :: 0 <= k < |hs| ==> 0.2 <= hs[k] < 1.0
  {
    seq(|samples|, k requires 0 <= k < |samples| => samples[k] * 0.8 + 0.2)
  }

  /** `Math.max(floor, h * 14)`: the animated height of one bar. */
  function BarHeight(floor: real, h: real): (r: real)
    ensures r >= floor && r >= h * 14.0
    ensures r == floor || r == h * 14.0
  {
    Max(floor, h * 14.0)
  }
}

=== FILE: utils.dfy ===
/** Truncation with an ellipsis, from the shared utilities file (the
    reading-time estimate and the e-mail check follow in their own modules). */
module Truncation {
  import opened JsText

  // ---------------------------------------------------------------------------
  // truncateText

  /** `truncateText(text, maxLength)`: text that fits is returned as is; longer
      text is cut to `maxLength` characters, trimmed, and given a "..." tail. */
  function TruncateText(text: string, maxLength: nat): (r: string)
    ensures |text| <= maxLength ==> r == text
    ensures |text| > maxLength ==> Truncated(text, maxLength, r)
  {
    if |text| <= maxLength then text
    else
      TruncatedShape(text, maxLength);
      Trim(text[..maxLength]) + "..."
  }

  /** `r` is the first `maxLength` characters of `text` with the white space at both
      ends removed, followed by "...": what is kept sits in place in the text, only
      white space was dropped around it, and it neither begins nor ends with any. */
  predicate Truncated(text: string, maxLength: nat, r: string)
    requires maxLength <= |text|
  {
    |r| >= 3 && r[|r| - 3..] == "..." && |r| <= maxLength + 3 && KeptTrimmed(text, maxLength, r[..|r| - 3])
  }

  /** `kept` is the cut's content with its leading and trailing white space removed. */
  predicate KeptTrimmed(text: string, maxLength: nat, kept: string)
    requires maxLength <= |text|
  {
    var a := SkipSpace(text[..maxLength], 0);
    && a + |kept| <= maxLength && kept == text[a..a + |kept|]
    && (forall i :: 0 <= i < a ==> IsSpace(text[i]))
    && (forall i :: a + |kept| <= i < maxLength ==> IsSpace(text[i]))
    && (kept == [] || (!IsSpace(kept[0]) && !IsSpace(kept[|kept| - 1])))
  }

  /** The cut, trimmed and ellipsised text has that shape. */
  lemma TruncatedShape(text: string, maxLength: nat)
    requires |text| > maxLength
    ensures Truncated(text, maxLength, Trim(text[..maxLength]) + "...")
  {
    TrimmedHead(text, maxLength);
    var kept := Trim(text[..maxLength]);
    var r := kept + "...";
    assert r[..|r| - 3] == kept;
  }

  /** The trimmed first `n` characters, described by positions in the whole text. */
  lemma TrimmedHead(text: string, n: nat)
    requires n <= |text|
    ensures var kept := Trim(text[..n]); var a := SkipSpace(text[..n], 0);
            && a + |kept| <= n && kept == text[a..a + |kept|]
            && (forall i :: 0 <= i < a ==> IsSpace(text[i]))
            && (forall i :: a + |kept| <= i < n ==> IsSpace(text[i]))
  {
    var head := text[..n];
    var kept := Trim(head);
    var a := SkipSpace(head, 0);
    assert head[a..a + |kept|] == text[a..a + |kept|];
    assert forall i :: 0 <= i < n ==> head[i] == text[i];
  }

  /** The example in the function's documentation. */
  lemma TruncateTextExample(text: string, maxLength: nat)
    requires text == "This is a long text" && maxLength == 10
    ensures TruncateText(text, maxLength) == "This is a..."
  {
    var head := text[..maxLength];
    assert head == "This is a ";
    assert SkipSpace(head, 0) == 0;
    assert SkipSpaceBack(head, 0, 10) == 9;
    assert Trim(head) == head[..9] == "This is a";
  }
}

module ReadingTime {
  import opened JsText

  /** Average reading speed, in words per minute. */
  const WordsPerMinute: nat := 200

  /** The first index at or after `from` that holds white space (or |s|). */
  function SkipWord(s: string, from: nat): (n: nat)
    requires from <= |s|
    decreases |s| - from
    ensures from <= n <= |s|
    ensures forall i :: from <= i < n ==> !IsSpace(s[i])
    ensures n == |s| || IsSpace(s[n])
  {
    if from < |s| && !IsSpace(s[from]) then SkipWord(s, from + 1) else from
  }

  /** `s.slice(from).split(/\s+/)`: the pieces between maximal runs of white space,
      including the empty pieces that leading or trailing white space leaves. */
  function SplitFrom(s: string, from: nat): (pieces: seq<string>)
    requires from <= |s|
    decreases |s| - from
    ensures |pieces| >= 1
    ensures forall k :: 0 <= k < |pieces| ==> NoSpace(pieces[k])
  {
    var n := SkipWord(s, from);
    if n == |s| then [s[from..]]
    else
      var m := SkipSpace(s, n);
      [s[from..n]] + SplitFrom(s, m)
  }

  /** `text.split(/\s+/)`. */
  function SplitOnSpace(text: string): (pieces: seq<string>)
    ensures |pieces| >= 1
  {
    SplitFrom(text, 0)
  }

  /** Position `j` begins a maximal run of white space. */
  predicate RunStart(s: string, j: nat)
    requires j < |s|
  {
    IsSpace(s[j]) && (j == 0 || !IsSpace(s[j - 1]))
  }

  /** The number of maximal white-space runs that begin at or after `from`. */
  function RunsFrom(s: string, from: nat): (n: nat)
    decreases |s| - from
    ensures from >= |s| ==> n == 0
    ensures from < |s| ==> n <= |s| - from
  {
    if from >= |s| then 0 else (if RunStart(s, from) then 1 else 0) + RunsFrom(s, from + 1)
  }

  lemma {:induction false} RunsSkip(s: string, lo: nat, hi: nat)
    requires lo <= hi <= |s|
    requires forall j :: lo <= j < hi ==> !RunStart(s, j)
    ensures RunsFrom(s, lo) == RunsFrom(s, hi)
    decreases hi - lo
  {
    if lo < hi {
      RunsSkip(s, lo + 1, hi);
    }
  }

  /** Splitting yields one piece more than there are white-space runs. */
  lemma {:induction false} SplitFromCount(s: string, from: nat)
    requires from <= |s|
    requires from == 0 || from == |s| || !IsSpace(s[from])
    ensures |SplitFrom(s, from)| == RunsFrom(s, from) + 1
    decreases |s| - from
  {
    var n := SkipWord(s, from);
    RunsSkip(s, from, n);
    if n < |s| {
      var m := SkipSpace(s, n);
      assert RunStart(s, n);
      RunsSkip(s, n + 1, m);
      SplitFromCount(s, m);
    }
  }

  lemma SplitCount(text: string)
    ensures |SplitOnSpace(text)| == RunsFrom(text, 0) + 1
  {
    SplitFromCount(text, 0);
  }

  /** `Math.ceil(pieces / 200)`, characterised as the least whole number of minutes
      covering the pieces. */
  function MinutesFor(pieces: nat): (r: nat)
    ensures (r - 1) * WordsPerMinute < pieces <= r * WordsPerMinute
  {
    (pieces + WordsPerMinute - 1) / WordsPerMinute
  }

  /** `calculateReadingTime(text)`: one more piece than there are white-space runs,
      so never less than one minute, even for the empty text. */
  function CalculateReadingTime(text: string): (minutes: nat)
    ensures var pieces := RunsFrom(text, 0) + 1;
              (minutes - 1) * WordsPerMinute < pieces <= minutes * WordsPerMinute
    ensures minutes >= 1
  {
    SplitCount(text);
    MinutesFor(|SplitOnSpace(text)|)
  }

  /** More pieces never mean less reading time. */
  lemma MinutesMonotone(m: nat, n: nat)
    requires m <= n
    ensures MinutesFor(m) <= MinutesFor(n)
  {
  }

  /** Anything from one to two hundred pieces reads in one minute. */
  lemma MinutesOneForShortText(n: nat)
    requires 1 <= n <= WordsPerMinute
    ensures MinutesFor(n) == 1
  {
  }

  /** Leading or trailing white space adds empty pieces, and even "" is one piece. */
  lemma SplitEdgeCases()
    ensures SplitOnSpace("") == [""]
    ensures SplitOnSpace(" a") == ["", "a"]
    ensures SplitOnSpace("a b ") == ["a", "b", ""]
    ensures CalculateReadingTime("") == 1
  {
    assert SkipSpace(" a", 0) == 1;
    assert SkipWord(" a", 1) == 2;
    assert SkipWord("a b ", 0) == 1;
    assert SkipSpace("a b ", 1) == 2;
    assert SkipWord("a b ", 2) == 3;
    assert SkipSpace("a b ", 3) == 4;
    assert SplitFrom("a b ", 4) == [""];
    assert "a b "[2..3] == "b" && "a b "[0..1] == "a";
    assert SplitFrom("a b ", 2) == ["b", ""];
  }
}

module EmailCheck {
  import opened JsText

  /** `[^\s@]`: a character allowed inside each part of the address pattern. */
  predicate PartChar(c: char) {
    !IsSpace(c) && c != '@'
  }

  /** `[^\s@]+`. */
  predicate Part(s: string) {
    |s| > 0 && forall k :: 0 <= k < |s| ==> PartChar(s[k])
  }

  /** The language of `/^[^\s@]+@[^\s@]+\.[^\s@]+$/`: some '@' and some later '.'
      cut the text into three non-empty parts free of white space and '@'. */
  ghost predicate MatchesEmailPattern(s: string)
    ensures MatchesEmailPattern(s) ==> |s| >= 5 && forall k :: 0 <= k < |s| ==> !IsSpace(s[k])
  {
    exists i, j :: 0 <= i < j < |s| && s[i] == '@' && s[j] == '.'
                   && Part(s[..i]) && Part(s[i + 1..j]) && Part(s[j + 1..])
  }

  /** `validateEmail(email)`: no white space, exactly one '@' with something before
      it, and after it a '.' with text on both sides; exactly the pattern's language. */
  function ValidateEmail(email: string): (ok: bool)
    ensures ok <==> MatchesEmailPattern(email)
  {
    var at := IndexOfChar(email, '@');
    var ok := && NoSpace(email)
              && 0 < at < |email|
              && (forall k :: at < k < |email| ==> email[k] != '@')
              && exists j :: at + 2 <= j <= |email| - 2 && email[j] == '.';
    ValidateEmailSound(email);
    ValidateEmailComplete(email);
    ok
  }

  lemma ValidateEmailSound(email: string)
    ensures var at := IndexOfChar(email, '@');
            (&& NoSpace(email)
             && 0 < at < |email|
             && (forall k :: at < k < |email| ==> email[k] != '@')
             && exists j :: at + 2 <= j <= |email| - 2 && email[j] == '.')
            ==> MatchesEmailPattern(email)
  {
    var at := IndexOfChar(email, '@');
    if && NoSpace(email)
       && 0 < at < |email|
       && (forall k :: at < k < |email| ==> email[k] != '@')
       && exists j :: at + 2 <= j <= |email| - 2 && email[j] == '.'
    {
      var j :| at + 2 <= j <= |email| - 2 && email[j] == '.';
      assert Part(email[..at]);
      assert Part(email[at + 1..j]);
      assert Part(email[j + 1..]);
    }
  }

  lemma ValidateEmailComplete(email: string)
    ensures var at := IndexOfChar(email, '@');
            MatchesEmailPattern(email) ==>
            (&& NoSpace(email)
             && 0 < at < |email|
             && (forall k :: at < k < |email| ==> email[k] != '@')
             && exists j :: at + 2 <= j <= |email| - 2 && email[j] == '.')
  {
    if MatchesEmailPattern(email) {
      var i, j :| 0 <= i < j < |email| && email[i] == '@' && email[j] == '.'
                  && Part(email[..i]) && Part(email[i + 1..j]) && Part(email[j + 1..]);
      PartsCoverEmail(email, i, j);
      var at := IndexOfChar(email, '@');
      assert at == i;
      assert at + 2 <= j <= |email| - 2;
    }
  }

  /** Every character of a matching address lies in a part, or is the '@' or the '.'. */
  lemma PartsCoverEmail(email: string, i: nat, j: nat)
    requires i < j < |email| && email[i] == '@' && email[j] == '.'
    requires Part(email[..i]) && Part(email[i + 1..j]) && Part(email[j + 1..])
    ensures NoSpace(email)
    ensures forall k :: 0 <= k < |email| && k != i ==> email[k] != '@'
  {
    forall k | 0 <= k < |email|
      ensures !IsSpace(email[k]) && (k != i ==> email[k] != '@')
    {
      if k < i {
        assert email[k] == email[..i][k];
      } else if i < k < j {
        assert email[k] == email[i + 1..j][k - i - 1];
      } else if j < k {
        assert email[k] == email[j + 1..][k - j - 1];
      }
    }
  }

  /** The examples in the function's documentation. */
  lemma ValidateEmailExamples()
    ensures ValidateEmail("user@example.com")
    ensures !ValidateEmail("invalid-email")
  {
    var good := "user@example.com";
    assert good[4] == '@' && good[12] == '.';
    assert Part(good[..4]) && Part(good[5..12]) && Part(good[13..]);
    var bad := "invalid-email";
    assert forall k :: 0 <= k < |bad| ==> bad[k] != '@';
  }
}

=== FILE: wrappers.dfy ===
/** Failure-compatible wrappers used across the model: an optional value and a
    value-or-error result (the source's `undefined` and thrown errors). */
module Wrappers {

  datatype Option<+T> = None | Some(value: T) {

    /** The wrapped value, or `default` when there is none. */
    function GetOr(default: T): (r: T)
      ensures Some? ==> r == value
      ensures None? ==> r == default
    {
      match this
      case Some(v) => v
      case None => default
    }
  }

  datatype Result<+R, +E> = Success(value: R) | Failure(error: E) {

    predicate IsFailure() {
      Failure?
    }
  }
}
